=== FILE: README.md ===
# go-proxy core, modelled in Dafny

go-proxy is a MySQL-wire proxy. A client session sends SQL statements. The
proxy tracks the session's charset, database and transaction state. It
routes each statement to a server group, chosen by regex rules or pinned to
the default server inside a transaction. It then leases a back-end
connection, brings that connection in line with the session, and forwards
the statement.

The Dafny modules follow the Go packages:

| module | Go source |
|---|---|
| `QueryAnalyzer` | modules/proxy/query_analyzer.go (`SET NAMES` / `USE` classifier) |
| `TransactionAnalyzer` | modules/proxy/transaction_analyzer.go (transaction keywords and flags) |
| `ProxyHandler` | modules/proxy/handler.go (session state, routing, pinning, setup, prepared statements) |
| `ConnectionManager` | modules/proxy/connection_manager.go (per-session connections by group) |
| `Redirect` | modules/redirect/*.go (hash rules, regex rules, server map, `FindRedirect`) |
| `Lru` | modules/cache/in_memory.go (map plus recency list) |
| `Cache` | modules/cache/cache.go and the Redis implementation's constructor |
| `RedirectCache` | modules/cache/redirect/in_memory.go (hash to server memo) |
| `Registry` | modules/db/{group,server,db,monitor}.go (groups, server pool, loading, health) |
| `ServerStatus` | modules/db/server_status.go |
| `Config` | modules/config/*.go (validators, DSN, user lookup, defaults) |
| `Stats` | modules/stats/query.go |
| `LegacyHandler` | modules/mysql/handler.go (the older session handler) |
| `Backend`, `Common` | the environment (pools, connections, oracle) and shared helpers |

Environment choices:

- A Go string is a Dafny `string` in which each character stands for one byte.
- `unicode.IsSpace` and `unicode.ToUpper` are applied to `rune(byte)` and modelled over the Latin-1 range.
- The back end is a log of calls: lease, put, drop, ping, execute, prepare, and so on.
- An `Oracle` parameter decides which calls fail, from the call and the number of calls before it. Nothing talks to a database.
- `rand.Intn(n)` is a `rand: nat` parameter reduced `% n`.
- Go map iteration order is an explicit `order` parameter wherever it can matter.
- The app context is `done: Option<string>`, which is `Some(err)` once the context is cancelled.
- The SQL normaliser and the regex engine are function parameters: `normalize`, `compiles` and `matches`.
- Go shares one `*db.Server` between a group and `DbPool.Servers`. Here servers live in a sequence, and both maps hold indices into it.
- A nil-pointer dereference is the `Panics` case of `Common.Call`.

## Model

| member | source | states |
|---|---|---|
| QueryAnalyzer.Analyze | modules/proxy/query_analyzer.go:24-39 | A blank trimmed query is Unknown with no value. The result is SetNames exactly when the trimmed query matches `SET NAMES`, and its value is the charset that match extracts. It is UseDatabase exactly when the query fails `SET NAMES` and matches `USE`, and its value is the database that match extracts. An Unknown result carries no value. |
| QueryAnalyzer.AnalyzeSetNamesCharset | modules/proxy/query_analyzer.go:43-80 | Found exactly when the declarative match of `SET NAMES` yields a value. That value is returned with kind SetNames. A miss is the zero command. |
| QueryAnalyzer.AnalyzeUseDatabase | modules/proxy/query_analyzer.go:84-121 | The same as AnalyzeSetNamesCharset, for `USE`, with kind UseDatabase. |
| QueryAnalyzer.AnalyzeKeyword | modules/proxy/query_analyzer.go:48-79 | The source's index loops compute exactly the declarative `KeywordValue` (skip space, match prefix, skip space, non-empty rest). |
| QueryAnalyzer.SkipSpacesLoop | modules/proxy/query_analyzer.go:50-53 | The loop stops at the first non-space byte at or after its start, or at the end. |
| QueryAnalyzer.MatchPrefixLoop | modules/proxy/query_analyzer.go:55-67 | The comparison succeeds exactly when the whole prefix fits and every query byte upper-cases to the prefix byte. |
| QueryAnalyzer.KeywordValueSound | modules/proxy/query_analyzer.go:69-79 | A found value is non-empty and starts with a non-space byte. It is the query's tail after leading space, the matched prefix and the following space. |
| QueryAnalyzer.KeywordValueComplete | modules/proxy/query_analyzer.go:50-79 | The converse of soundness: space, a spelling of the prefix, space, then a value yields exactly that value. |
| QueryAnalyzer.ShortQueryNeverMatches | modules/proxy/query_analyzer.go:64-67 | A query shorter than the prefix never matches. |
| QueryAnalyzer.SetNamesSingleSpace | modules/proxy/query_analyzer.go:55-62 | A match has exactly one literal space between SET and NAMES. |
| QueryAnalyzer.AnalyzeBlank | modules/proxy/query_analyzer.go:25-28 | An empty or all-white-space query is Unknown. |
| QueryAnalyzer.UseWithoutBoundary | modules/proxy/query_analyzer.go:96-118 | No word boundary is needed after the keyword: `USEx` selects database `x`. |
| QueryAnalyzer.UseTrimsValue | modules/proxy/query_analyzer.go:25-27 | Trailing white space is trimmed before matching, so it never reaches the value. |
| QueryAnalyzer.SetNamesDoubleSpace | modules/proxy/query_analyzer.go:56-59 | Two spaces between SET and NAMES defeat the match. |
| QueryAnalyzer.SetNamesAnyCase | modules/proxy/query_analyzer.go:57 | Letters match in any case. |
| Common.TrimSpace | modules/proxy/query_analyzer.go:25 | The result is the input minus a leading and a trailing run of ASCII white space. The removed bytes are all white space, and a non-empty result starts and ends with a non-space byte. |
| Common.ToUpper | modules/proxy/transaction_analyzer.go:72 | Only a space upper-cases to a space, and capital letters are fixed points. |
| TransactionAnalyzer.CaseInsensitiveHasPrefix | modules/proxy/transaction_analyzer.go:58-86 | The two-index loop answers true exactly when, with white space removed from both strings, the query starts with the prefix up to letter case. |
| TransactionAnalyzer.StepOverSpaces | modules/proxy/transaction_analyzer.go:63-70 | The bytes an inner loop steps over add nothing to the stripped text, and it stops at a non-space byte. |
| TransactionAnalyzer.MismatchRefutes | modules/proxy/transaction_analyzer.go:71-74 | After agreeing prefixes, the first differing pair of non-space bytes refutes the match. |
| TransactionAnalyzer.ExitDecides | modules/proxy/transaction_analyzer.go:80-85 | Once the loop stops, the match holds exactly when the whole prefix was consumed. |
| TransactionAnalyzer.HandleKeyword | modules/proxy/transaction_analyzer.go:37-55 | Every handler sets `sendInTransaction`. `transaction` ends up true exactly for BEGIN and START TRANSACTION. |
| TransactionAnalyzer.AtMostOneKeyword | modules/proxy/transaction_analyzer.go:12-17 | A query matches at most one of the four keywords. |
| TransactionAnalyzer.Classify | modules/proxy/transaction_analyzer.go:28-32 | A returned keyword matches the query, and None means no keyword matches. |
| TransactionAnalyzer.AnalyzeTransactionInFinds | modules/proxy/transaction_analyzer.go:25-34 | Any iteration order that contains the matching keyword runs its handler. With no match the flags are unchanged. |
| TransactionAnalyzer.IterationOrderIrrelevant | modules/proxy/transaction_analyzer.go:28-33 | Every iteration order of the keyword map gives the same flags. |
| TransactionAnalyzer.AnalyzeTransactionFlags | modules/proxy/transaction_analyzer.go:25-55 | BEGIN and START TRANSACTION give (true, true). COMMIT and ROLLBACK give (false, true). No match leaves both flags as they were. |
| TransactionAnalyzer.TrimIrrelevant | modules/proxy/transaction_analyzer.go:26 | Trimming before the match changes nothing the match sees. |
| TransactionAnalyzer.BlankMatchesNothing | modules/proxy/transaction_analyzer.go:80-85 | An empty or all-space query matches no keyword. |
| TransactionAnalyzer.RespacedMatches | modules/proxy/transaction_analyzer.go:62-78 | Two spellings that differ only in the white space between the same words match each other. |
| TransactionAnalyzer.StartTransactionSpacing | modules/proxy/transaction_analyzer.go:62-78 | `START   TRANSACTION` and `STARTTRANSACTION` both match START TRANSACTION. |
| TransactionAnalyzer.SplitKeywordMatches | modules/proxy/transaction_analyzer.go:62-78 | `BE GIN` matches BEGIN. |
| TransactionAnalyzer.LeadingWordMatches | modules/proxy/transaction_analyzer.go:72 | A query opening with the keyword in any letter case matches it, whatever follows. |
| TransactionAnalyzer.RollbackToSavepointMatches | modules/proxy/transaction_analyzer.go:72-85 | `rollback to savepoint s1` counts as ROLLBACK. |
| ProxyHandler.NewProxyHandler | modules/proxy/handler.go:35-41 | A new session holds no connection and is outside any transaction. |
| ProxyHandler.UseDB | modules/proxy/handler.go:44-48 | UseDB sets the database, changes nothing else, and never fails. |
| ProxyHandler.AnalyzeQuery | modules/proxy/handler.go:216-232 | `SET NAMES` changes only the charset and `USE` changes only the database. Any other statement changes only the two flags, as transaction analysis says. |
| ProxyHandler.SetupCharset | modules/proxy/handler.go:237-253 | `SET NAMES x;` is sent only when the charset is set and differs. The tracked charset changes only on success. |
| ProxyHandler.SetupDatabase | modules/proxy/handler.go:255-271 | `USE x;` is sent only when the database is set and differs. The tracked database changes only on success. |
| ProxyHandler.SetupConnection | modules/proxy/handler.go:235-274 | After success the connection is in step with the session. Nothing is sent exactly when it already is. A failed `SET NAMES` skips `USE`. Only that entry changes. |
| ProxyHandler.SetupTwiceIsSilent | modules/proxy/handler.go:237-256 | A second setup with no session change sends nothing. |
| ProxyHandler.GetTargetConnection | modules/proxy/handler.go:277-301 | An unknown target group is a "proxy error" that acquires nothing. Success hands out the connection filed under the redirect's group. |
| ProxyHandler.Route | modules/proxy/handler.go:64-81 | A pinned session uses the default group's connection. Otherwise the redirect's group for the normalised statement is used. A failure changes nothing. |
| ProxyHandler.SetupAndExecute | modules/proxy/handler.go:83-102 | `sendInTransaction` is cleared only by a successful execution. A successful query ran last, on a connection in step with the session. |
| ProxyHandler.HandleQuery | modules/proxy/handler.go:51-103 | A cancelled context answers its error and changes nothing. The session's settings are the analysis's. On success the query ran last, on the connection under its route key, which is in step with the session. |
| ProxyHandler.BeginOpensTransaction | modules/proxy/handler.go:216-232 | BEGIN opens a transaction and marks itself for the pinned connection. |
| ProxyHandler.CommitClosesTransaction | modules/proxy/handler.go:216-232 | COMMIT closes the transaction and marks itself for the pinned connection. |
| ProxyHandler.BeginRunsPinned | modules/proxy/handler.go:66-98 | A successful BEGIN runs on the default connection and leaves the session in a transaction with the one-shot flag cleared. |
| ProxyHandler.OpenTransactionPins | modules/proxy/handler.go:66-81 | Inside a transaction, every statement but COMMIT and ROLLBACK stays on the default connection. |
| ProxyHandler.CommitUnpins | modules/proxy/handler.go:66-98 | COMMIT runs on the default connection and leaves the session unpinned. |
| ProxyHandler.HandleStmtPrepare | modules/proxy/handler.go:129-167 | A statement is routed like a query and prepared on the connection under its route key. |
| ProxyHandler.HandleStmtExecute | modules/proxy/handler.go:170-192 | Anything but a statement context is refused. The statement's own error is swallowed. |
| ProxyHandler.HandleStmtClose | modules/proxy/handler.go:195-204 | Anything but a statement context is refused. Otherwise the statement's whole connection is closed, and the close's error is the answer. |
| ProxyHandler.HandleFieldList | modules/proxy/handler.go:106-126 | Only a failure to get a connection is reported. With a connection held, only cancellation fails. |
| ProxyHandler.HandleOtherCommand | modules/proxy/handler.go:207-213 | Every other command is refused with ER_UNKNOWN_ERROR. The message is "command ", the command number in decimal without leading zeros, then " is not supported", and its digits read back as that number. |
| ProxyHandler.NamesCommandOf | modules/proxy/handler.go:207-213 | A refusal message built from a command number reads that number back from its digits. |
| ConnectionManager.CreateConnection | modules/proxy/connection_manager.go:124-149 | A failed lease records nothing. A new connection, with no charset or database, is filed under the id in both map and list. Other entries are untouched. |
| ConnectionManager.CreateRandomConnection | modules/proxy/connection_manager.go:108-122 | The connection goes to the server that GetRandomServer draws from the group. |
| ConnectionManager.GetConnection | modules/proxy/connection_manager.go:67-85 | A held connection is reused without creating one. On a miss the new connection goes to a drawn server. A failure changes nothing, and the id list stays duplicate-free and equal to the map's keys. |
| ConnectionManager.GetDefaultConnection | modules/proxy/connection_manager.go:87-105 | The key is the default server's group. On a miss the new connection goes to the default server itself. |
| ConnectionManager.GetRandomConnection | modules/proxy/connection_manager.go:152-173 | With nothing held, the default connection is used. Otherwise the id at the draw is used, and "connection not found" is returned exactly when that id is not in the map. |
| ConnectionManager.RandomConnectionIsHeld | modules/proxy/connection_manager.go:160-172 | In a well-formed manager the random pick always hands out a held connection, and every held one can be picked. |
| ConnectionManager.ReturnConnectionById | modules/proxy/connection_manager.go:45-64 | The connection is put back, and its id leaves both map and list. An unknown id changes nothing, and other entries are untouched. |
| ConnectionManager.ReturnConnectionsToPool | modules/proxy/connection_manager.go:38-43 | Each held connection is put back once, in iteration order. The manager is not cleared. |
| ConnectionManager.ReturnAllPutsEveryConnection | modules/proxy/connection_manager.go:38-43 | Every held connection is returned. |
| Redirect.FindHashRule | modules/redirect/hash_rule.go:31-34 | A rule is found exactly when the hash is a key, and it is the value filed there. |
| Redirect.BuildThenFind | modules/redirect/hash_rule.go:20-29 | A lookup after a build finds the last rule with that non-empty hash, whose target group is the rule's target, or else what the map held before. |
| Redirect.BuildHashRulesTwice | modules/redirect/hash_rule.go:16-29 | The map is never cleared: no key is lost, and a second build of the same rules changes nothing. |
| Redirect.NewRegexRule | modules/redirect/regex_rule.go:23-36 | A built rule carries the configured pattern and target. The compiled pattern is nil exactly when compilation fails. |
| Redirect.BuildRegexRulesSpec | modules/redirect/regex_rule.go:28-40 | The list keeps what it held and gains one rule per configured rule with a pattern, in configuration order. |
| Redirect.FindRegexRule | modules/redirect/regex_rule.go:42-50 | The result is not-found exactly when every rule's pattern compiled and misses. |
| Redirect.FindRegexRuleFirst | modules/redirect/regex_rule.go:43-47 | The first rule the walk cannot step over decides. A match there is returned, and a nil pattern there panics. |
| Redirect.BuildRedirectMapSpec | modules/redirect/redirect.go:9-14 | Exactly the configured ids are keys, and each maps to the last server with that id. |
| Redirect.FindRedirect | modules/redirect/redirect.go:17-28 | With no match, the default server is returned; a nil default panics. The hash is not consulted. |
| Redirect.FindRedirectFirst | modules/redirect/redirect.go:21-25 | The first matching rule's target is looked up in the server map, giving the zero server when absent. |
| Redirect.FindRedirectAgrees | modules/redirect/redirect.go:17-28 | FindRedirect lands on the server named by the rule FindRegexRule picks, and it panics where FindRegexRule panics. |
| Lru.NewInMemoryCache | modules/cache/in_memory.go:22-32 | Construction fails exactly for capacity 0, and a new cache is empty. |
| Lru.Get | modules/cache/in_memory.go:66-75 | A hit answers the stored value and moves the element to the front. The other elements keep their relative order, so the list becomes the element followed by the list with its old position closed up. The map and the elements are unchanged. A miss answers nothing and changes nothing. |
| Lru.Touch | modules/cache/in_memory.go:40-43 | An existing key's element moves to the front and takes the new value. The other elements keep their relative order behind it, every other element keeps its entry, and the map is not changed. An absent key changes nothing. |
| Lru.EvictBack | modules/cache/in_memory.go:46-53 | At or over capacity, the back element leaves the list and its key leaves the map. Every other key keeps its element, and every remaining element keeps its entry. Below capacity, or with an empty list, nothing changes. |
| Lru.PushFront | modules/cache/in_memory.go:55-62 | A fresh element holding the key and value goes to the front, and the key is pointed at it. Every other key and stored element is as before. |
| Lru.Set | modules/cache/in_memory.go:35-63 | The cache stays well formed with its capacity. The key then names a fresh element at the front holding the new value. SetThenGet, SetEvictsBack, SetKeepsBound and ResetKeyIsLost state what follows from this. |
| Lru.Delete | modules/cache/in_memory.go:78-86 | Afterwards the key is absent. Its element leaves the list, and the other elements keep their relative order. Every other key is still mapped to the same element, and every remaining element keeps its entry. Deleting an absent key changes nothing. |
| Lru.WithoutAt | modules/cache/in_memory.go:83 | Removing the element at position `i` of a list without duplicates leaves the elements before and after it, in order. |
| Lru.Clear | modules/cache/in_memory.go:89-95 | Both the map and the list are emptied. |
| Lru.SetThenGet | modules/cache/in_memory.go:55-72 | Right after `Set(k, v)`, `Has(k)` holds and `Get(k)` answers `v`. |
| Lru.SetKeepsBound | modules/cache/in_memory.go:46-61 | With capacity at least 1, the list never outgrows it. |
| Lru.SetEvictsBack | modules/cache/in_memory.go:46-53 | At capacity, the back element is dropped and its key leaves the map. |
| Lru.SetKeepsOtherKeys | modules/cache/in_memory.go:35-63 | A key still mapped after Set names the element it named before, and that element still holds the same entry. |
| Lru.CacheNoLargerThanList | modules/cache/in_memory.go:40-62 | The map never holds more entries than the list. |
| Cache.NewRedisCache | modules/cache/redis.go:16-26 | The Redis cache is at `host:port`, with the configured password and database. It holds exactly the keys its server already holds. |
| Cache.CreateAddr | modules/cache/redis.go:92-94 | The address is the host, a colon, then the port in decimal with a minus sign when negative. |
| Cache.AddrRoundTrip | modules/cache/redis.go:92-94 | An address reads back as its host and port, even when the host holds colons or the port is negative. |
| Cache.Set | modules/cache/cache.go:11-12 | After `Set` the key holds the new value in both implementations. On Redis every other key keeps its presence and its value. In memory a key may be evicted, but a key that stays keeps its value. |
| Cache.Get | modules/cache/cache.go:14-16 | The answer is the value stored under the key, and it is present exactly when `Has` holds. No key's value changes. On Redis the cache is left exactly as it was. |
| Cache.Delete | modules/cache/cache.go:18-19 | The key is gone. Every other key keeps its presence and its value, in both implementations. |
| Cache.Clear | modules/cache/cache.go:21-22 | No key remains. |
| Cache.SetThenGet | modules/cache/cache.go:11-16 | Both implementations keep the interface's promise: `Get(k)` answers `v` right after `Set(k, v)`. |
| Cache.InitCache | modules/cache/cache.go:43-59 | `redis` installs a Redis cache over what its server already holds. `memory` installs an empty LRU of the configured capacity, or fails for capacity 0 and stores nil. Any other type fails and leaves the slot as it was. |
| RedirectCache.NewMemo | modules/cache/redirect/in_memory.go:12-16 | A new memo finds nothing. |
| RedirectCache.Find | modules/cache/redirect/in_memory.go:23-27 | A hash is found exactly when it was added. Otherwise the zero server is returned. |
| RedirectCache.Add | modules/cache/redirect/in_memory.go:18-21 | The hash then finds the server, whatever it held before, and every other hash is unchanged. |
| RedirectCache.AddAllFinds | modules/cache/redirect/in_memory.go:18-27 | After a run of Adds, each hash finds the last server added for it, and a hash never added finds nothing. |
| Registry.AddServer | modules/db/group.go:54-58 | The id is appended to `serverIds`. |
| Registry.GetServer | modules/db/group.go:49-52 | The id is found exactly when the group holds it, and then it gives the server filed under it. |
| Registry.AddServerThenGet | modules/db/group.go:49-56 | The added id is found, other lookups are unchanged, and earlier ids stay in the list, so a re-added id appears twice. |
| Registry.LoadGroupsFresh | modules/db/group.go:29-39 | Loading succeeds exactly when the configured ids are new and pairwise distinct. |
| Registry.LoadGroupsKeys | modules/db/group.go:29-39 | A successful load registers exactly the configured ids besides the existing ones. |
| Registry.LoadGroupsValues | modules/db/group.go:30-36 | Each new id gets an empty group, and existing groups are untouched. |
| Registry.LoadGroupsError | modules/db/group.go:31-34 | A failure reports "already exists" for a configured id. |
| Registry.ActiveIds | modules/db/group.go:67-72 | These are exactly the operational members, in list order. |
| Registry.GetRandomServer | modules/db/group.go:60-84 | An empty group, or one with no operational member, gives the default server. Otherwise the result is an operational member. There is no error path. |
| Registry.SingleOperationalMember | modules/db/group.go:79-83 | With exactly one operational member, that member is returned whatever the draw. |
| Registry.NewServer | modules/db/server.go:43-65 | Creation fails exactly when no DB user targets the server. A new server starts SHUNNED with that user's credentials. |
| Registry.LoadServer | modules/db/server.go:22-38 | One server loads exactly when its group exists and it has a user. Its own group gains it under its id and every other group is unchanged. It is added to the pool, and it becomes the default when flagged. |
| Registry.FirstFailureSpec | modules/db/server.go:22-31 | The load stops at the first server that is not loadable. |
| Registry.LastDefaultSpec | modules/db/server.go:35-37 | The default is the last flagged server, and there is none exactly when nothing is flagged. |
| Registry.LoadServers | modules/db/server.go:21-41 | Servers load in order until the first failure, whose error is returned. The pool then holds exactly the servers before it. Each group then holds what it held plus the loaded servers of that group, in order. The registry stays consistent. |
| Registry.GroupsAfterMembers | modules/db/server.go:22-34 | After loading servers, a group keeps its id. Its member list is the old list followed by the ids of the loaded servers naming it, in order. An id is a member exactly when it was one before or is among those ids. |
| Registry.LoadedGroupMembers | modules/db/db.go:11-18 | After a clean load, each configured group lists exactly the configured servers that name it, in configuration order. |
| Registry.LoadServerConsistent | modules/db/server.go:33-37 | Loading one server keeps every map entry pointing at a matching server object. |
| Registry.TestConnection | modules/db/server.go:67-87 | A failed lease touches no pool. Otherwise lease, then ping, then put on success or drop on failure. |
| Registry.TestConnectionReturnsLease | modules/db/server.go:76-86 | The leased connection goes back to its pool exactly once. |
| Registry.TestServerConfig | modules/db/db.go:35-44 | The check fails exactly when some registered server has no DB user. |
| Registry.SetStatus | modules/db/db.go:54 | Only that server's status changes. |
| Registry.TestRequiredServers | modules/db/db.go:47-60 | Only required servers change, and only to OPERATIONAL. Every changed server comes at or before the first failing probe. The result is an error exactly when some required server's probe fails. The error is the source's prefix plus that first failing probe's error. The log then ends with that probe, so no later server is probed. A clean run marks every required server, and its log is exactly the probes of the required servers. |
| Registry.FirstRequiredFailureSpec | modules/db/db.go:48-56 | The position of the first failing required probe is a failing required probe when it is inside the order, and no earlier required probe fails. |
| Registry.MonitorTick | modules/db/monitor.go:22-30 | Every probed server ends OPERATIONAL or SHUNNED, and the rest are untouched. OFF is never assigned. Each probed server's status follows its own last probe in the order: SHUNNED when that probe fails, OPERATIONAL otherwise. An always-reachable server ends OPERATIONAL and an unreachable one SHUNNED. The log is exactly the probes of every server in order. Membership is unchanged. |
| Registry.LoadedServersHaveUsers | modules/db/db.go:17-22 | After a clean load, the user check passes. |
| Registry.RequiredStatuses | modules/db/db.go:17-26 | After a clean start, a server is OPERATIONAL exactly when it is required, and SHUNNED otherwise. |
| Registry.Load | modules/db/db.go:11-18 | The steps are reset, groups, then servers, stopping at the first error. A clean load has exactly the configured servers and the last flagged default, and its groups hold the configured servers as loading them in order adds them. It succeeds exactly when the configuration loads cleanly, and then it builds `Loaded(cfg)`, whose id map files each id under its server's index. |
| Registry.LoadedFromEmpty | modules/db/db.go:11-18 | Loading every configured server into the fresh registry of the configured groups builds `Loaded(cfg)`, whose pool keys are the configured ids. |
| Registry.Init | modules/db/db.go:11-28 | The steps run in order, stopping at the first error. A clean start of a validated configuration leaves a ready registry, with required servers OPERATIONAL and the rest SHUNNED, and groups as the load built them. After a clean load, the result is an error exactly when some required server's probe on `Loaded(cfg)` fails. The error is the prefix plus the first failing probe's error, and the log ends with that probe. A clean run's log is exactly the probes of the required servers. |
| Registry.Start | modules/db/db.go:20-27 | The user check runs and, after a clean load, passes. Then the required-server test runs on the loaded registry. The result is an error exactly when some required server's probe fails. The error is the prefix plus the first failing probe's error, and the log ends with that probe. A clean run's log is exactly the probes of the required servers. |
| ServerStatus.StatusString | modules/db/server_status.go:11-17 | The name is "Unknown" exactly outside 0..2. |
| ServerStatus.StatusNamesRoundTrip | modules/db/server_status.go:11-17 | The three names are distinct and read back as their status. Any other value names no status. |
| ServerStatus.KnownStatusNames | modules/db/server_status.go:5-16 | 0, 1 and 2 print as OPERATIONAL, SHUNNED and OFF. -1 and 3 print as Unknown. |
| Config.GetDsn | modules/config/server.go:21-23 | The DSN is the host, a colon, then the port in decimal. |
| Config.DsnRoundTrip | modules/config/server.go:21-23 | A DSN determines its host and port, even for a host containing colons. |
| Config.GetUser | modules/config/server.go:25-32 | The result is the first user targeting the server. It fails with "user not found" exactly when none does. |
| Config.HasDefault | modules/config/server.go:36-42 | Some server is flagged default. |
| Config.ValidateServerConfiguration | modules/config/server.go:34-51 | The check fails with "no default server" exactly when no server is flagged. Several defaults pass. |
| Config.MissingIndicesSpec | modules/config/rule.go:17-21 | These are exactly the rules with neither hash nor regex, each once, in order. |
| Config.RuleErrors | modules/config/rule.go:17-21 | There is one message per offending rule, carrying its 1-based index and name. |
| Config.ValidateRuleConfiguration | modules/config/rule.go:15-28 | The loop's errors are the expected list, which is empty exactly when every rule has a hash or a regex. |
| Config.ErrorsUpToAgrees | modules/config/rule.go:16-21 | The loop's running list equals the messages of the offending rules so far. |
| Config.RuleErrorsEmpty | modules/config/rule.go:23-27 | No errors exactly when no rule lacks both patterns. |
| Config.BothPatternsAccepted | modules/config/rule.go:18 | A rule with both a hash and a regex is accepted. |
| Config.GetDefaultCache | modules/config/cache.go:24-33 | The default is Redis at 127.0.0.1:6379, with no password, database 0 and no cache type. |
| Config.ValidateCacheConfiguration | modules/config/cache.go:35-49 | The check passes exactly for `redis`, or for `memory` with a non-zero capacity. Otherwise it gives the required, invalid or capacity error in that order. |
| Config.NewConfiguration | modules/config/config.go:32-38 | The default cache settings and nothing else. |
| Config.Validate | modules/config/config.go:59-75 | Servers, rules and cache are checked in order, and only the first failing category is reported; a rule failure returns all rule errors. The result is empty exactly when all checks pass. |
| Config.FreshConfigurationRejected | modules/config/config.go:32-38 | A fresh configuration fails validation for lack of a default server. |
| Config.ValidConfiguration | modules/config/config.go:59-75 | A valid configuration has a default server, a usable cache type, and a pattern on every rule. |
| Stats.SaveQuery | modules/stats/query.go:21-29 | Exactly one record is appended for the hash. Earlier records keep their order, and other hashes are untouched. |
| Stats.SaveAllRecordsCalls | modules/stats/query.go:17-29 | From the empty map, each hash holds exactly the calls made with it, in call order. |
| LegacyHandler.NewLegacy | modules/mysql/handler.go:29-33 | The new handler holds no connection and no transaction. |
| LegacyHandler.UseDB | modules/mysql/handler.go:43-47 | UseDB records the name, sends nothing, and never fails. |
| LegacyHandler.Target | modules/mysql/handler.go:54-77 | In a transaction the default server is used. Otherwise an unknown group gives "proxy error", and a known group gives a draw from it. |
| LegacyHandler.RunOnHeld | modules/mysql/handler.go:79-106 | On a held connection only the query is sent. |
| LegacyHandler.RunOnNew | modules/mysql/handler.go:80-106 | A new connection is cached before anything is sent on it, then gets `use` and the query. A failed lease changes nothing. |
| LegacyHandler.HandleQuery | modules/mysql/handler.go:50-107 | An unknown group is a "proxy error". On success the query ran last, on the connection cached under the target server's id. |
| LegacyHandler.HeldConnectionReused | modules/mysql/handler.go:79-106 | A cached connection is reused, and nothing is leased. |
| LegacyHandler.NewConnectionSendsUseFirst | modules/mysql/handler.go:79-98 | The first connection to a server gets `use <db>;` before the query, and stays cached even if that fails. |
| LegacyHandler.NeverInTransaction | modules/mysql/handler.go:54 | Nothing in the handler sets `transaction`. |
| LegacyHandler.HandleFieldList | modules/mysql/handler.go:110-112 | Field lists are always refused with "not supported now". |
| LegacyHandler.HandleStmtPrepare | modules/mysql/handler.go:115-117 | Prepared statements are always refused with "not supported now". |
| LegacyHandler.HandleStmtExecute | modules/mysql/handler.go:120-122 | Statement execution is always refused with "not supported now". |
| LegacyHandler.HandleStmtClose | modules/mysql/handler.go:125-127 | Closing a statement always succeeds and does nothing. |
| LegacyHandler.HandleOtherCommand | modules/mysql/handler.go:130-135 | Every other command is refused with ER_UNKNOWN_ERROR. The message is "command ", the command number in decimal without leading zeros, then " is not supported now", and its digits read back as that number. |
| LegacyHandler.ReturnConnectionsToPool | modules/mysql/handler.go:36-40 | Every cached connection is put back once. |

## Left out

- Network, drivers and the database. Pool leases, pings, executes, prepares and closes are logged actions whose failures an oracle parameter decides. Result sets, field lists and statement metadata are never inspected.
- The Redis client's own errors. The Go code logs and swallows them, so a Redis cache is modelled as the key-value map its server holds. What the server holds when the client is created is a parameter of `NewRedisCache` and `InitCache`. Other clients writing to the same server later are not modelled.
- The SQL normaliser and hash (modules/db/util/query.go, modules/query/query.go). They are one deterministic function parameter.
- The regular-expression engine. `regexp.Compile` and `MatchString` are the parameters `compiles` and `matches`.
- `strings.TrimSpace` removes only ASCII white space here. Go also trims multi-byte UTF-8 spaces and U+0085/U+00A0 when they are valid UTF-8; those encodings are not modelled.
- Randomness: `rand.Intn(n)` is a drawn `rand % n`. Uniformity is not stated.
- Go map iteration order is a parameter: a permutation of the keys. This applies to `transactionCommands`, `DbPool.Servers` and the connection map.
- Cancellation: `ctx.Done()` is the `done` input. Timeouts, such as the one-second probe, are not modelled.
- The monitor's ticker loop and goroutine. Only one tick's body (monitor.go lines 22-30) is modelled.
- The cache mutex. The model is sequential.
- `LoadConfig` (file reading, YAML decoding, fatal logging). A configuration is a value.
- modules/config/basics.go: `GetHostname` is formatting, and `ValidateBasicConfiguration` always passes. `Config.Validate` treats that step as passing.
- cmd/, main.go, modules/log/log.go, modules/db/pool.go, modules/db/connection.go and modules/mysql/connection.go. These are process lifecycle, logging, debug formatting and connect wrappers.
- modules/cache/redirect/cache.go declares a `Clear` that the memo does not implement. The memo is modelled without it.
- The two module generations disagree at three seams, and each seam is a parameter:
  - Both handlers index the group map with `FindRedirect`'s result, which is a `config.Server` in modules/redirect/redirect.go. Here the handlers take the redirect as a function to a group id (`Env.redirect`).
  - `rule.match` and `Match` are both the `matches` parameter.
  - `LoadServers` and `TestConnection` are modelled without the context argument that db.go passes.
- `Cache.GetCache` is not a separate member. The second half of `InitCache`'s result is the package slot that `GetCache` returns.
- ProxyHandler.HandleFieldList: the fields the back end returns are not modelled; the answer is only whether a connection was found.
- ProxyHandler.HandleStmtPrepare: its contract speaks of the successful path. Failures are covered by PrepareFailurePanics and CheckedPrepareAnswers.
- Registry.GetRandomServer: states that the pick is an operational member, not that it is uniform.

## Findings

| source | as written | input that shows it | evidently intended | confidence | as-written member | corrected member |
|---|---|---|---|---|---|---|
| modules/cache/in_memory.go:40-62 | `Set` on an existing key moves its element to the front but falls through. It then evicts at capacity and pushes a second element for the key, leaving the old one on the list. | Capacity 2, then `Set(a,1)`, `Set(a,2)`, `Set(b,3)`. The stale element for `a` is at the back, and evicting it deletes `a` from the map. `a` is lost though only one other key was set after it. | Update the existing element in place and return, evicting nothing. | not executed | Lru.ResetKeyIsLost | Lru.SetIntended (with Lru.SetIntendedThenGet, Lru.SetIntendedKeeps, Lru.ResetKeyKeptWhenIntended) |
| modules/redirect/regex_rule.go:23-26 | `compile` discards the compile error and stores a nil `*regexp.Regexp`. The rule is still appended. | One rule whose regex does not compile. The first query that reaches it dereferences nil in `MatchString`. | Drop, or reject, a rule whose pattern does not compile. | not executed | Redirect.InvalidPatternPanics | Redirect.BuildCompiledRegexRulesUpTo (with Redirect.CompiledRulesNeverPanic) |
| modules/proxy/handler.go:158-166 | A failed `Prepare` is only logged, and `stmt.ParamNum()` is then called on the nil statement. | Any statement that the back end refuses to prepare makes the session panic. | Return the prepare error. | not executed | ProxyHandler.PrepareFailurePanics | ProxyHandler.CheckedPrepareAnswers |
| modules/proxy/handler.go:194-204 | `HandleStmtClose` closes the whole connection the statement was prepared on. That connection is still held by the session's connection manager. | Prepare, then close. The next statement routed to the same group runs on a closed connection. | Close only the statement (`Stmt.Close`). | not executed | ProxyHandler.StmtCloseClosesHeldConnection | ProxyHandler.HandleStmtCloseIntended |
| modules/mysql/handler.go:93-97 | A new connection is always sent `use <dbName>;`, even when no database was selected. | A first query before any `USE`: the back end receives `use ;`, which is a syntax error, and the query fails. | Send `use` only when a database is selected, as the newer handler does. | not executed | LegacyHandler.EmptyDatabaseSendsBareUse | LegacyHandler.IntendedSendsOnlyTheQuery (on LegacyHandler.HandleQueryIntended) |

=== FILE: backend.dfy ===
/** The MySQL back ends as seen by the proxy: per-server connection pools
    (`client.Pool`) and the connections they lease (`client.Conn`).

    Nothing here talks to a database. Every call the proxy makes is appended
    to a log, and an `Oracle` (a parameter) decides whether the call fails,
    as a function of the call and of how many calls came before. A leased
    connection is named by the position of its lease in the log. */
module Backend {
  import opened Common

  /** A `*db.Server`: an index into the registry's server objects. */
  type ServerRef = nat

  datatype Conn = Conn(id: nat, server: ServerRef)

  /** A prepared statement handle (`*client.Stmt`). */
  datatype Stmt = Stmt(id: nat, conn: Conn)

  /** One call made on a pool, a connection or a statement. */
  datatype Action =
    | Lease(conn: Conn)                          // Pool.GetConn succeeded
    | Put(conn: Conn)                            // Pool.PutConn
    | Drop(conn: Conn)                           // Pool.DropConn
    | Ping(conn: Conn)                           // Conn.Ping
    | Execute(conn: Conn, sql: string)           // Conn.Execute
    | Prepare(conn: Conn, sql: string)           // Conn.Prepare
    | StmtExecute(stmt: Stmt)                    // Stmt.Execute
    | StmtClose(stmt: Stmt)                      // Stmt.Close
    | FieldList(conn: Conn, table: string, wildcard: string)
    | Close(conn: Conn)                          // Conn.Close

  type Log = seq<Action>

  /** The environment's answers. `lease(s, n)` is the error of a `GetConn` on
      server `s` issued after `n` logged calls (None: it succeeds);
      `reply(a, n)` likewise for every other call. */
  datatype Oracle = Oracle(
    lease: (ServerRef, nat) -> Option<string>,
    reply: (Action, nat) -> Option<string>)

  /** `Pool.GetConn`: a failed lease leaves no trace. */
  function GetConn(o: Oracle, log: Log, server: ServerRef): (r: (Result<Conn>, Log))
    ensures r.0.Err? <==> o.lease(server, |log|).Some?
    ensures r.0.Err? ==> r.1 == log && r.0.msg == o.lease(server, |log|).value
    ensures r.0.Ok? ==> r.0.value.server == server && r.1 == log + [Lease(r.0.value)]
    ensures r.0.Ok? ==> r.0.value.id == |log|
  {
    match o.lease(server, |log|)
    case Some(e) => (Err(e), log)
    case None =>
      var c := Conn(|log|, server);
      (Ok(c), log + [Lease(c)])
  }

  /** Any other call: it is logged whatever the oracle answers. */
  function Invoke(o: Oracle, log: Log, a: Action): (r: (Outcome, Log))
    ensures r.1 == log + [a]
    ensures r.0.Nil? <==> o.reply(a, |log|).None?
    ensures r.0.Error? ==> r.0.msg == o.reply(a, |log|).value
  {
    match o.reply(a, |log|)
    case None => (Nil, log + [a])
    case Some(e) => (Error(e), log + [a])
  }

  /** The number of entries of `log` that return `c` to its pool. */
  function ReturnCount(log: Log, c: Conn): (n: nat)
    ensures n <= |log|
  {
    if |log| == 0 then 0
    else ReturnCount(log[..|log| - 1], c) + (if log[|log| - 1] == Put(c) || log[|log| - 1] == Drop(c) then 1 else 0)
  }

  lemma {:induction false} ReturnCountAppend(a: Log, b: Log, c: Conn)
    ensures ReturnCount(a + b, c) == ReturnCount(a, c) + ReturnCount(b, c)
    decreases |b|
  {
    if |b| == 0 {
      assert a + b == a;
    } else {
      assert (a + b)[..|a + b| - 1] == a + b[..|b| - 1];
      ReturnCountAppend(a, b[..|b| - 1], c);
    }
  }

  lemma ReturnCountOne(a: Action, c: Conn)
    ensures ReturnCount([a], c) == if a == Put(c) || a == Drop(c) then 1 else 0
  {
    assert [a][..0] == [];
  }
}

=== FILE: cache.dfy ===
/** The cache front end (modules/cache/cache.go): the `Cache` interface, its
    two implementations, and the choice between them that the configuration
    makes.

    A Redis cache is modelled as the key-value map its server holds; what
    the server already holds when the client is created is a parameter. The
    Go code logs and swallows every Redis error, and those network failures
    are not modelled. */
module Cache {
  import opened Common
  import opened Config
  import Lru

  datatype Instance =
    | RedisCache(addr: string, password: string, database: int, data: map<string, string>)
    | MemoryCache(lru: Lru.LruCache)

  /** An in-memory cache keeps its map and list in step. */
  predicate Wellformed(c: Instance) {
    c.MemoryCache? ==> Lru.Valid(c.lru)
  }

  /** `createAddr`: `host:port`, the port in decimal with a minus sign when
      negative. */
  function CreateAddr(host: string, port: int): (a: string)
    ensures |a| > |host| + 1 && a[..|host|] == host && a[|host|] == ':'
    ensures a[|host| + 1..] == IntToString(port)
  {
    host + ":" + IntToString(port)
  }

  /** Reading a decimal `int` back: an optional minus sign, then at least
      one digit. */
  function ParseInt(s: string): Option<int> {
    if |s| > 0 && s[0] == '-' then
      var digits := s[1..];
      if |digits| > 0 && forall k :: 0 <= k < |digits| ==> IsDigit(digits[k]) then
        var v: int := DigitsValue(digits);
        Some(-v)
      else None
    else if |s| > 0 && forall k :: 0 <= k < |s| ==> IsDigit(s[k]) then Some(DigitsValue(s))
    else None
  }

  /** Reading an address back: the host is everything before the last ':',
      the port the number after it. */
  function ParseAddr(a: string): Option<(string, int)> {
    match LastColon(a)
    case None => None
    case Some(i) =>
      match ParseInt(a[i + 1..])
      case None => None
      case Some(port) => Some((a[..i], port))
  }

  /** An address determines its host and port, even a host holding colons
      and a negative port. */
  lemma AddrRoundTrip(host: string, port: int)
    ensures ParseAddr(CreateAddr(host, port)) == Some((host, port))
  {
    var a := CreateAddr(host, port);
    var h := |host|;
    var tail := IntToString(port);
    assert a[h + 1..] == tail;
    IntToStringNoColon(port);
    assert forall k :: h < k < |a| ==> a[k] != ':' by {
      forall k | h < k < |a| ensures a[k] != ':' {
        assert a[k] == tail[k - h - 1];
      }
    }
    LastColonAt(a, h);
    IntRoundTrip(port);
  }

  /** A formatted `int` holds no ':'. */
  lemma IntToStringNoColon(i: int)
    ensures forall k :: 0 <= k < |IntToString(i)| ==> IntToString(i)[k] != ':'
  {
    var r := IntToString(i);
    if i < 0 {
      forall k | 1 <= k < |r| ensures r[k] != ':' {
        assert r[k] == r[1..][k - 1];
      }
    }
  }

  /** Decimal formatting of an `int` is undone by `ParseInt`. */
  lemma IntRoundTrip(i: int)
    ensures ParseInt(IntToString(i)) == Some(i)
  {
    if i < 0 {
      NatToStringRoundTrip(-i);
    } else {
      NatToStringRoundTrip(i);
    }
  }

  /** `NewRedisCache`: never fails; the client connects lazily, and the cache
      holds whatever the server `server` already holds. */
  function NewRedisCache(r: Redis, server: map<string, string>): (c: Instance)
    ensures c.RedisCache? && c.addr == CreateAddr(r.host, r.port)
    ensures c.password == r.password && c.database == r.database
    ensures forall k :: Has(c, k) <==> k in server
  {
    RedisCache(CreateAddr(r.host, r.port), r.password, r.database, server)
  }

  // ---------------------------------------------------------------------------
  // The interface, dispatched on the implementation

  /** The value stored under a key, if any: Redis's `GET`, or the value in
      the list element the in-memory map names. It reads without moving
      anything, so it states what `Get` answers and what `Set` and `Delete`
      leave behind. */
  function Lookup(c: Instance, key: string): (v: Option<string>)
    requires Wellformed(c)
    ensures v.Some? <==> Has(c, key)
  {
    match c
    case RedisCache(_, _, _, data) => if key in data then Some(data[key]) else None
    case MemoryCache(lru) => if key in lru.cache then Some(lru.store[lru.cache[key]].value) else None
  }

  /** `Set`: the key holds the new value. On Redis every other key keeps its
      value; the in-memory cache may evict others, but a key that stays keeps
      its value. */
  function Set(c: Instance, key: string, value: string): (d: Instance)
    requires Wellformed(c)
    ensures Wellformed(d) && d.RedisCache? == c.RedisCache?
    ensures Has(d, key) && Lookup(d, key) == Some(value)
    ensures c.RedisCache? ==> forall k :: k != key ==> (Has(d, k) <==> Has(c, k))
    ensures c.RedisCache? ==> forall k :: k != key ==> Lookup(d, k) == Lookup(c, k)
    ensures forall k | k != key && Has(d, k) :: Lookup(d, k) == Lookup(c, k)
  {
    match c
    case RedisCache(_, _, _, data) => c.(data := data[key := value])
    case MemoryCache(lru) =>
      var s := Lru.Set(lru, key, value);
      assert forall k | k != key && k in s.cache :: Lookup(MemoryCache(s), k) == Lookup(c, k) by {
        forall k | k != key && k in s.cache ensures Lookup(MemoryCache(s), k) == Lookup(c, k) {
          Lru.SetKeepsOtherKeys(lru, key, value, k);
        }
      }
      MemoryCache(s)
  }

  /** `Get`: the value and whether the key was found; the in-memory cache
      also moves the key's element to the front. */
  function Get(c: Instance, key: string): (r: (Option<string>, Instance))
    requires Wellformed(c)
    ensures Wellformed(r.1)
    ensures r.0.Some? <==> Has(c, key)
    ensures r.0 == Lookup(c, key)
    ensures forall k :: Lookup(r.1, k) == Lookup(c, k)
    ensures c.RedisCache? ==> r.1 == c
  {
    match c
    case RedisCache(_, _, _, data) => (if key in data then Some(data[key]) else None, c)
    case MemoryCache(lru) =>
      var g := Lru.Get(lru, key);
      (g.0, MemoryCache(g.1))
  }

  function Delete(c: Instance, key: string): (d: Instance)
    requires Wellformed(c)
    ensures Wellformed(d)
    ensures !Has(d, key)
    ensures forall k :: k != key ==> (Has(d, k) <==> Has(c, k))
    ensures forall k :: k != key ==> Lookup(d, k) == Lookup(c, k)
  {
    match c
    case RedisCache(_, _, _, data) => c.(data := data - {key})
    case MemoryCache(lru) => MemoryCache(Lru.Delete(lru, key))
  }

  function Clear(c: Instance): (d: Instance)
    requires Wellformed(c)
    ensures Wellformed(d)
    ensures forall k :: !Has(d, k)
  {
    match c
    case RedisCache(_, _, _, _) => c.(data := map[])
    case MemoryCache(lru) => MemoryCache(Lru.Clear(lru))
  }

  predicate Has(c: Instance, key: string) {
    match c
    case RedisCache(_, _, _, data) => key in data
    case MemoryCache(lru) => Lru.Has(lru, key)
  }

  /** The interface's promise, kept by both implementations: right after
      `Set(k, v)`, `Has(k)` holds and `Get(k)` answers `v`. */
  lemma SetThenGet(c: Instance, key: string, value: string)
    requires Wellformed(c)
    ensures Has(Set(c, key, value), key)
    ensures Get(Set(c, key, value), key).0 == Some(value)
  {
    if c.MemoryCache? {
      Lru.SetThenGet(c.lru, key, value);
    }
  }

  // ---------------------------------------------------------------------------
  // InitCache and GetCache

  const UnsupportedPrefix: string := "unsupported cache type: "

  /** `InitCache` on the package's cache slot `slot`, which `GetCache`
      returns: the result's second part is the slot afterwards. A failed
      in-memory construction stores Go's nil interface; an unsupported type
      leaves the slot as it was. A Redis cache sees what its server `server`
      already holds. */
  function InitCache(slot: Option<Instance>, cfg: CacheConfig, server: map<string, string>): (r: (Outcome, Option<Instance>))
    ensures cfg.kind == "redis" ==> r == (Nil, Some(NewRedisCache(cfg.redis, server)))
    ensures cfg.kind == "memory" && cfg.memory.capacity != 0 ==>
              && r.0.Nil? && r.1.Some? && r.1.value.MemoryCache?
              && Wellformed(r.1.value)
              && r.1.value.lru.capacity == cfg.memory.capacity
              && forall k :: !Has(r.1.value, k)
    ensures cfg.kind == "memory" && cfg.memory.capacity == 0 ==> r == (Error(Lru.ErrZeroCapacity), None)
    ensures cfg.kind != "redis" && cfg.kind != "memory" ==> r == (Error(UnsupportedPrefix + cfg.kind), slot)
  {
    if cfg.kind == "redis" then (Nil, Some(NewRedisCache(cfg.redis, server)))
    else if cfg.kind == "memory" then
      match Lru.NewInMemoryCache(cfg.memory.capacity)
      case Err(e) => (Error(e), None)
      case Ok(lru) => (Nil, Some(MemoryCache(lru)))
    else (Error(UnsupportedPrefix + cfg.kind), slot)
  }

  /** The validator and the initialiser agree: a cache configuration
      initialises without error exactly when it validates. */
  lemma InitCacheAgreesWithValidation(slot: Option<Instance>, cfg: CacheConfig, server: map<string, string>)
    ensures InitCache(slot, cfg, server).0.Nil? <==> ValidateCacheConfiguration(cfg).Nil?
  {
  }
}

=== FILE: common.dfy ===
/** Shared vocabulary: Go's `(value, error)` returns, panics, and the byte-level
    text helpers the proxy uses (whitespace, upper-casing, decimal formatting).

    A Go `string` is a sequence of bytes; here it is a Dafny `string` whose
    characters each stand for one byte (character code = byte value). */
module Common {

  /** Go's `(T, bool)` lookups and nil-able pointers. */
  datatype Option<+T> = None | Some(value: T)

  /** Go's `(T, error)`: an error is carried by its message. */
  datatype Result<+T> = Ok(value: T) | Err(msg: string)

  /** Go's bare `error` return: nil or an error message. */
  datatype Outcome = Nil | Error(msg: string)

  /** A call that may end in a run-time panic (a nil pointer dereference). */
  datatype Call<+T> = Returns(value: T) | Panics(reason: string)

  // ---------------------------------------------------------------------------
  // Bytes as runes

  /** `unicode.IsSpace(rune(b))` for a byte `b`: the six ASCII white-space
      characters plus U+0085 (NEL) and U+00A0 (NBSP). */
  predicate IsSpace(c: char) {
    var n := c as int;
    n == 9 || n == 10 || n == 11 || n == 12 || n == 13 || n == 32 || n == 0x85 || n == 0xA0
  }

  /** The ASCII white space that `strings.TrimSpace` removes. */
  predicate IsAsciiSpace(c: char) {
    var n := c as int;
    n == 9 || n == 10 || n == 11 || n == 12 || n == 13 || n == 32
  }

  /** `unicode.ToUpper(rune(b))` for a byte `b`, as a rune. In the Latin-1 range
      the lower-case letters a-z and U+00E0..U+00FE (except U+00F7) move down
      by 0x20, U+00B5 maps to U+039C and U+00FF to U+0178. */
  function ToUpper(c: char): (r: int)
    ensures r == 32 <==> c == ' '
    ensures 'A' <= c <= 'Z' ==> r == c as int
  {
    var n := c as int;
    if 'a' as int <= n <= 'z' as int then n - 32
    else if n == 0xB5 then 0x39C
    else if 0xE0 <= n <= 0xFE && n != 0xF7 then n - 32
    else if n == 0xFF then 0x178
    else n
  }

  // ---------------------------------------------------------------------------
  // strings.TrimSpace

  /** The first position at or after `i` that is not white space, or the
      end of `s`. */
  function SpaceRunEnd(s: string, i: nat): (j: nat)
    requires i <= |s|
    ensures i <= j <= |s|
    ensures forall k :: i <= k < j ==> IsAsciiSpace(s[k])
    ensures j < |s| ==> !IsAsciiSpace(s[j])
    decreases |s| - i
  {
    if i < |s| && IsAsciiSpace(s[i]) then SpaceRunEnd(s, i + 1) else i
  }

  /** The end of `s[lo..j]` once its trailing white space is dropped. */
  function ContentEnd(s: string, lo: nat, j: nat): (e: nat)
    requires lo <= j <= |s|
    ensures lo <= e <= j
    ensures forall k :: e <= k < j ==> IsAsciiSpace(s[k])
    ensures e > lo ==> !IsAsciiSpace(s[e - 1])
    decreases j
  {
    if j > lo && IsAsciiSpace(s[j - 1]) then ContentEnd(s, lo, j - 1) else j
  }

  /** Where the trimmed text starts and ends. */
  function TrimStart(s: string): nat
    ensures TrimStart(s) <= |s|
  {
    SpaceRunEnd(s, 0)
  }

  function TrimEnd(s: string): (e: nat)
    ensures TrimStart(s) <= e <= |s|
  {
    ContentEnd(s, TrimStart(s), |s|)
  }

  /** `strings.TrimSpace` restricted to ASCII white space: the longest infix
      that neither starts nor ends with white space, everything cut off being
      white space. */
  function TrimSpace(s: string): (r: string)
    ensures r == s[TrimStart(s)..TrimEnd(s)]
    ensures forall k :: 0 <= k < TrimStart(s) ==> IsAsciiSpace(s[k])
    ensures forall k :: TrimEnd(s) <= k < |s| ==> IsAsciiSpace(s[k])
    ensures |r| > 0 ==> !IsAsciiSpace(r[0]) && !IsAsciiSpace(r[|r| - 1])
  {
    s[TrimStart(s)..TrimEnd(s)]
  }

  // ---------------------------------------------------------------------------
  // Decimal formatting (fmt's %d / %v on integers)

  predicate IsDigit(c: char) { '0' <= c <= '9' }

  function DigitChar(d: nat): (c: char)
    requires d < 10
    ensures IsDigit(c) && c as int - '0' as int == d
  {
    ('0' as int + d) as char
  }

  /** The decimal spelling of a natural number, most significant digit first,
      without leading zeros. */
  function NatToString(n: nat): (r: string)
    ensures |r| > 0
    ensures forall k :: 0 <= k < |r| ==> IsDigit(r[k])
    decreases n
  {
    if n < 10 then [DigitChar(n)] else NatToString(n / 10) + [DigitChar(n % 10)]
  }

  /** The value of a string of decimal digits. */
  function DigitsValue(s: string): nat
    requires forall k :: 0 <= k < |s| ==> IsDigit(s[k])
  {
    if |s| == 0 then 0
    else assert IsDigit(s[|s| - 1]); DigitsValue(s[..|s| - 1]) * 10 + (s[|s| - 1] as int - '0' as int)
  }

  /** Decimal formatting is undone by reading the digits back. */
  lemma {:induction false} NatToStringRoundTrip(n: nat)
    ensures DigitsValue(NatToString(n)) == n
    decreases n
  {
    if n >= 10 {
      var s := NatToString(n);
      assert s[..|s| - 1] == NatToString(n / 10);
      NatToStringRoundTrip(n / 10);
    }
  }

  /** Decimal formatting never pads: a spelling of two or more digits does
      not start with '0'. */
  lemma {:induction false} NatToStringNoLeadingZero(n: nat)
    ensures |NatToString(n)| > 1 ==> NatToString(n)[0] != '0'
    decreases n
  {
    if n >= 10 {
      var s := NatToString(n);
      assert s[0] == NatToString(n / 10)[0];
      NatToStringNoLeadingZero(n / 10);
    }
  }

  /** `%d` on a Go `int`: a minus sign for negative values. */
  function IntToString(i: int): (r: string)
    ensures |r| > 0
    ensures i >= 0 ==> r == NatToString(i)
    ensures i < 0 ==> r[0] == '-' && r[1..] == NatToString(-i)
  {
    if i < 0 then "-" + NatToString(-i) else NatToString(i)
  }

  // ---------------------------------------------------------------------------
  // Sequences

  predicate NoDuplicates<T(==)>(s: seq<T>) {
    forall i, j :: 0 <= i < j < |s| ==> s[i] != s[j]
  }

  /** `order` enumerates the set `keys` exactly once each: one admissible
      iteration order of a Go map whose key set is `keys`. */
  predicate IsKeyOrder<K(==)>(order: seq<K>, keys: set<K>) {
    && NoDuplicates(order)
    && (forall i :: 0 <= i < |order| ==> order[i] in keys)
    && (forall k | k in keys :: k in order)
  }
}

=== FILE: config.dfy ===
/** The configuration records and their validators (the Go package modules/config).
    Loading the YAML file is not modelled: a configuration is a value. */
module Config {
  import opened Common

  /** Go's `uint16`. */
  type Port = p: int | 0 <= p < 0x1_0000

  datatype Basics = Basics(port: Port, host: string)

  datatype ServerConfig = ServerConfig(
    name: string,
    id: string,
    host: string,
    port: Port,
    required: bool,
    testDb: string,
    isDefault: bool,
    serverGroup: string)

  /** The zero `config.Server{}`. */
  const ZeroServer: ServerConfig := ServerConfig("", "", "", 0, false, "", false, "")

  /** A database account and the server id it is meant for. */
  datatype DbUser = DbUser(user: string, password: string, target: string)

  const ZeroUser: DbUser := DbUser("", "", "")

  /** A routing rule: at least one of `hash` and `regex` is expected. */
  datatype Rule = Rule(name: string, hash: string, regex: string, target: string)

  datatype Redis = Redis(host: string, port: int, password: string, database: int)

  datatype Memory = Memory(capacity: int)

  datatype CacheConfig = CacheConfig(kind: string, redis: Redis, memory: Memory)

  datatype ServerGroupConfig = ServerGroupConfig(id: string)

  datatype ProxyConfig = ProxyConfig(
    basics: Basics,
    cache: CacheConfig,
    serverGroups: seq<ServerGroupConfig>,
    servers: seq<ServerConfig>,
    dbUsers: seq<DbUser>,
    rules: seq<Rule>,
    defaultServer: Option<ServerConfig>)

  // ---------------------------------------------------------------------------
  // server.go

  /** `GetDsn`: `host:port`, the port in decimal. */
  function GetDsn(s: ServerConfig): (r: string)
    ensures |r| == |s.host| + 1 + |NatToString(s.port)|
    ensures r[..|s.host|] == s.host && r[|s.host|] == ':'
  {
    s.host + ":" + NatToString(s.port)
  }

  /** The position of the last ':' in `s`, if any. */
  function LastColon(s: string): (r: Option<nat>)
    ensures r.Some? ==> (r.value < |s| && s[r.value] == ':'
                         && forall k :: r.value < k < |s| ==> s[k] != ':')
    ensures r.None? ==> forall k :: 0 <= k < |s| ==> s[k] != ':'
  {
    if |s| == 0 then None
    else if s[|s| - 1] == ':' then Some(|s| - 1)
    else LastColon(s[..|s| - 1])
  }

  /** Reading a DSN back: the host is everything before the last ':', the
      port the decimal number after it. */
  function ParseDsn(dsn: string): Option<(string, nat)> {
    match LastColon(dsn)
    case None => None
    case Some(i) =>
      var digits := dsn[i + 1..];
      if forall k :: 0 <= k < |digits| ==> IsDigit(digits[k]) then Some((dsn[..i], DigitsValue(digits)))
      else None
  }

  /** A DSN determines its host and port, even when the host itself holds
      colons (an IPv6 literal): the decimal port never does. */
  lemma DsnRoundTrip(s: ServerConfig)
    ensures ParseDsn(GetDsn(s)) == Some((s.host, s.port as nat))
  {
    var d := GetDsn(s);
    var digits := NatToString(s.port);
    var h := |s.host|;
    assert d[h + 1..] == digits;
    assert forall k :: h < k < |d| ==> d[k] != ':' by {
      forall k | h < k < |d| ensures d[k] != ':' {
        assert d[k] == digits[k - h - 1];
      }
    }
    assert LastColon(d) == Some(h) by {
      LastColonAt(d, h);
    }
    NatToStringRoundTrip(s.port);
  }

  lemma {:induction false} LastColonAt(s: string, i: nat)
    requires i < |s| && s[i] == ':'
    requires forall k :: i < k < |s| ==> s[k] != ':'
    ensures LastColon(s) == Some(i)
    decreases |s|
  {
    if |s| - 1 != i {
      assert s[..|s| - 1][i] == ':';
      LastColonAt(s[..|s| - 1], i);
    }
  }

  /** The ids of the first `n` configured servers. */
  function ServerIds(cfgs: seq<ServerConfig>, n: nat): set<string>
    requires n <= |cfgs|
  {
    set i | 0 <= i < n :: cfgs[i].id
  }

  lemma ServerIdsSnoc(cfgs: seq<ServerConfig>, n: nat)
    requires n < |cfgs|
    ensures ServerIds(cfgs, n + 1) == ServerIds(cfgs, n) + {cfgs[n].id}
  {
  }

  const ErrNotFound: string := "user not found"

  /** `GetUser`: the first configured user whose target is the server. */
  function GetUser(users: seq<DbUser>, serverId: string): (r: Result<DbUser>)
    ensures r.Ok? <==> exists k :: 0 <= k < |users| && users[k].target == serverId
    ensures r.Ok? ==> exists k :: 0 <= k < |users| && users[k] == r.value
                        && users[k].target == serverId
                        && forall m :: 0 <= m < k ==> users[m].target != serverId
    ensures r.Err? ==> r.msg == ErrNotFound
  {
    if |users| == 0 then Err(ErrNotFound)
    else if users[0].target == serverId then Ok(users[0])
    else
      var r := GetUser(users[1..], serverId);
      assert r.Ok? ==> exists k :: 1 <= k < |users| && users[k] == r.value
                        && users[k].target == serverId
                        && forall m :: 0 <= m < k ==> users[m].target != serverId by {
        if r.Ok? {
          var k :| 0 <= k < |users| - 1 && users[1..][k] == r.value
                   && users[1..][k].target == serverId
                   && forall m :: 0 <= m < k ==> users[1..][m].target != serverId;
          assert users[k + 1] == r.value;
          assert forall m :: 0 <= m < k + 1 ==> users[m].target != serverId by {
            forall m | 0 <= m < k + 1 ensures users[m].target != serverId {
              if m > 0 { assert users[m] == users[1..][m - 1]; }
            }
          }
        }
      }
      assert (exists k :: 0 <= k < |users| - 1 && users[1..][k].target == serverId)
             <==> (exists k :: 0 <= k < |users| && users[k].target == serverId) by {
        if exists k :: 0 <= k < |users| && users[k].target == serverId {
          var k :| 0 <= k < |users| && users[k].target == serverId;
          assert k > 0;
          assert users[1..][k - 1].target == serverId;
        }
      }
      r
  }

  /** Some server is flagged `default` (the source's search loop). */
  function HasDefault(servers: seq<ServerConfig>): (b: bool)
    ensures b <==> exists i :: 0 <= i < |servers| && servers[i].isDefault
  {
    if |servers| == 0 then false
    else if servers[0].isDefault then true
    else
      var b := HasDefault(servers[1..]);
      assert b ==> exists i :: 0 <= i < |servers| && servers[i].isDefault by {
        if b {
          var i :| 0 <= i < |servers| - 1 && servers[1..][i].isDefault;
          assert servers[i + 1].isDefault;
        }
      }
      assert (exists i :: 0 <= i < |servers| && servers[i].isDefault) ==> b by {
        if exists i :: 0 <= i < |servers| && servers[i].isDefault {
          var i :| 0 <= i < |servers| && servers[i].isDefault;
          assert servers[1..][i - 1].isDefault;
        }
      }
      b
  }

  const ErrNoDefaultServer: string := "no default server"

  /** `ValidateServerConfiguration`: only the presence of a default server is
      checked; several defaults and unknown groups pass. */
  function ValidateServerConfiguration(servers: seq<ServerConfig>): (r: Outcome)
    ensures r.Nil? <==> exists i :: 0 <= i < |servers| && servers[i].isDefault
    ensures r.Error? ==> r.msg == ErrNoDefaultServer
  {
    if HasDefault(servers) then Nil else Error(ErrNoDefaultServer)
  }

  // ---------------------------------------------------------------------------
  // rule.go

  predicate MissingPattern(r: Rule) {
    r.hash == "" && r.regex == ""
  }

  /** The message for the rule at 1-based position `index`. */
  function RuleMessage(index: nat, name: string): string {
    "[RULE " + NatToString(index) + " ERROR] (" + name + "): regex_rule or hash_rule must be specified"
  }

  /** The positions below `n` of the rules that name neither a hash nor a
      regex, in increasing order. */
  function MissingIndices(rules: seq<Rule>, n: nat): (r: seq<nat>)
    requires n <= |rules|
    ensures forall k :: 0 <= k < |r| ==> r[k] < n
  {
    if n == 0 then []
    else MissingIndices(rules, n - 1) + (if MissingPattern(rules[n - 1]) then [n - 1] else [])
  }

  /** Exactly the offending positions, each once, in increasing order. */
  lemma {:induction false} MissingIndicesSpec(rules: seq<Rule>, n: nat)
    requires n <= |rules|
    ensures forall k :: 0 <= k < |MissingIndices(rules, n)| ==> MissingPattern(rules[MissingIndices(rules, n)[k]])
    ensures forall i :: 0 <= i < n && MissingPattern(rules[i]) ==> i in MissingIndices(rules, n)
    ensures forall k, l :: 0 <= k < l < |MissingIndices(rules, n)| ==> MissingIndices(rules, n)[k] < MissingIndices(rules, n)[l]
  {
    if n > 0 {
      MissingIndicesSpec(rules, n - 1);
    }
  }

  /** The messages for the rules at positions `idx`. */
  function MessagesFor(rules: seq<Rule>, idx: seq<nat>): (r: seq<string>)
    requires forall k :: 0 <= k < |idx| ==> idx[k] < |rules|
    ensures |r| == |idx|
    ensures forall k :: 0 <= k < |idx| ==> r[k] == RuleMessage(idx[k] + 1, rules[idx[k]].name)
  {
    if |idx| == 0 then []
    else
      var n := |idx| - 1;
      assert forall k :: 0 <= k < n ==> idx[..n][k] == idx[k];
      MessagesFor(rules, idx[..n]) + [RuleMessage(idx[n] + 1, rules[idx[n]].name)]
  }

  lemma MessagesForSnoc(rules: seq<Rule>, idx: seq<nat>, i: nat)
    requires i < |rules| && forall k :: 0 <= k < |idx| ==> idx[k] < |rules|
    ensures MessagesFor(rules, idx + [i]) == MessagesFor(rules, idx) + [RuleMessage(i + 1, rules[i].name)]
  {
    assert (idx + [i])[..|idx|] == idx;
  }

  /** The expected error list: one message per offending rule, in rule order. */
  function RuleErrors(rules: seq<Rule>): (r: seq<string>)
    ensures var m := MissingIndices(rules, |rules|);
            |r| == |m| && forall k :: 0 <= k < |m| ==> r[k] == RuleMessage(m[k] + 1, rules[m[k]].name)
  {
    MessagesFor(rules, MissingIndices(rules, |rules|))
  }

  /** `ValidateRuleConfiguration`, as the source's loop over the rules; an
      empty result stands for the nil slice. */
  method ValidateRuleConfiguration(rules: seq<Rule>) returns (errs: seq<string>)
    ensures errs == RuleErrors(rules)
    ensures |errs| == 0 <==> forall i :: 0 <= i < |rules| ==> !MissingPattern(rules[i])
  {
    errs := [];
    var i := 0;
    while i < |rules|
      invariant 0 <= i <= |rules|
      invariant errs == ErrorsUpTo(rules, i)
    {
      if rules[i].hash == "" && rules[i].regex == "" {
        errs := errs + [RuleMessage(i + 1, rules[i].name)];
      }
      i := i + 1;
    }
    ErrorsUpToAgrees(rules, |rules|);
    RuleErrorsEmpty(rules);
  }

  /** The loop's running error list after the first `n` rules. */
  function ErrorsUpTo(rules: seq<Rule>, n: nat): seq<string>
    requires n <= |rules|
  {
    if n == 0 then []
    else ErrorsUpTo(rules, n - 1) + (if MissingPattern(rules[n - 1]) then [RuleMessage(n, rules[n - 1].name)] else [])
  }

  lemma {:induction false} ErrorsUpToAgrees(rules: seq<Rule>, n: nat)
    requires n <= |rules|
    ensures ErrorsUpTo(rules, n) == MessagesFor(rules, MissingIndices(rules, n))
  {
    if n > 0 {
      ErrorsUpToAgrees(rules, n - 1);
      var m := MissingIndices(rules, n - 1);
      if MissingPattern(rules[n - 1]) {
        MessagesForSnoc(rules, m, n - 1);
      } else {
        assert MissingIndices(rules, n) == m;
      }
    }
  }

  lemma RuleErrorsEmpty(rules: seq<Rule>)
    ensures |RuleErrors(rules)| == 0 <==> forall i :: 0 <= i < |rules| ==> !MissingPattern(rules[i])
  {
    var m := MissingIndices(rules, |rules|);
    MissingIndicesSpec(rules, |rules|);
    if |m| > 0 {
      assert MissingPattern(rules[m[0]]);
    }
  }

  /** A rule with both a hash and a regex is accepted. */
  lemma BothPatternsAccepted(r: Rule)
    requires r.hash != "" && r.regex != ""
    ensures RuleErrors([r]) == []
  {
    assert MissingIndices([r], 1) == [];
  }

  // ---------------------------------------------------------------------------
  // cache.go

  /** `GetDefaultCache`: the Redis defaults, and no cache type. */
  function GetDefaultCache(): (c: CacheConfig)
    ensures c.kind == "" && c.memory.capacity == 0
    ensures c.redis == Redis("127.0.0.1", 6379, "", 0)
  {
    CacheConfig("", Redis("127.0.0.1", 6379, "", 0), Memory(0))
  }

  const ErrCacheTypeRequired: string := "cache type is required"
  const ErrCacheTypeInvalid: string := "cache type is invalid"
  const ErrCacheCapacity: string := "cache capacity is required or cannot be 0"

  /** `ValidateCacheConfiguration`. Redis settings are not looked at, and a
      negative memory capacity passes. */
  function ValidateCacheConfiguration(c: CacheConfig): (r: Outcome)
    ensures r.Nil? <==> c.kind == "redis" || (c.kind == "memory" && c.memory.capacity != 0)
    ensures c.kind == "" ==> r == Error(ErrCacheTypeRequired)
    ensures c.kind != "" && c.kind != "redis" && c.kind != "memory" ==> r == Error(ErrCacheTypeInvalid)
    ensures c.kind == "memory" && c.memory.capacity == 0 ==> r == Error(ErrCacheCapacity)
  {
    if c.kind == "" then Error(ErrCacheTypeRequired)
    else if c.kind != "redis" && c.kind != "memory" then Error(ErrCacheTypeInvalid)
    else if c.kind == "memory" && c.memory.capacity == 0 then Error(ErrCacheCapacity)
    else Nil
  }

  // ---------------------------------------------------------------------------
  // config.go

  /** `NewConfiguration`: everything zero except the default cache settings. */
  function NewConfiguration(): (c: ProxyConfig)
    ensures c.cache == GetDefaultCache()
    ensures c.servers == [] && c.rules == [] && c.serverGroups == [] && c.dbUsers == []
  {
    ProxyConfig(Basics(0, ""), GetDefaultCache(), [], [], [], [], None)
  }

  /** `validate`: basics, servers, rules, cache, in that order; only the
      first failing category is reported. `ValidateBasicConfiguration` always
      passes. An empty result stands for nil. */
  function Validate(c: ProxyConfig): (errs: seq<string>)
    ensures |errs| == 0 <==>
              && ValidateServerConfiguration(c.servers).Nil?
              && RuleErrors(c.rules) == []
              && ValidateCacheConfiguration(c.cache).Nil?
    ensures ValidateServerConfiguration(c.servers).Error? ==> errs == [ErrNoDefaultServer]
    ensures ValidateServerConfiguration(c.servers).Nil? && RuleErrors(c.rules) != [] ==>
              errs == RuleErrors(c.rules)
    ensures ValidateServerConfiguration(c.servers).Nil? && RuleErrors(c.rules) == []
              && ValidateCacheConfiguration(c.cache).Error? ==>
              errs == [ValidateCacheConfiguration(c.cache).msg]
  {
    match ValidateServerConfiguration(c.servers)
    case Error(m) => [m]
    case Nil =>
      var ruleErrs := RuleErrors(c.rules);
      if ruleErrs != [] then ruleErrs
      else match ValidateCacheConfiguration(c.cache)
        case Error(m) => [m]
        case Nil => []
  }

  /** A fresh configuration is not valid: it has no default server, and even
      with one its empty cache type would be rejected. */
  lemma FreshConfigurationRejected()
    ensures Validate(NewConfiguration()) == [ErrNoDefaultServer]
    ensures ValidateCacheConfiguration(NewConfiguration().cache) == Error(ErrCacheTypeRequired)
  {
  }

  /** A valid configuration has a default server and a usable cache type. */
  lemma ValidConfiguration(c: ProxyConfig)
    requires Validate(c) == []
    ensures exists i :: 0 <= i < |c.servers| && c.servers[i].isDefault
    ensures c.cache.kind in {"redis", "memory"}
    ensures forall i :: 0 <= i < |c.rules| ==> c.rules[i].hash != "" || c.rules[i].regex != ""
  {
    RuleErrorsEmpty(c.rules);
  }
}

=== FILE: connection_manager.dfy ===
/** The per-session connection manager (modules/proxy/connection_manager.go):
    the connections a client session holds, one per server group, kept in a
    map from group id together with a list of the same ids for random picks.

    Go hands out `*DbConnection` pointers into the map; here a connection is
    handed out as the key it is filed under, and later changes to it (the
    tracked charset and database) are made through the manager. The app
    context is the parameter `done`: `Some(err)` once it is cancelled. */
module ConnectionManager {
  import opened Common
  import opened Backend
  import opened Registry

  /** A leased connection, its server, and the charset and database the
      session last set on it. */
  datatype DbConnection = DbConnection(conn: Conn, server: ServerRef, charset: string, dbName: string)

  datatype Manager = Manager(conns: map<string, DbConnection>, ids: seq<string>)

  /** The id list names every held connection exactly once. */
  predicate Valid(m: Manager) {
    && NoDuplicates(m.ids)
    && (forall id | id in m.ids :: id in m.conns)
    && (forall id | id in m.conns :: id in m.ids)
  }

  /** `NewConnectionManager`. */
  const NewManager: Manager := Manager(map[], [])

  /** The result of a call that may hand out a connection: on success the
      key of the connection handed out, then the manager and the log. */
  datatype Got = Got(r: Result<string>, m: Manager, log: Log)

  const ErrConnectionNotFound: string := "connection not found"

  // ---------------------------------------------------------------------------
  // Creating connections

  /** `createConnection`: lease a connection from `target`'s pool and file it
      under `id`, in both the map and the list. A fresh connection has no
      charset or database yet, so the first setup brings it in line. A failed
      lease records nothing. */
  function CreateConnection(done: Option<string>, o: Oracle, log: Log, m: Manager, id: string, target: ServerRef): (r: Got)
    ensures done.Some? ==> r == Got(Err(done.value), m, log)
    ensures done.None? && o.lease(target, |log|).Some? ==> r == Got(Err(o.lease(target, |log|).value), m, log)
    ensures r.r.Ok? ==>
              && r.r.value == id && id in r.m.conns
              && r.m.conns[id] == DbConnection(Conn(|log|, target), target, "", "")
              && r.log == log + [Lease(Conn(|log|, target))]
              && r.m.ids == m.ids + [id]
              && forall k :: k != id ==> (k in r.m.conns <==> k in m.conns) && (k in m.conns ==> r.m.conns[k] == m.conns[k])
    ensures Valid(m) && id !in m.conns ==> Valid(r.m)
  {
    if done.Some? then Got(Err(done.value), m, log)
    else
      match GetConn(o, log, target)
      case (Err(e), l) => Got(Err(e), m, l)
      case (Ok(c), l) =>
        var m2 := Manager(m.conns[id := DbConnection(c, target, "", "")], m.ids + [id]);
        assert Valid(m) && id !in m.conns ==> Valid(m2) by {
          if Valid(m) && id !in m.conns {
            assert forall i :: 0 <= i < |m.ids| ==> m2.ids[i] == m.ids[i];
          }
        }
        Got(Ok(id), m2, l)
  }

  /** `createRandomConnection`: a connection to the server `GetRandomServer`
      draws from `g`. A ready registry has a default server, so the draw
      always names a server. */
  function CreateRandomConnection(done: Option<string>, o: Oracle, log: Log, db: Db, m: Manager, g: Group, rand: nat): (r: Got)
    requires Ready(db)
    ensures r == CreateConnection(done, o, log, m, g.id, GetRandomServer(db, g, rand).value)
  {
    if done.Some? then Got(Err(done.value), m, log)
    else
      var target := GetRandomServer(db, g, rand);
      CreateConnection(done, o, log, m, g.id, target.value)
  }

  // ---------------------------------------------------------------------------
  // Handing out connections

  /** `getConnection`: the connection already held for the group, or a new
      one to a server drawn from it. Nothing is created when one is held,
      and a failure leaves the manager and the log as they were. */
  function GetConnection(done: Option<string>, o: Oracle, log: Log, db: Db, m: Manager, g: Group, rand: nat): (r: Got)
    requires Ready(db)
    ensures done.Some? ==> r == Got(Err(done.value), m, log)
    ensures done.None? && g.id in m.conns ==> r == Got(Ok(g.id), m, log)
    ensures r.r.Ok? ==> r.r.value == g.id && g.id in r.m.conns
    ensures r.r.Err? ==> r.m == m && r.log == log
    ensures g.id !in m.conns && r.r.Ok? ==>
              var c := r.m.conns[g.id];
              && c.charset == "" && c.dbName == ""
              && Some(c.server) == GetRandomServer(db, g, rand)
              && r.log == log + [Lease(c.conn)]
    ensures Valid(m) ==> Valid(r.m)
  {
    if done.Some? then Got(Err(done.value), m, log)
    else if g.id in m.conns then Got(Ok(g.id), m, log)
    else CreateRandomConnection(done, o, log, db, m, g, rand)
  }

  /** The group of the default server: the key of the pinned connection. */
  function DefaultGroup(db: Db): string
    requires Ready(db)
  {
    db.objects[db.defaultServer.value].config.serverGroup
  }

  /** `getDefaultConnection`: the connection held under the default server's
      group, or a new one to the default server itself. */
  function GetDefaultConnection(done: Option<string>, o: Oracle, log: Log, db: Db, m: Manager): (r: Got)
    requires Ready(db)
    ensures done.Some? ==> r == Got(Err(done.value), m, log)
    ensures done.None? && DefaultGroup(db) in m.conns ==> r == Got(Ok(DefaultGroup(db)), m, log)
    ensures r.r.Ok? ==> r.r.value == DefaultGroup(db) && DefaultGroup(db) in r.m.conns
    ensures r.r.Err? ==> r.m == m && r.log == log
    ensures DefaultGroup(db) !in m.conns && r.r.Ok? ==>
              var c := r.m.conns[DefaultGroup(db)];
              && c.charset == "" && c.dbName == ""
              && c.server == db.defaultServer.value
              && r.log == log + [Lease(c.conn)]
    ensures Valid(m) ==> Valid(r.m)
  {
    var key := DefaultGroup(db);
    if done.Some? then Got(Err(done.value), m, log)
    else if key in m.conns then Got(Ok(key), m, log)
    else CreateConnection(done, o, log, m, key, db.defaultServer.value)
  }

  /** `getRandomConnection`: one of the held connections, chosen by the draw
      `rand`, or the default connection when none is held. */
  function GetRandomConnection(done: Option<string>, o: Oracle, log: Log, db: Db, m: Manager, rand: nat): (r: Got)
    requires Ready(db)
    ensures done.Some? ==> r == Got(Err(done.value), m, log)
    ensures |m.ids| == 0 ==> r == GetDefaultConnection(done, o, log, db, m)
    ensures |m.ids| > 0 && done.None? ==>
              && r.m == m && r.log == log
              && (r.r.Ok? <==> m.ids[rand % |m.ids|] in m.conns)
              && (r.r.Ok? ==> r.r.value == m.ids[rand % |m.ids|])
              && (r.r.Err? ==> r.r.msg == ErrConnectionNotFound)
  {
    if done.Some? then Got(Err(done.value), m, log)
    else if |m.ids| == 0 then GetDefaultConnection(done, o, log, db, m)
    else
      var id := m.ids[rand % |m.ids|];
      if id !in m.conns then Got(Err(ErrConnectionNotFound), m, log)
      else Got(Ok(id), m, log)
  }

  /** In a valid manager the "connection not found" branch is dead: every
      draw hands out a held connection, and any held one can be drawn. */
  lemma RandomConnectionIsHeld(done: Option<string>, o: Oracle, log: Log, db: Db, m: Manager, rand: nat)
    requires Ready(db) && Valid(m) && |m.ids| > 0 && done.None?
    ensures var r := GetRandomConnection(done, o, log, db, m, rand);
            r.r.Ok? && r.r.value in m.conns && r.m == m && r.log == log
    ensures forall id | id in m.conns :: exists k :: 0 <= k < |m.ids| && m.ids[k] == id
  {
    assert m.ids[rand % |m.ids|] in m.ids;
    forall id | id in m.conns ensures exists k :: 0 <= k < |m.ids| && m.ids[k] == id {
      assert id in m.ids;
    }
  }

  // ---------------------------------------------------------------------------
  // Returning connections

  /** The position of the first `x` in `s`, or -1 (the loop at lines 52-58). */
  function IndexOf(s: seq<string>, x: string): (i: int)
    ensures -1 <= i < |s|
    ensures i == -1 <==> x !in s
    ensures i >= 0 ==> s[i] == x && forall k :: 0 <= k < i ==> s[k] != x
  {
    if |s| == 0 then -1
    else if s[0] == x then 0
    else
      var j := IndexOf(s[1..], x);
      if j == -1 then -1 else j + 1
  }

  /** `ReturnConnectionById`: the connection goes back to its server's pool
      and its id leaves both the map and the list; an id not held changes
      nothing, and other entries are untouched. */
  function ReturnConnectionById(log: Log, m: Manager, id: string): (r: (Manager, Log))
    ensures id !in m.conns ==> r == (m, log)
    ensures id in m.conns ==> r.1 == log + [Put(m.conns[id].conn)] && id !in r.0.conns
    ensures forall k :: k != id ==> (k in r.0.conns <==> k in m.conns) && (k in m.conns ==> r.0.conns[k] == m.conns[k])
    ensures Valid(m) ==> Valid(r.0) && id !in r.0.ids
  {
    if id !in m.conns then (m, log)
    else
      var i := IndexOf(m.ids, id);
      var ids := if i != -1 then m.ids[..i] + m.ids[i + 1..] else m.ids;
      var m2 := Manager(m.conns - {id}, ids);
      assert Valid(m) ==> Valid(m2) && id !in ids by {
        if Valid(m) {
          RemoveAtKeepsOthers(m.ids, i);
        }
      }
      (m2, log + [Put(m.conns[id].conn)])
  }

  /** Cutting position `i` out of a list without duplicates removes exactly
      the element that was there. */
  lemma RemoveAtKeepsOthers(s: seq<string>, i: int)
    requires NoDuplicates(s) && 0 <= i < |s|
    ensures var t := s[..i] + s[i + 1..];
            && NoDuplicates(t)
            && (forall x :: x in t <==> x in s && x != s[i])
  {
    var t := s[..i] + s[i + 1..];
    assert forall k :: 0 <= k < |t| ==> t[k] == if k < i then s[k] else s[k + 1];
    forall x | x in s && x != s[i] ensures x in t {
      var k :| 0 <= k < |s| && s[k] == x;
      if k < i {
        assert t[k] == x;
      } else {
        assert t[k - 1] == x;
      }
    }
  }

  /** `ReturnConnectionsToPool`, visiting the map in the iteration order
      `order`: every held connection is put back to its pool, once, and the
      manager itself is not cleared (it is returned unchanged by the caller). */
  function ReturnConnectionsToPool(log: Log, m: Manager, order: seq<string>, n: nat): (r: Log)
    requires n <= |order| && forall i :: 0 <= i < |order| ==> order[i] in m.conns
    ensures |r| == |log| + n && r[..|log|] == log
    ensures forall i :: 0 <= i < n ==> r[|log| + i] == Put(m.conns[order[i]].conn)
  {
    if n == 0 then log
    else ReturnConnectionsToPool(log, m, order, n - 1) + [Put(m.conns[order[n - 1]].conn)]
  }

  /** Every connection the manager holds is put back. */
  lemma ReturnAllPutsEveryConnection(log: Log, m: Manager, order: seq<string>, id: string)
    requires IsKeyOrder(order, m.conns.Keys) && id in m.conns
    ensures Put(m.conns[id].conn) in ReturnConnectionsToPool(log, m, order, |order|)[|log|..]
  {
    var r := ReturnConnectionsToPool(log, m, order, |order|);
    var i :| 0 <= i < |order| && order[i] == id;
    assert r[|log|..][i] == r[|log| + i];
  }
}

=== FILE: legacy_handler.dfy ===
/** The older session handler (modules/mysql/handler.go): it keeps one
    connection per server id, selects the database with a `use` statement
    when it first connects, and supports only plain queries.

    The normaliser and the redirect lookup are the same parameters as for
    the newer handler (`ProxyHandler.Env`). A successful query answers with
    the connection that ran it. */
module LegacyHandler {
  import opened Common
  import opened Backend
  import opened Registry
  import opened ProxyHandler

  datatype LegacyConnection = LegacyConnection(conn: Conn, server: ServerRef)

  datatype Legacy = Legacy(dbName: string, transaction: bool, conns: map<string, LegacyConnection>)

  /** `NewProxyHandler`: no connection and no transaction. */
  function NewLegacy(): (h: Legacy)
    ensures h.conns == map[] && !h.transaction
  {
    Legacy("", false, map[])
  }

  /** `UseDB`: records the name; it never fails and sends nothing. */
  function UseDB(h: Legacy, dbName: string): (r: (Outcome, Legacy))
    ensures r.0.Nil? && r.1.dbName == dbName
    ensures r.1.conns == h.conns && r.1.transaction == h.transaction
  {
    (Nil, h.(dbName := dbName))
  }

  /** The statement a new connection receives first. */
  function UseStatement(dbName: string): string {
    "use " + dbName + ";"
  }

  /** The server a group draw lands on is a registered server object. */
  lemma DrawInRange(db: Db, g: Group, rand: nat)
    requires Ready(db) && GroupConsistent(g, db.objects)
    ensures GetRandomServer(db, g, rand).Some? && GetRandomServer(db, g, rand).value < |db.objects|
  {
    if exists i :: 0 <= i < |g.serverIds| && IsOperational(db, g, g.serverIds[i]) {
      var k :| 0 <= k < |g.serverIds| && IsOperational(db, g, g.serverIds[k])
               && GetRandomServer(db, g, rand) == Some(g.servers[g.serverIds[k]]);
      assert g.serverIds[k] in g.servers;
    }
  }

  /** The server a query goes to: the default server inside a transaction,
      otherwise a draw from the group the redirect names; `None` when that
      group does not exist. */
  function Target(env: Env, h: Legacy, query: string, rand: nat): (r: Option<ServerRef>)
    requires Ready(env.db)
    ensures r.Some? ==> r.value < |env.db.objects|
    ensures h.transaction ==> r == env.db.defaultServer
    ensures !h.transaction ==>
              var nh := env.normalize(query);
              var gid := env.redirect(nh.0, nh.1);
              (r.None? <==> gid !in env.db.groups)
              && (r.Some? ==> r == GetRandomServer(env.db, env.db.groups[gid], rand))
  {
    if h.transaction then env.db.defaultServer
    else
      var nh := env.normalize(query);
      var gid := env.redirect(nh.0, nh.1);
      if gid !in env.db.groups then None
      else
        DrawInRange(env.db, env.db.groups[gid], rand);
        GetRandomServer(env.db, env.db.groups[gid], rand)
  }

  /** A query on a server the session already has a connection to: only
      the query is sent, and the session is unchanged. */
  function RunOnHeld(o: Oracle, log: Log, h: Legacy, id: string, query: string): (r: (Result<Conn>, Legacy, Log))
    requires id in h.conns
    ensures r.1 == h && r.2 == log + [Execute(h.conns[id].conn, query)]
    ensures r.0.Ok? ==> r.0.value == h.conns[id].conn
  {
    var c := h.conns[id].conn;
    match Invoke(o, log, Execute(c, query))
    case (Error(e), l) => (Err(e), h, l)
    case (Nil, l) => (Ok(c), h, l)
  }

  /** The first query on a server: lease a connection, cache it, send the
      `use` statement when `sendUse` holds, then the query. */
  function RunOnNew(o: Oracle, log: Log, h: Legacy, id: string, t: ServerRef, query: string, sendUse: bool): (r: (Result<Conn>, Legacy, Log))
    requires id !in h.conns
    ensures r.1.dbName == h.dbName && r.1.transaction == h.transaction
    ensures o.lease(t, |log|).Some? ==> r == (Err(o.lease(t, |log|).value), h, log)
    ensures o.lease(t, |log|).None? ==>
              var c := Conn(|log|, t);
              && r.1.conns == h.conns[id := LegacyConnection(c, t)]
              && |r.2| >= |log| + 1 && r.2[..|log| + 1] == log + [Lease(c)]
              && (sendUse ==> |r.2| >= |log| + 2 && r.2[|log| + 1] == Execute(c, UseStatement(h.dbName)))
              && (!sendUse ==> forall k :: |log| < k < |r.2| ==> r.2[k] == Execute(c, query))
    ensures r.0.Ok? ==>
              && id in r.1.conns && r.1.conns[id].conn == r.0.value
              && |r.2| > 0 && r.2[|r.2| - 1] == Execute(r.0.value, query)
  {
    match GetConn(o, log, t)
    case (Err(e), l) => (Err(e), h, l)
    case (Ok(c), l1) =>
      var h1 := h.(conns := h.conns[id := LegacyConnection(c, t)]);
      var u := if sendUse then Invoke(o, l1, Execute(c, UseStatement(h.dbName))) else (Nil, l1);
      if u.0.Error? then (Err(u.0.msg), h1, u.1)
      else
        match Invoke(o, u.1, Execute(c, query))
        case (Error(e), l3) => (Err(e), h1, l3)
        case (Nil, l3) => (Ok(c), h1, l3)
  }

  /** A query on the server `t`, whose id is `id`. */
  function RunOn(o: Oracle, log: Log, h: Legacy, id: string, t: ServerRef, query: string, sendUse: bool): (r: (Result<Conn>, Legacy, Log))
    ensures r.1.dbName == h.dbName && r.1.transaction == h.transaction
    ensures |r.2| >= |log| && r.2[..|log|] == log
    ensures r.0.Ok? ==>
              && id in r.1.conns && r.1.conns[id].conn == r.0.value
              && |r.2| > 0 && r.2[|r.2| - 1] == Execute(r.0.value, query)
  {
    if id in h.conns then RunOnHeld(o, log, h, id, query)
    else RunOnNew(o, log, h, id, t, query, sendUse)
  }

  /** `HandleQuery` of the older handler. */
  function HandleQuery(env: Env, o: Oracle, log: Log, h: Legacy, query: string, rand: nat): (r: (Result<Conn>, Legacy, Log))
    requires Ready(env.db)
    ensures r.1.dbName == h.dbName && r.1.transaction == h.transaction
    ensures Target(env, h, query, rand).None? ==> r == (Err(ErrProxy), h, log)
    ensures r.0.Ok? ==>
              var t := Target(env, h, query, rand).value;
              var id := env.db.objects[t].config.id;
              && id in r.1.conns && r.1.conns[id].conn == r.0.value
              && |r.2| > 0 && r.2[|r.2| - 1] == Execute(r.0.value, query)
  {
    match Target(env, h, query, rand)
    case None => (Err(ErrProxy), h, log)
    case Some(t) =>
      var id := env.db.objects[t].config.id;
      RunOn(o, log, h, id, t, query, true)
  }

  /** A connection already held for the target server is reused: the query
      is the only statement sent, and nothing is leased. */
  lemma HeldConnectionReused(env: Env, o: Oracle, log: Log, h: Legacy, query: string, rand: nat)
    requires Ready(env.db)
    requires Target(env, h, query, rand).Some?
    requires env.db.objects[Target(env, h, query, rand).value].config.id in h.conns
    ensures var id := env.db.objects[Target(env, h, query, rand).value].config.id;
            var r := HandleQuery(env, o, log, h, query, rand);
            && r.1 == h
            && r.2 == log + [Execute(h.conns[id].conn, query)]
  {
  }

  /** A first connection to a server is cached before anything is sent on it,
      then receives `use <dbName>;` and only then the query; a failed `use`
      still leaves it cached. */
  lemma NewConnectionSendsUseFirst(env: Env, o: Oracle, log: Log, h: Legacy, query: string, rand: nat)
    requires Ready(env.db)
    requires Target(env, h, query, rand).Some?
    requires env.db.objects[Target(env, h, query, rand).value].config.id !in h.conns
    requires o.lease(Target(env, h, query, rand).value, |log|).None?
    ensures var t := Target(env, h, query, rand).value;
            var id := env.db.objects[t].config.id;
            var c := Conn(|log|, t);
            var r := HandleQuery(env, o, log, h, query, rand);
            && r.1.conns == h.conns[id := LegacyConnection(c, t)]
            && |r.2| >= |log| + 2
            && r.2[..|log| + 2] == log + [Lease(c), Execute(c, UseStatement(h.dbName))]
  {
  }

  /** Nothing the older handler does sets `transaction`, so from a new
      handler every query is routed through the redirect. */
  lemma NeverInTransaction(env: Env, o: Oracle, log: Log, h: Legacy, query: string, rand: nat, name: string)
    requires Ready(env.db) && !h.transaction
    ensures !HandleQuery(env, o, log, h, query, rand).1.transaction
    ensures !UseDB(h, name).1.transaction
  {
  }

  /** With no database selected, a first connection is sent `use ;`, which
      is not a statement MySQL accepts. */
  lemma EmptyDatabaseSendsBareUse(env: Env, o: Oracle, log: Log, h: Legacy, query: string, rand: nat)
    requires Ready(env.db) && h.dbName == ""
    requires Target(env, h, query, rand).Some?
    requires env.db.objects[Target(env, h, query, rand).value].config.id !in h.conns
    requires o.lease(Target(env, h, query, rand).value, |log|).None?
    ensures var c := Conn(|log|, Target(env, h, query, rand).value);
            Execute(c, "use ;") in HandleQuery(env, o, log, h, query, rand).2
  {
    NewConnectionSendsUseFirst(env, o, log, h, query, rand);
    var r := HandleQuery(env, o, log, h, query, rand);
    assert r.2[|log| + 1] == Execute(Conn(|log|, Target(env, h, query, rand).value), "use ;");
  }

  /** `HandleQuery` as evidently intended, following the newer handler: the
      `use` statement is sent only when a database has been selected. */
  function HandleQueryIntended(env: Env, o: Oracle, log: Log, h: Legacy, query: string, rand: nat): (r: (Result<Conn>, Legacy, Log))
    requires Ready(env.db)
    ensures r.1.dbName == h.dbName && r.1.transaction == h.transaction
    ensures Target(env, h, query, rand).None? ==> r == (Err(ErrProxy), h, log)
    ensures |r.2| >= |log| && r.2[..|log|] == log
    ensures r.0.Ok? ==>
              var t := Target(env, h, query, rand).value;
              var id := env.db.objects[t].config.id;
              && id in r.1.conns && r.1.conns[id].conn == r.0.value
              && |r.2| > 0 && r.2[|r.2| - 1] == Execute(r.0.value, query)
  {
    match Target(env, h, query, rand)
    case None => (Err(ErrProxy), h, log)
    case Some(t) =>
      var id := env.db.objects[t].config.id;
      RunOn(o, log, h, id, t, query, h.dbName != "")
  }

  /** With no database selected, the corrected handler sends the client's
      query and nothing else. */
  lemma IntendedSendsOnlyTheQuery(env: Env, o: Oracle, log: Log, h: Legacy, query: string, rand: nat)
    requires Ready(env.db) && h.dbName == ""
    ensures var r := HandleQueryIntended(env, o, log, h, query, rand);
            forall k :: |log| <= k < |r.2| ==> r.2[k].Execute? ==> r.2[k].sql == query
  {
    match Target(env, h, query, rand)
    case None =>
    case Some(t) =>
      var id := env.db.objects[t].config.id;
      if id !in h.conns && o.lease(t, |log|).None? {
        var r := RunOnNew(o, log, h, id, t, query, false);
        assert r.2[..|log| + 1] == log + [Lease(Conn(|log|, t))];
        assert r.2[|log|] == Lease(Conn(|log|, t));
      }
  }

  const ErrNotSupported: string := "not supported now"

  /** Field lists and prepared statements are refused; closing a statement
      succeeds and does nothing. */
  function HandleFieldList(table: string, wildcard: string): (r: Outcome)
    ensures r == Error(ErrNotSupported)
  {
    Error(ErrNotSupported)
  }

  function HandleStmtPrepare(query: string): (r: Outcome)
    ensures r == Error(ErrNotSupported)
  {
    Error(ErrNotSupported)
  }

  function HandleStmtExecute(ctx: ContextValue, query: string): (r: Outcome)
    ensures r == Error(ErrNotSupported)
  {
    Error(ErrNotSupported)
  }

  function HandleStmtClose(ctx: ContextValue): (r: Outcome)
    ensures r.Nil?
  {
    Nil
  }

  /** `HandleOtherCommand`: every other command is refused with
      `ER_UNKNOWN_ERROR`, naming the command byte in decimal. */
  function HandleOtherCommand(cmd: nat, data: seq<nat>): (r: SqlError)
    requires cmd < 256
    ensures r.code == ErUnknownError
    ensures NamesCommand(r.message, cmd, " is not supported now")
  {
    NamesCommandOf(cmd, " is not supported now");
    SqlError(ErUnknownError, "command " + NatToString(cmd) + " is not supported now")
  }

  /** `ReturnConnectionsToPool`, visiting the map in the iteration order
      `order`: each held connection is put back once. */
  function ReturnConnectionsToPool(log: Log, h: Legacy, order: seq<string>, n: nat): (r: Log)
    requires n <= |order| && forall i :: 0 <= i < |order| ==> order[i] in h.conns
    ensures |r| == |log| + n && r[..|log|] == log
    ensures forall i :: 0 <= i < n ==> r[|log| + i] == Put(h.conns[order[i]].conn)
  {
    if n == 0 then log
    else ReturnConnectionsToPool(log, h, order, n - 1) + [Put(h.conns[order[n - 1]].conn)]
  }
}

=== FILE: lru.dfy ===
/** The in-memory LRU cache (modules/cache/in_memory.go): a map from key to
    list element plus a recency list whose front is the most recently used
    element.

    A list element is named by an id, its identity as a `*list.Element`;
    `store` holds the entry of every element on the list. The mutex is left
    out: the model is sequential. */
module Lru {
  import opened Common

  datatype Entry = Entry(key: string, value: string)

  datatype LruCache = LruCache(
    cache: map<string, nat>,   // key -> element id
    store: map<nat, Entry>,    // element id -> entry
    order: seq<nat>,           // the recency list, front first
    capacity: int,
    next: nat)                 // the id of the next element pushed

  /** The list holds distinct elements, exactly the stored ones, all with
      ids below `next`; every key names a stored element carrying that key. */
  predicate Valid(c: LruCache) {
    && NoDuplicates(c.order)
    && (forall i :: 0 <= i < |c.order| ==> c.order[i] in c.store)
    && (forall id | id in c.store :: id in c.order && id < c.next)
    && (forall k | k in c.cache :: c.cache[k] in c.store && c.store[c.cache[k]].key == k)
  }

  // ---------------------------------------------------------------------------
  // The recency list

  /** `s` with `x` taken out. */
  function Without(s: seq<nat>, x: nat): (r: seq<nat>)
    ensures forall y :: y in r <==> y in s && y != x
    ensures |r| <= |s|
    ensures x !in s ==> r == s
  {
    if |s| == 0 then []
    else if s[0] == x then Without(s[1..], x)
    else [s[0]] + Without(s[1..], x)
  }

  lemma NoDuplicatesCons(a: nat, s: seq<nat>)
    requires a !in s && NoDuplicates(s)
    ensures NoDuplicates([a] + s)
  {
    forall i, j | 0 <= i < j < |[a] + s| ensures ([a] + s)[i] != ([a] + s)[j] {
      assert ([a] + s)[j] == s[j - 1];
      if i > 0 {
        assert ([a] + s)[i] == s[i - 1];
      }
    }
  }

  lemma {:induction false} WithoutSpec(s: seq<nat>, x: nat)
    requires NoDuplicates(s)
    ensures NoDuplicates(Without(s, x))
    ensures x in s ==> |Without(s, x)| == |s| - 1
  {
    if |s| > 0 {
      assert NoDuplicates(s[1..]) by {
        forall i, j | 0 <= i < j < |s[1..]| ensures s[1..][i] != s[1..][j] {
          assert s[1..][i] == s[i + 1] && s[1..][j] == s[j + 1];
        }
      }
      WithoutSpec(s[1..], x);
      if s[0] == x {
        assert x !in s[1..] by {
          forall i | 0 <= i < |s[1..]| ensures s[1..][i] != x {
            assert s[1..][i] == s[i + 1];
          }
        }
      } else {
        assert s[0] !in s[1..] by {
          forall i | 0 <= i < |s[1..]| ensures s[1..][i] != s[0] {
            assert s[1..][i] == s[i + 1];
          }
        }
        NoDuplicatesCons(s[0], Without(s[1..], x));
        assert x in s ==> x in s[1..] by {
          if x in s {
            var i :| 0 <= i < |s| && s[i] == x;
            assert s[1..][i - 1] == x;
          }
        }
      }
    }
  }

  /** `Without` works element by element, so it splits over a concatenation. */
  lemma {:induction false} WithoutConcat(a: seq<nat>, b: seq<nat>, x: nat)
    ensures Without(a + b, x) == Without(a, x) + Without(b, x)
  {
    if |a| == 0 {
      assert a + b == b;
    } else {
      assert (a + b)[0] == a[0] && (a + b)[1..] == a[1..] + b;
      WithoutConcat(a[1..], b, x);
    }
  }

  /** Taking out an element that sits at position `i` closes the gap and
      keeps every other element in its order. */
  lemma WithoutAt(s: seq<nat>, x: nat, i: nat)
    requires NoDuplicates(s) && i < |s| && s[i] == x
    ensures Without(s, x) == s[..i] + s[i + 1..]
  {
    var front, back := s[..i], s[i + 1..];
    assert s == front + ([x] + back);
    assert x !in front by {
      forall k | 0 <= k < |front| ensures front[k] != x {
        assert front[k] == s[k];
      }
    }
    assert x !in back by {
      forall k | 0 <= k < |back| ensures back[k] != x {
        assert back[k] == s[i + 1 + k];
      }
    }
    WithoutConcat(front, [x] + back, x);
    WithoutConcat([x], back, x);
    assert Without([x], x) == [];
  }

  /** `WithoutAt` for whichever position holds the element. */
  lemma WithoutKeepsOrder(s: seq<nat>, x: nat)
    requires NoDuplicates(s)
    ensures forall i :: 0 <= i < |s| && s[i] == x ==> Without(s, x) == s[..i] + s[i + 1..]
  {
    forall i | 0 <= i < |s| && s[i] == x ensures Without(s, x) == s[..i] + s[i + 1..] {
      WithoutAt(s, x, i);
    }
  }

  /** `MoveToFront`: the element keeps its place in the list, now at the
      front; the list neither grows nor shrinks. */
  function MoveToFront(s: seq<nat>, x: nat): (r: seq<nat>)
    ensures |r| > 0 && r[0] == x
    ensures forall y :: y in r <==> y in s || y == x
  {
    [x] + Without(s, x)
  }

  /** Moving an element at position `i` to the front keeps the others in
      their order behind it. */
  lemma MoveToFrontKeepsOrder(s: seq<nat>, x: nat)
    requires NoDuplicates(s)
    ensures forall i :: 0 <= i < |s| && s[i] == x ==> MoveToFront(s, x) == [s[i]] + s[..i] + s[i + 1..]
  {
    forall i | 0 <= i < |s| && s[i] == x ensures MoveToFront(s, x) == [s[i]] + s[..i] + s[i + 1..] {
      WithoutAt(s, x, i);
      assert [x] + (s[..i] + s[i + 1..]) == [s[i]] + s[..i] + s[i + 1..];
    }
  }

  lemma MoveToFrontSpec(s: seq<nat>, x: nat)
    requires NoDuplicates(s) && x in s
    ensures NoDuplicates(MoveToFront(s, x))
    ensures |MoveToFront(s, x)| == |s|
  {
    WithoutSpec(s, x);
    NoDuplicatesCons(x, Without(s, x));
  }

  /** Reordering the list, or changing the value of a stored element, keeps
      the cache well formed. */
  lemma ValidReorder(c: LruCache, order: seq<nat>, store: map<nat, Entry>)
    requires Valid(c)
    requires NoDuplicates(order)
    requires forall y :: y in order <==> y in c.order
    requires store.Keys == c.store.Keys
    requires forall id | id in store :: store[id].key == c.store[id].key
    ensures Valid(c.(order := order, store := store))
  {
    forall i | 0 <= i < |order| ensures order[i] in store {
      assert order[i] in order;
    }
  }

  /** Taking a key's element off the list and the key out of the map keeps
      the cache well formed. */
  lemma ValidRemove(c: LruCache, key: string)
    requires Valid(c) && key in c.cache
    ensures var id := c.cache[key];
            Valid(c.(cache := c.cache - {key}, store := c.store - {id}, order := Without(c.order, id)))
  {
    var id := c.cache[key];
    WithoutSpec(c.order, id);
    var d := c.(cache := c.cache - {key}, store := c.store - {id}, order := Without(c.order, id));
    forall i | 0 <= i < |d.order| ensures d.order[i] in d.store {
      assert d.order[i] in d.order;
    }
    forall k | k in d.cache ensures d.cache[k] in d.store {
      assert c.store[c.cache[k]].key == k;
    }
  }

  /** Taking the back element off the list and its key out of the map keeps
      the cache well formed. */
  lemma ValidEvict(c: LruCache)
    requires Valid(c) && |c.order| > 0
    ensures var back := c.order[|c.order| - 1];
            Valid(c.(cache := c.cache - {c.store[back].key}, store := c.store - {back}, order := c.order[..|c.order| - 1]))
  {
    var n := |c.order| - 1;
    var back := c.order[n];
    var e := c.(cache := c.cache - {c.store[back].key}, store := c.store - {back}, order := c.order[..n]);
    forall id | id in e.store ensures id in e.order {
      var i :| 0 <= i < |c.order| && c.order[i] == id;
      assert i != n;
      assert e.order[i] == id;
    }
    forall i | 0 <= i < |e.order| ensures e.order[i] in e.store {
      assert e.order[i] == c.order[i];
      assert c.order[i] != c.order[n];
    }
  }

  // ---------------------------------------------------------------------------
  // The operations

  const ErrZeroCapacity: string := "NewInMemoryCache capacity can't be 0"

  /** `NewInMemoryCache`: only a zero capacity is refused; a negative one is
      accepted. */
  function NewInMemoryCache(capacity: int): (r: Result<LruCache>)
    ensures r.Err? <==> capacity == 0
    ensures r.Ok? ==> Valid(r.value) && r.value.capacity == capacity
    ensures r.Ok? ==> forall k :: !Has(r.value, k)
  {
    if capacity == 0 then Err(ErrZeroCapacity)
    else Ok(LruCache(map[], map[], [], capacity, 0))
  }

  /** `Has`. */
  predicate Has(c: LruCache, key: string) {
    key in c.cache
  }

  /** `Get`: a hit answers the element's value and moves the element to the
      front, losing and adding none; a miss answers nothing (Go's
      `("", false)`) and changes nothing. */
  function Get(c: LruCache, key: string): (r: (Option<string>, LruCache))
    requires Valid(c)
    ensures r.0.Some? <==> Has(c, key)
    ensures r.0.Some? ==> r.0.value == c.store[c.cache[key]].value
    ensures Valid(r.1) && r.1.cache == c.cache && r.1.store == c.store && r.1.capacity == c.capacity
    ensures r.0.Some? ==> r.1.order[0] == c.cache[key] && |r.1.order| == |c.order|
    ensures r.0.Some? ==>
              forall i :: 0 <= i < |c.order| && c.order[i] == c.cache[key] ==>
                r.1.order == [c.order[i]] + c.order[..i] + c.order[i + 1..]
    ensures forall id :: id in r.1.order <==> id in c.order
    ensures r.0.None? ==> r.1 == c
  {
    if key in c.cache then
      var id := c.cache[key];
      MoveToFrontSpec(c.order, id);
      MoveToFrontKeepsOrder(c.order, id);
      ValidReorder(c, MoveToFront(c.order, id), c.store);
      (Some(c.store[id].value), c.(order := MoveToFront(c.order, id)))
    else (None, c)
  }

  /** The first block of `Set`: an existing key's element moves to the front
      and takes the new value. Its map entry is left as it is. */
  function Touch(c: LruCache, key: string, value: string): (t: LruCache)
    requires Valid(c)
    ensures Valid(t) && |t.order| == |c.order|
    ensures t.cache == c.cache && t.capacity == c.capacity && t.next == c.next
    ensures key in c.cache ==>
              && t.order[0] == c.cache[key]
              && (forall i :: 0 <= i < |c.order| && c.order[i] == c.cache[key] ==>
                    t.order == [c.order[i]] + c.order[..i] + c.order[i + 1..])
              && (forall y :: y in t.order <==> y in c.order)
              && t.store.Keys == c.store.Keys
              && t.store[c.cache[key]] == Entry(key, value)
              && (forall id | id in c.store && id != c.cache[key] :: t.store[id] == c.store[id])
    ensures key !in c.cache ==> t == c
  {
    if key in c.cache then
      var id := c.cache[key];
      MoveToFrontSpec(c.order, id);
      MoveToFrontKeepsOrder(c.order, id);
      ValidReorder(c, MoveToFront(c.order, id), c.store[id := Entry(key, value)]);
      c.(store := c.store[id := Entry(key, value)], order := MoveToFront(c.order, id))
    else c
  }

  /** The second block of `Set`: at or over capacity, the back element leaves
      the list and its key leaves the map, whichever element that key names. */
  function EvictBack(c: LruCache): (e: LruCache)
    requires Valid(c)
    ensures Valid(e) && e.capacity == c.capacity && e.next == c.next
    ensures |c.order| >= c.capacity && |c.order| > 0 ==>
              var back := c.order[|c.order| - 1];
              && |e.order| == |c.order| - 1
              && e.order == c.order[..|c.order| - 1]
              && back !in e.store
              && c.store[back].key !in e.cache
              && (forall k :: k in e.cache <==> k in c.cache && k != c.store[back].key)
              && (forall k | k in e.cache :: e.cache[k] == c.cache[k])
              && (forall id | id in e.store :: id in c.store && e.store[id] == c.store[id])
    ensures !(|c.order| >= c.capacity && |c.order| > 0) ==> e == c
  {
    if |c.order| >= c.capacity && |c.order| > 0 then
      var back := c.order[|c.order| - 1];
      ValidEvict(c);
      c.(cache := c.cache - {c.store[back].key}, store := c.store - {back}, order := c.order[..|c.order| - 1])
    else c
  }

  /** The last block of `Set`: a new element with the new entry goes to the
      front and the key is pointed at it. */
  function PushFront(c: LruCache, key: string, value: string): (p: LruCache)
    requires Valid(c)
    ensures Valid(p) && p.capacity == c.capacity && p.next == c.next + 1
    ensures p.order == [c.next] + c.order
    ensures key in p.cache && p.cache[key] == c.next && p.store[c.next] == Entry(key, value)
    ensures forall k | k in c.cache && k != key :: k in p.cache && p.cache[k] == c.cache[k]
    ensures forall id | id in c.store :: id in p.store && p.store[id] == c.store[id]
  {
    assert c.next !in c.order;
    NoDuplicatesCons(c.next, c.order);
    c.(cache := c.cache[key := c.next], store := c.store[c.next := Entry(key, value)],
       order := [c.next] + c.order, next := c.next + 1)
  }

  /** `Set` as written: the existing-key block does not return, so the
      element it moved to the front stays on the list next to the new one. */
  function Set(c: LruCache, key: string, value: string): (s: LruCache)
    requires Valid(c)
    ensures Valid(s) && s.capacity == c.capacity
    ensures key in s.cache && s.cache[key] == c.next
    ensures |s.order| > 0 && s.order[0] == c.next && s.store[c.next] == Entry(key, value)
  {
    PushFront(EvictBack(Touch(c, key, value)), key, value)
  }

  /** `Delete`: the key's element leaves the list and the key leaves the map;
      an absent key changes nothing. */
  function Delete(c: LruCache, key: string): (d: LruCache)
    requires Valid(c)
    ensures Valid(d)
    ensures !Has(d, key)
    ensures forall k :: k != key ==> (Has(d, k) <==> Has(c, k))
    ensures forall k | k in d.cache :: k in c.cache && d.cache[k] == c.cache[k]
    ensures forall id | id in d.store :: id in c.store && d.store[id] == c.store[id]
    ensures key in c.cache ==>
              forall i :: 0 <= i < |c.order| && c.order[i] == c.cache[key] ==>
                d.order == c.order[..i] + c.order[i + 1..]
    ensures key !in c.cache ==> d == c
  {
    if key in c.cache then
      var id := c.cache[key];
      ValidRemove(c, key);
      WithoutKeepsOrder(c.order, id);
      c.(cache := c.cache - {key}, store := c.store - {id}, order := Without(c.order, id))
    else c
  }

  /** `Clear`: both the map and the list are emptied. */
  function Clear(c: LruCache): (d: LruCache)
    requires Valid(c)
    ensures Valid(d) && d.capacity == c.capacity
    ensures forall k :: !Has(d, k)
    ensures |d.order| == 0
  {
    c.(cache := map[], store := map[], order := [])
  }

  // ---------------------------------------------------------------------------
  // What Set guarantees

  /** Right after `Set(k, v)`, `Has(k)` holds and `Get(k)` answers `v`. */
  lemma SetThenGet(c: LruCache, key: string, value: string)
    requires Valid(c)
    ensures Has(Set(c, key, value), key)
    ensures Get(Set(c, key, value), key).0 == Some(value)
  {
  }

  /** With a positive capacity the recency list never outgrows it. */
  lemma SetKeepsBound(c: LruCache, key: string, value: string)
    requires Valid(c) && c.capacity >= 1 && |c.order| <= c.capacity
    ensures |Set(c, key, value).order| <= c.capacity
  {
  }

  /** At capacity, `Set` drops the back (least recently used) element of the
      list and deletes that element's key from the map, unless it is the key
      being set. */
  lemma SetEvictsBack(c: LruCache, key: string, value: string)
    requires Valid(c)
    requires var t := Touch(c, key, value); |t.order| >= c.capacity && |t.order| > 0
    ensures var t := Touch(c, key, value);
            var back := t.order[|t.order| - 1];
            var s := Set(c, key, value);
            && s.order == [c.next] + t.order[..|t.order| - 1]
            && (t.store[back].key != key ==> t.store[back].key !in s.cache)
  {
  }

  /** A key the map still holds after `Set` names the element it named
      before, unless it is the key set. */
  lemma SetKeepsOtherKeys(c: LruCache, key: string, value: string, other: string)
    requires Valid(c) && other != key && other in Set(c, key, value).cache
    ensures other in c.cache && Set(c, key, value).cache[other] == c.cache[other]
    ensures Set(c, key, value).store[c.cache[other]] == c.store[c.cache[other]]
  {
  }

  /** However the map and list drift apart, every key names an element of
      the list, so the map never holds more entries than the list. */
  lemma CacheNoLargerThanList(c: LruCache)
    requires Valid(c)
    ensures |c.cache.Keys| <= |c.order|
  {
    InjectionBound(c.cache, c.store.Keys);
    DistinctCount(c.order, c.store.Keys);
  }

  lemma InjectionBound(m: map<string, nat>, s: set<nat>)
    requires forall k | k in m :: m[k] in s
    requires forall k1, k2 | k1 in m && k2 in m && k1 != k2 :: m[k1] != m[k2]
    ensures |m.Keys| <= |s|
    decreases |s|
  {
    if m.Keys != {} {
      var k :| k in m;
      var m' := m - {k};
      InjectionBound(m', s - {m[k]});
      assert m.Keys == m'.Keys + {k};
    }
  }

  lemma {:induction false} DistinctCount(s: seq<nat>, keys: set<nat>)
    requires NoDuplicates(s)
    requires forall i :: 0 <= i < |s| ==> s[i] in keys
    requires forall x | x in keys :: x in s
    ensures |keys| == |s|
    decreases |s|
  {
    if |s| > 0 {
      var t := s[1..];
      assert NoDuplicates(t) by {
        forall i, j | 0 <= i < j < |t| ensures t[i] != t[j] {
          assert t[i] == s[i + 1] && t[j] == s[j + 1];
        }
      }
      forall x | x in keys - {s[0]} ensures x in t {
        var i :| 0 <= i < |s| && s[i] == x;
        assert t[i - 1] == x;
      }
      forall i | 0 <= i < |t| ensures t[i] in keys - {s[0]} {
        assert t[i] == s[i + 1];
      }
      DistinctCount(t, keys - {s[0]});
    }
  }

  // ---------------------------------------------------------------------------
  // Setting an existing key

  /** Capacity two, then `Set(a)`, `Set(a)`, `Set(b)`: the second `Set(a)`
      leaves a stale element for `a` at the back, and evicting it for `b`
      deletes `a` from the map, although `a` was set more recently than the
      capacity allows it to be forgotten. */
  lemma ResetKeyIsLost()
    ensures var c1 := Set(NewInMemoryCache(2).value, "a", "1");
            var c3 := Set(Set(c1, "a", "2"), "b", "3");
            !Has(c3, "a") && Has(c3, "b") && |c3.order| == 2
  {
    SetFirstA();
    SetSecondA();
    SetB();
  }

  /** The cache after `Set(a, 1)` on an empty cache of capacity two. */
  const AfterFirstA: LruCache := LruCache(map["a" := 0], map[0 := Entry("a", "1")], [0], 2, 1)

  /** ... and after `Set(a, 2)`: the old element for `a` is still listed. */
  const AfterSecondA: LruCache := LruCache(map["a" := 1], map[0 := Entry("a", "2"), 1 := Entry("a", "2")], [1, 0], 2, 2)

  lemma SetFirstA()
    ensures Set(NewInMemoryCache(2).value, "a", "1") == AfterFirstA
  {
    var c0 := NewInMemoryCache(2).value;
    assert Touch(c0, "a", "1") == c0;
    assert EvictBack(c0) == c0;
  }

  lemma SetSecondA()
    ensures Valid(AfterFirstA) && Set(AfterFirstA, "a", "2") == AfterSecondA
  {
    assert Valid(AfterFirstA);
    assert MoveToFront([0], 0) == [0] by {
      assert Without([0], 0) == [];
    }
    var t := Touch(AfterFirstA, "a", "2");
    assert t == LruCache(map["a" := 0], map[0 := Entry("a", "2")], [0], 2, 1);
    assert EvictBack(t) == t;
  }

  lemma SecondAValid()
    ensures Valid(AfterSecondA)
  {
    SetFirstA();
    SetSecondA();
  }

  /** Evicting the back element, the stale one for `a`, takes `a` out of
      the map. */
  lemma EvictStaleA()
    ensures Valid(AfterSecondA)
    ensures EvictBack(AfterSecondA) == LruCache(map[], map[1 := Entry("a", "2")], [1], 2, 2)
  {
    SecondAValid();
    assert AfterSecondA.store - {0} == map[1 := Entry("a", "2")];
  }

  lemma SetB()
    ensures Valid(AfterSecondA)
    ensures var c := Set(AfterSecondA, "b", "3"); c.cache == map["b" := 2] && c.order == [2, 1]
  {
    EvictStaleA();
    assert Touch(AfterSecondA, "b", "3") == AfterSecondA;
  }

  /** Every element on the list is the one its key names: no stale
      elements. */
  predicate Exact(c: LruCache) {
    && Valid(c)
    && forall id | id in c.store :: c.store[id].key in c.cache && c.cache[c.store[id].key] == id
  }

  /** `Set` as evidently intended: an existing key is updated in place and
      moved to the front, and nothing is evicted for it. */
  function SetIntended(c: LruCache, key: string, value: string): (s: LruCache)
    requires Valid(c)
    ensures Valid(s) && s.capacity == c.capacity
  {
    if key in c.cache then Touch(c, key, value)
    else PushFront(EvictBack(c), key, value)
  }

  /** The intended `Set` keeps map and list in step. */
  lemma SetIntendedExact(c: LruCache, key: string, value: string)
    requires Exact(c)
    ensures Exact(SetIntended(c, key, value))
  {
    if key !in c.cache {
      var e := EvictBack(c);
      forall id | id in e.store ensures e.store[id].key in e.cache && e.cache[e.store[id].key] == id {
        assert id in c.store;
      }
    }
  }

  /** Right after the intended `Set(k, v)`, `Get(k)` answers `v`. */
  lemma SetIntendedThenGet(c: LruCache, key: string, value: string)
    requires Valid(c)
    ensures Get(SetIntended(c, key, value), key).0 == Some(value)
  {
  }

  /** The intended `Set` keeps every other key, unless the key set is new and
      the cache is full; then only the least recently used key goes. */
  lemma SetIntendedKeeps(c: LruCache, key: string, value: string, other: string)
    requires Exact(c) && other != key && other in c.cache
    ensures other !in SetIntended(c, key, value).cache ==>
              && key !in c.cache && |c.order| >= c.capacity
              && c.cache[other] == c.order[|c.order| - 1]
  {
  }

  /** The same three calls with the intended `Set` keep both keys. */
  lemma ResetKeyKeptWhenIntended()
    ensures var c1 := SetIntended(NewInMemoryCache(2).value, "a", "1");
            var c3 := SetIntended(SetIntended(c1, "a", "2"), "b", "3");
            Has(c3, "a") && Has(c3, "b")
  {
    var c0 := NewInMemoryCache(2).value;
    var c1 := SetIntended(c0, "a", "1");
    assert c1.order == [0] && c1.cache == map["a" := 0];
    var c2 := SetIntended(c1, "a", "2");
    assert Without([0], 0) == [];
    assert c2.order == [0];
  }
}

=== FILE: proxy_handler.dfy ===
/** The client session (modules/proxy/handler.go): the charset, database and
    transaction state of one client connection, the choice between routed
    and pinned back-end connections, and the statements forwarded to them.

    The SQL normaliser and the redirect lookup are parameters (`Env`). The
    handler indexes the server groups with the redirect's result, so the
    redirect is taken here as a function to a group id. Result sets, field
    lists and statement metadata come from the back end and are not
    modelled: a successful query answers with the connection that ran it. */
module ProxyHandler {
  import opened Common
  import opened Backend
  import opened Registry
  import opened ConnectionManager
  import QueryAnalyzer
  import TransactionAnalyzer

  /** What a session sees of the process: the registry, the app context
      (`Some(err)` once cancelled), `util.NormalizeAndHashQuery` and
      `redirect.FindRedirect`. */
  datatype Env = Env(
    db: Db,
    done: Option<string>,
    normalize: string -> (string, string),
    redirect: (string, string) -> string)

  datatype Handler = Handler(
    id: string,
    manager: Manager,
    dbName: string,
    charsetClient: string,
    transaction: bool,
    sendInTransaction: bool)

  /** `NewProxyHandler`: a fresh session holds no connection, has no charset
      or database and is outside any transaction. */
  function NewProxyHandler(uuid: string): (h: Handler)
    ensures Valid(h.manager) && h.manager.conns == map[]
    ensures !h.transaction && !h.sendInTransaction
  {
    Handler(uuid, NewManager, "", "", false, false)
  }

  /** `UseDB`: selects the database; it never fails. */
  function UseDB(h: Handler, dbName: string): (r: (Outcome, Handler))
    ensures r.0.Nil? && r.1.dbName == dbName
    ensures r.1.(dbName := h.dbName) == h
  {
    (Nil, h.(dbName := dbName))
  }

  function TxOf(h: Handler): TransactionAnalyzer.TxState {
    TransactionAnalyzer.TxState(h.transaction, h.sendInTransaction)
  }

  /** `analyzeQuery`: `SET NAMES` changes only the charset and `USE` only
      the database, and neither reaches the transaction analysis; any other
      statement goes through it and changes only the two flags. */
  function AnalyzeQuery(h: Handler, query: string): (r: Handler)
    ensures var cmd := QueryAnalyzer.Analyze(query);
            && (cmd.kind == QueryAnalyzer.SetNames ==> r == h.(charsetClient := cmd.value))
            && (cmd.kind == QueryAnalyzer.UseDatabase ==> r == h.(dbName := cmd.value))
            && (cmd.kind == QueryAnalyzer.Unknown ==>
                  && r.(transaction := h.transaction, sendInTransaction := h.sendInTransaction) == h
                  && TxOf(r) == TransactionAnalyzer.AnalyzeTransaction(TxOf(h), query))
  {
    var cmd := QueryAnalyzer.Analyze(query);
    match cmd.kind
    case SetNames => h.(charsetClient := cmd.value)
    case UseDatabase => h.(dbName := cmd.value)
    case Unknown =>
      var st := TransactionAnalyzer.AnalyzeTransaction(TxOf(h), query);
      h.(transaction := st.transaction, sendInTransaction := st.sendInTransaction)
  }

  // ---------------------------------------------------------------------------
  // setupConnection

  /** The connection's tracked settings agree with every setting the session
      has made. */
  predicate Synced(h: Handler, c: DbConnection) {
    && (h.charsetClient != "" ==> c.charset == h.charsetClient)
    && (h.dbName != "" ==> c.dbName == h.dbName)
  }

  /** A setting `want` the connection must be given: non-empty and not the
      one it already tracks. */
  predicate Differs(want: string, have: string) {
    want != "" && want != have
  }

  /** The charset half of `setupConnection`. */
  function SetupCharset(o: Oracle, log: Log, c: DbConnection, want: string): (r: (Outcome, DbConnection, Log))
    ensures r.1.conn == c.conn && r.1.server == c.server && r.1.dbName == c.dbName
    ensures !Differs(want, c.charset) ==> r == (Nil, c, log)
    ensures Differs(want, c.charset) ==>
              && r.2 == log + [Execute(c.conn, "SET NAMES " + want + ";")]
              && (r.0.Nil? <==> o.reply(Execute(c.conn, "SET NAMES " + want + ";"), |log|).None?)
              && r.1.charset == (if r.0.Nil? then want else c.charset)
  {
    if !Differs(want, c.charset) then (Nil, c, log)
    else
      match Invoke(o, log, Execute(c.conn, "SET NAMES " + want + ";"))
      case (Error(e), l) => (Error(e), c, l)
      case (Nil, l) => (Nil, c.(charset := want), l)
  }

  /** The database half of `setupConnection`. */
  function SetupDatabase(o: Oracle, log: Log, c: DbConnection, want: string): (r: (Outcome, DbConnection, Log))
    ensures r.1.conn == c.conn && r.1.server == c.server && r.1.charset == c.charset
    ensures !Differs(want, c.dbName) ==> r == (Nil, c, log)
    ensures Differs(want, c.dbName) ==>
              && r.2 == log + [Execute(c.conn, "USE " + want + ";")]
              && (r.0.Nil? <==> o.reply(Execute(c.conn, "USE " + want + ";"), |log|).None?)
              && r.1.dbName == (if r.0.Nil? then want else c.dbName)
  {
    if !Differs(want, c.dbName) then (Nil, c, log)
    else
      match Invoke(o, log, Execute(c.conn, "USE " + want + ";"))
      case (Error(e), l) => (Error(e), c, l)
      case (Nil, l) => (Nil, c.(dbName := want), l)
  }

  /** `setupConnection` on the connection filed under `key`: after success
      the connection is in step with the session; a statement is sent only
      for a setting that is set and differs; a failed `SET NAMES` leaves the
      charset as it was and skips `USE`. Only that one entry changes. */
  function SetupConnection(o: Oracle, log: Log, h: Handler, key: string): (r: (Outcome, Manager, Log))
    requires key in h.manager.conns
    ensures r.1.ids == h.manager.ids && r.1.conns.Keys == h.manager.conns.Keys
    ensures forall k | k in h.manager.conns && k != key :: r.1.conns[k] == h.manager.conns[k]
    ensures r.1.conns[key].conn == h.manager.conns[key].conn && r.1.conns[key].server == h.manager.conns[key].server
    ensures r.0.Nil? ==> Synced(h, r.1.conns[key])
    ensures Synced(h, h.manager.conns[key]) <==> r == (Nil, h.manager, log)
    ensures var c := h.manager.conns[key];
            var setNames := Execute(c.conn, "SET NAMES " + h.charsetClient + ";");
            Differs(h.charsetClient, c.charset) && o.reply(setNames, |log|).Some? ==>
              r == (Error(o.reply(setNames, |log|).value), h.manager, log + [setNames])
    ensures |r.2| >= |log| && r.2[..|log|] == log
  {
    var c := h.manager.conns[key];
    var s1 := SetupCharset(o, log, c, h.charsetClient);
    if s1.0.Error? then (s1.0, h.manager, s1.2)
    else
      var s2 := SetupDatabase(o, s1.2, s1.1, h.dbName);
      var m := Manager(h.manager.conns[key := s2.1], h.manager.ids);
      assert s2.1 == c ==> m == h.manager;
      (s2.0, m, s2.2)
  }

  /** Setting up the same connection twice with no session change in
      between sends nothing the second time. */
  lemma SetupTwiceIsSilent(o: Oracle, log: Log, h: Handler, key: string)
    requires key in h.manager.conns
    requires SetupConnection(o, log, h, key).0.Nil?
    ensures var r := SetupConnection(o, log, h, key);
            SetupConnection(o, r.2, h.(manager := r.1), key) == (Nil, r.1, r.2)
  {
  }

  // ---------------------------------------------------------------------------
  // Choosing the connection

  const ErrProxy: string := "proxy error"

  /** `getTargetConnection`: the connection of the group the redirect names;
      a group that does not exist is a "proxy error" and acquires nothing. */
  function GetTargetConnection(env: Env, o: Oracle, log: Log, m: Manager, query: string, hash: string, rand: nat): (r: Got)
    requires Ready(env.db)
    ensures env.redirect(query, hash) !in env.db.groups ==> r == Got(Err(ErrProxy), m, log)
    ensures r.r.Ok? ==> r.r.value == env.redirect(query, hash) && r.r.value in r.m.conns
    ensures r.r.Err? ==> r.m == m && r.log == log
    ensures Valid(m) ==> Valid(r.m)
  {
    var target := env.redirect(query, hash);
    if target !in env.db.groups then Got(Err(ErrProxy), m, log)
    else GetConnection(env.done, o, log, env.db, m, env.db.groups[target], rand)
  }

  /** A statement is pinned to the default connection while a transaction
      is open or a transaction statement is being sent. */
  predicate Pinned(h: Handler) {
    h.transaction || h.sendInTransaction
  }

  /** The key of the connection a statement goes to: the default server's
      group when pinned, else the group the redirect picks for the
      normalised statement. */
  function RouteKey(env: Env, h: Handler, query: string): string
    requires Ready(env.db)
  {
    if Pinned(h) then DefaultGroup(env.db)
    else
      var nh := env.normalize(query);
      env.redirect(nh.0, nh.1)
  }

  /** The routing part of `HandleQuery` and `HandleStmtPrepare`. */
  function Route(env: Env, o: Oracle, log: Log, h: Handler, query: string, rand: nat): (r: Got)
    requires Ready(env.db)
    ensures r.r.Ok? ==> r.r.value == RouteKey(env, h, query) && r.r.value in r.m.conns
    ensures r.r.Err? ==> r.m == h.manager && r.log == log
    ensures Valid(h.manager) ==> Valid(r.m)
    ensures |r.log| >= |log| && r.log[..|log|] == log
  {
    if !Pinned(h) then
      var nh := env.normalize(query);
      GetTargetConnection(env, o, log, h.manager, nh.0, nh.1, rand)
    else GetDefaultConnection(env.done, o, log, env.db, h.manager)
  }

  // ---------------------------------------------------------------------------
  // HandleQuery

  /** A query's answer: the connection that ran it, the session after it,
      and the log. */
  datatype Answer = Answer(r: Result<Conn>, h: Handler, log: Log)

  /** The second half of `HandleQuery`, on the connection filed under
      `key`: set it up, then execute. `sendInTransaction` is cleared only by
      a successful execution; a successful query ran last, on a connection
      in step with the session. */
  function SetupAndExecute(o: Oracle, log: Log, h: Handler, key: string, query: string): (r: Answer)
    requires key in h.manager.conns
    ensures r.h.(manager := h.manager, sendInTransaction := h.sendInTransaction) == h
    ensures r.r.Ok? ==> !r.h.sendInTransaction
    ensures r.r.Err? ==> r.h.sendInTransaction == h.sendInTransaction
    ensures r.r.Ok? ==>
              && key in r.h.manager.conns
              && r.h.manager.conns[key].conn == r.r.value
              && Synced(r.h, r.h.manager.conns[key])
              && |r.log| > 0 && r.log[|r.log| - 1] == Execute(r.r.value, query)
    ensures Valid(h.manager) ==> Valid(r.h.manager)
  {
    var s := SetupConnection(o, log, h, key);
    var h2 := h.(manager := s.1);
    assert Valid(h.manager) ==> Valid(s.1) by {
      if Valid(h.manager) {
        assert forall id :: id in s.1.conns <==> id in h.manager.conns;
      }
    }
    if s.0.Error? then Answer(Err(s.0.msg), h2, s.2)
    else
      var c := s.1.conns[key].conn;
      match Invoke(o, s.2, Execute(c, query))
      case (Error(e), l) => Answer(Err(e), h2, l)
      case (Nil, l) => Answer(Ok(c), h2.(sendInTransaction := false), l)
  }

  /** `HandleQuery`: analyse, route, set the connection up, execute. The
      session's charset, database and transaction flag are the analysis's;
      `sendInTransaction` is cleared only by a successful execution. A
      successful query ran last, on the connection filed under its route
      key, which is then in step with the session. */
  function HandleQuery(env: Env, o: Oracle, log: Log, h: Handler, query: string, rand: nat): (r: Answer)
    requires Ready(env.db)
    ensures env.done.Some? ==> r == Answer(Err(env.done.value), h, log)
    ensures env.done.None? ==>
              var h1 := AnalyzeQuery(h, query);
              && r.h.(manager := h1.manager, sendInTransaction := h1.sendInTransaction) == h1
              && (r.r.Ok? ==> !r.h.sendInTransaction)
              && (r.r.Err? ==> r.h.sendInTransaction == h1.sendInTransaction)
    ensures r.r.Ok? ==>
              var key := RouteKey(env, AnalyzeQuery(h, query), query);
              && key in r.h.manager.conns
              && r.h.manager.conns[key].conn == r.r.value
              && Synced(r.h, r.h.manager.conns[key])
              && |r.log| > 0 && r.log[|r.log| - 1] == Execute(r.r.value, query)
    ensures Valid(h.manager) ==> Valid(r.h.manager)
  {
    if env.done.Some? then Answer(Err(env.done.value), h, log)
    else
      var h1 := AnalyzeQuery(h, query);
      var got := Route(env, o, log, h1, query, rand);
      if got.r.Err? then Answer(Err(got.r.msg), h1.(manager := got.m), got.log)
      else SetupAndExecute(o, got.log, h1.(manager := got.m), got.r.value, query)
  }

  // ---------------------------------------------------------------------------
  // Transactions across statements

  /** `BEGIN` is no `SET NAMES` or `USE` statement; it opens a transaction
      and marks itself for the pinned connection. */
  lemma BeginOpensTransaction(h: Handler)
    ensures AnalyzeQuery(h, "BEGIN") == h.(transaction := true, sendInTransaction := true)
  {
    var q := "BEGIN";
    QueryAnalyzer.TrimSpaceKeeps(q);
    QueryAnalyzer.ShortQueryNeverMatches(q, QueryAnalyzer.SetNamesPrefix);
    assert QueryAnalyzer.SkipSpaces(q, 0) == 0;
    assert q[0..3][0] == 'B';
    assert QueryAnalyzer.KeywordValue(q, QueryAnalyzer.UsePrefix) == None;
    TransactionAnalyzer.StripNoSpaces(q);
    TransactionAnalyzer.AnalyzeTransactionFlags(TxOf(h), q);
  }

  /** `COMMIT` closes the transaction and marks itself for the pinned
      connection. */
  lemma CommitClosesTransaction(h: Handler)
    ensures AnalyzeQuery(h, "COMMIT") == h.(transaction := false, sendInTransaction := true)
  {
    var q := "COMMIT";
    QueryAnalyzer.TrimSpaceKeeps(q);
    QueryAnalyzer.ShortQueryNeverMatches(q, QueryAnalyzer.SetNamesPrefix);
    assert QueryAnalyzer.SkipSpaces(q, 0) == 0;
    assert q[0..3][0] == 'C';
    assert QueryAnalyzer.KeywordValue(q, QueryAnalyzer.UsePrefix) == None;
    TransactionAnalyzer.StripNoSpaces(q);
    TransactionAnalyzer.AnalyzeTransactionFlags(TxOf(h), q);
  }

  /** A successful `BEGIN` runs on the default connection and leaves the
      session inside a transaction, with the one-shot flag cleared. */
  lemma BeginRunsPinned(env: Env, o: Oracle, log: Log, h: Handler, rand: nat)
    requires Ready(env.db)
    ensures var r := HandleQuery(env, o, log, h, "BEGIN", rand);
            r.r.Ok? ==>
            && DefaultGroup(env.db) in r.h.manager.conns
            && r.r.value == r.h.manager.conns[DefaultGroup(env.db)].conn
            && r.h.transaction && !r.h.sendInTransaction
  {
    BeginOpensTransaction(h);
  }

  /** Inside a transaction every statement but `COMMIT` or `ROLLBACK` stays
      on the pinned connection, whatever the redirect would pick. */
  lemma OpenTransactionPins(env: Env, h: Handler, query: string)
    requires Ready(env.db) && h.transaction
    requires !TransactionAnalyzer.HasPrefix(TrimSpace(query), "COMMIT")
    requires !TransactionAnalyzer.HasPrefix(TrimSpace(query), "ROLLBACK")
    ensures AnalyzeQuery(h, query).transaction
    ensures RouteKey(env, AnalyzeQuery(h, query), query) == DefaultGroup(env.db)
  {
    TransactionAnalyzer.AnalyzeTransactionFlags(TxOf(h), query);
  }

  /** `COMMIT` itself still runs on the pinned connection; once it has
      succeeded the session is unpinned, so the next ordinary statement is
      routed by the redirect again. */
  lemma CommitUnpins(env: Env, o: Oracle, log: Log, h: Handler, rand: nat)
    requires Ready(env.db)
    ensures var r := HandleQuery(env, o, log, h, "COMMIT", rand);
            r.r.Ok? ==>
            && DefaultGroup(env.db) in r.h.manager.conns
            && r.r.value == r.h.manager.conns[DefaultGroup(env.db)].conn
            && !Pinned(r.h)
  {
    CommitClosesTransaction(h);
  }

  // ---------------------------------------------------------------------------
  // Prepared statements

  datatype StmtContext = StmtContext(connection: DbConnection, statement: Stmt)

  /** The untyped `interface{}` the MySQL server library hands back. */
  datatype ContextValue = IsStmtContext(ctx: StmtContext) | OtherValue

  datatype Prepared = Prepared(r: Result<StmtContext>, h: Handler, log: Log)

  const NilStatement: string := "nil pointer dereference: ParamNum on a statement that failed to prepare"
  const ErrStmtContext: string := "go-proxy error, while getting the statement context"

  /** `HandleStmtPrepare` as written: the statement is routed like a query
      (without analysis or setup) and prepared; a failed prepare is only
      logged, and reading the parameter count of the nil statement then
      panics. */
  function HandleStmtPrepare(env: Env, o: Oracle, log: Log, h: Handler, query: string, rand: nat): (r: Call<Prepared>)
    requires Ready(env.db)
    ensures env.done.Some? ==> r == Returns(Prepared(Err(env.done.value), h, log))
    ensures r.Returns? && r.value.r.Ok? ==>
              var key := RouteKey(env, h, query);
              && key in r.value.h.manager.conns
              && r.value.r.value.connection == r.value.h.manager.conns[key]
              && r.value.r.value.statement.conn == r.value.r.value.connection.conn
              && |r.value.log| > 0 && r.value.log[|r.value.log| - 1] == Prepare(r.value.r.value.connection.conn, query)
  {
    if env.done.Some? then Returns(Prepared(Err(env.done.value), h, log))
    else
      var got := Route(env, o, log, h, query, rand);
      if got.r.Err? then Returns(Prepared(Err(got.r.msg), h.(manager := got.m), got.log))
      else
        var c := got.m.conns[got.r.value];
        match Invoke(o, got.log, Prepare(c.conn, query))
        case (Error(_), _) => Panics(NilStatement)
        case (Nil, l) => Returns(Prepared(Ok(StmtContext(c, Stmt(|got.log|, c.conn))), h.(manager := got.m), l))
  }

  /** Whenever the back end refuses to prepare the statement, the session
      panics instead of answering. */
  lemma PrepareFailurePanics(env: Env, o: Oracle, log: Log, h: Handler, query: string, rand: nat)
    requires Ready(env.db) && env.done.None?
    requires var got := Route(env, o, log, h, query, rand);
             got.r.Ok? && o.reply(Prepare(got.m.conns[got.r.value].conn, query), |got.log|).Some?
    ensures HandleStmtPrepare(env, o, log, h, query, rand) == Panics(NilStatement)
  {
  }

  /** `HandleStmtPrepare` as evidently intended: a failed prepare is the
      answer's error. */
  function HandleStmtPrepareChecked(env: Env, o: Oracle, log: Log, h: Handler, query: string, rand: nat): (r: Prepared)
    requires Ready(env.db)
  {
    if env.done.Some? then Prepared(Err(env.done.value), h, log)
    else
      var got := Route(env, o, log, h, query, rand);
      if got.r.Err? then Prepared(Err(got.r.msg), h.(manager := got.m), got.log)
      else
        var c := got.m.conns[got.r.value];
        match Invoke(o, got.log, Prepare(c.conn, query))
        case (Error(e), l) => Prepared(Err(e), h.(manager := got.m), l)
        case (Nil, l) => Prepared(Ok(StmtContext(c, Stmt(|got.log|, c.conn))), h.(manager := got.m), l)
  }

  /** The corrected prepare never panics: it answers exactly what the
      written one answers when that one returns, and reports the back end's
      error where that one panics. */
  lemma CheckedPrepareAnswers(env: Env, o: Oracle, log: Log, h: Handler, query: string, rand: nat)
    requires Ready(env.db)
    ensures var w := HandleStmtPrepare(env, o, log, h, query, rand);
            var c := HandleStmtPrepareChecked(env, o, log, h, query, rand);
            && (w.Returns? ==> c == w.value)
            && (w.Panics? ==>
                  var got := Route(env, o, log, h, query, rand);
                  var p := Prepare(got.m.conns[got.r.value].conn, query);
                  && got.r.Ok?
                  && c == Prepared(Err(o.reply(p, |got.log|).value), h.(manager := got.m), got.log + [p]))
  {
  }

  /** `HandleStmtExecute`: anything but a statement context is refused; the
      statement's own execution error is logged and swallowed. */
  function HandleStmtExecute(env: Env, o: Oracle, log: Log, ctx: ContextValue): (r: (Outcome, Log))
    ensures r.0.Error? <==> env.done.Some? || ctx.OtherValue?
    ensures env.done.None? && ctx.OtherValue? ==> r == (Error(ErrStmtContext), log)
    ensures r.0.Nil? ==> r.1 == log + [StmtExecute(ctx.ctx.statement)]
    ensures r.0.Error? ==> r.1 == log
  {
    if env.done.Some? then (Error(env.done.value), log)
    else match ctx
      case OtherValue => (Error(ErrStmtContext), log)
      case IsStmtContext(s) => (Nil, Invoke(o, log, StmtExecute(s.statement)).1)
  }

  /** `HandleStmtClose` as written: anything but a statement context is
      refused; otherwise it closes the whole connection the statement was
      prepared on, and the close's error is the answer. */
  function HandleStmtClose(o: Oracle, log: Log, ctx: ContextValue): (r: (Outcome, Log))
    ensures ctx.OtherValue? ==> r == (Error(ErrStmtContext), log)
    ensures ctx.IsStmtContext? ==>
              && r.1 == log + [Close(ctx.ctx.connection.conn)]
              && (r.0.Nil? <==> o.reply(Close(ctx.ctx.connection.conn), |log|).None?)
  {
    match ctx
    case OtherValue => (Error(ErrStmtContext), log)
    case IsStmtContext(s) => Invoke(o, log, Close(s.connection.conn))
  }

  /** Closing a statement closes a connection the session still holds under
      the statement's route key, so the session's next statement routed
      there runs on a closed connection. */
  lemma StmtCloseClosesHeldConnection(env: Env, o: Oracle, log: Log, h: Handler, query: string, rand: nat)
    requires Ready(env.db)
    requires var p := HandleStmtPrepare(env, o, log, h, query, rand);
             p.Returns? && p.value.r.Ok?
    ensures var p := HandleStmtPrepare(env, o, log, h, query, rand).value;
            var key := RouteKey(env, h, query);
            var c := HandleStmtClose(o, p.log, IsStmtContext(p.r.value));
            && key in p.h.manager.conns
            && c.1 == p.log + [Close(p.h.manager.conns[key].conn)]
  {
  }

  /** `HandleStmtClose` as evidently intended: close the statement and keep
      the session's connection open. */
  function HandleStmtCloseIntended(o: Oracle, log: Log, ctx: ContextValue): (r: (Outcome, Log))
    ensures ctx.OtherValue? ==> r == (Error(ErrStmtContext), log)
    ensures ctx.IsStmtContext? ==> r.1 == log + [StmtClose(ctx.ctx.statement)]
    ensures forall k :: |log| <= k < |r.1| ==> !r.1[k].Close?
  {
    match ctx
    case OtherValue => (Error(ErrStmtContext), log)
    case IsStmtContext(s) => Invoke(o, log, StmtClose(s.statement))
  }

  /** `HandleFieldList`: asks one of the held connections (or the default
      one); only a failure to get a connection is reported, the back end's
      own error is swallowed. */
  function HandleFieldList(env: Env, o: Oracle, log: Log, h: Handler, table: string, wildcard: string, rand: nat): (r: (Outcome, Handler, Log))
    requires Ready(env.db)
    ensures var got := GetRandomConnection(env.done, o, log, env.db, h.manager, rand);
            && (r.0.Error? <==> env.done.Some? || got.r.Err?)
            && (r.0.Nil? ==>
                  && r.1 == h.(manager := got.m)
                  && r.2 == got.log + [FieldList(got.m.conns[got.r.value].conn, table, wildcard)])
    ensures Valid(h.manager) && |h.manager.ids| > 0 ==> (r.0.Error? <==> env.done.Some?)
  {
    if env.done.Some? then (Error(env.done.value), h, log)
    else
      var got := GetRandomConnection(env.done, o, log, env.db, h.manager, rand);
      if got.r.Err? then (Error(got.r.msg), h.(manager := got.m), got.log)
      else
        var c := got.m.conns[got.r.value];
        (Nil, h.(manager := got.m), Invoke(o, got.log, FieldList(c.conn, table, wildcard)).1)
  }

  // ---------------------------------------------------------------------------
  // Other commands

  /** A MySQL error packet. */
  datatype SqlError = SqlError(code: nat, message: string)

  /** `ER_UNKNOWN_ERROR`. */
  const ErUnknownError: nat := 1105

  /** `msg` reads "command ", then `cmd` in decimal digits without leading
      zeros, then `suffix`. */
  predicate NamesCommand(msg: string, cmd: nat, suffix: string) {
    && |msg| > |"command "| + |suffix|
    && msg[..|"command "|] == "command "
    && msg[|msg| - |suffix|..] == suffix
    && var digits := msg[|"command "|..|msg| - |suffix|];
       && (forall k :: 0 <= k < |digits| ==> IsDigit(digits[k]))
       && (|digits| > 1 ==> digits[0] != '0')
       && DigitsValue(digits) == cmd
  }

  /** The refusal message built from a command number reads that number back. */
  lemma NamesCommandOf(cmd: nat, suffix: string)
    ensures NamesCommand("command " + NatToString(cmd) + suffix, cmd, suffix)
  {
    var msg := "command " + NatToString(cmd) + suffix;
    assert msg[..|"command "|] == "command ";
    assert msg[|msg| - |suffix|..] == suffix;
    assert msg[|"command "|..|msg| - |suffix|] == NatToString(cmd);
    NatToStringRoundTrip(cmd);
    NatToStringNoLeadingZero(cmd);
  }

  /** `HandleOtherCommand`: every other command is refused with
      `ER_UNKNOWN_ERROR`, naming the command byte in decimal. */
  function HandleOtherCommand(cmd: nat, data: seq<nat>): (r: SqlError)
    requires cmd < 256
    ensures r.code == ErUnknownError
    ensures NamesCommand(r.message, cmd, " is not supported")
  {
    NamesCommandOf(cmd, " is not supported");
    SqlError(ErUnknownError, "command " + NatToString(cmd) + " is not supported")
  }
}

=== FILE: query_analyzer.dfy ===
/** The statement classifier of the session handler: recognises `SET NAMES <x>`
    and `USE <x>` by a byte-wise, case-insensitive prefix match and extracts
    the value that follows (modules/proxy/query_analyzer.go). */
module QueryAnalyzer {
  import opened Common

  datatype CommandType = Unknown | SetNames | UseDatabase

  /** A classified statement; `value` is the charset or database name. */
  datatype SqlCommand = SqlCommand(kind: CommandType, value: string)

  const SetNamesPrefix: string := "SET NAMES"
  const UsePrefix: string := "USE"

  /** The zero `SQLCommand{}` Go returns on a miss. */
  const NoCommand: SqlCommand := SqlCommand(Unknown, "")

  // ---------------------------------------------------------------------------
  // Declarative reading of the prefix match

  /** The first position at or after `i` that does not hold white space. */
  function SkipSpaces(s: string, i: nat): (k: nat)
    requires i <= |s|
    ensures i <= k <= |s|
    ensures forall m :: i <= m < k ==> IsSpace(s[m])
    ensures k < |s| ==> !IsSpace(s[k])
    decreases |s| - i
  {
    if i < |s| && IsSpace(s[i]) then SkipSpaces(s, i + 1) else i
  }

  /** `a` spells `prefix` once every byte of `a` is upper-cased; the prefix
      itself is compared as written. */
  predicate UpperEquals(a: string, prefix: string) {
    |a| == |prefix| && forall m :: 0 <= m < |a| ==> ToUpper(a[m]) == prefix[m] as int
  }

  predicate AllSpace(s: string) {
    forall m :: 0 <= m < |s| ==> IsSpace(s[m])
  }

  /** What both analysers compute: skip leading white space, match the prefix
      byte by byte, skip the white space after it, and answer the rest of the
      query when it is not empty. */
  function KeywordValue(query: string, prefix: string): Option<string> {
    var s := SkipSpaces(query, 0);
    if s + |prefix| <= |query| && UpperEquals(query[s..s + |prefix|], prefix) then
      var k := SkipSpaces(query, s + |prefix|);
      if k < |query| then Some(query[k..]) else None
    else None
  }

  // ---------------------------------------------------------------------------
  // The analysers, written as the source's index loops

  /** The white-space-skipping loop the analysers run twice. */
  method SkipSpacesLoop(query: string, from: nat) returns (i: nat)
    requires from <= |query|
    ensures i == SkipSpaces(query, from)
  {
    i := from;
    while i < |query| && IsSpace(query[i])
      invariant from <= i <= |query|
      invariant SkipSpaces(query, i) == SkipSpaces(query, from)
    {
      i := i + 1;
    }
  }

  /** The byte-by-byte prefix comparison, which stops at the first mismatch
      or at the end of the query. */
  method MatchPrefixLoop(query: string, s: nat, prefix: string) returns (ok: bool)
    requires s <= |query|
    ensures ok <==> s + |prefix| <= |query| && UpperEquals(query[s..s + |prefix|], prefix)
  {
    var n := |query|;
    var m := |prefix|;
    var i := s;
    var j := 0;
    while j < m && i < n
      invariant s <= i <= n && i - s == j && 0 <= j <= m
      invariant forall t :: 0 <= t < j ==> ToUpper(query[s + t]) == prefix[t] as int
    {
      if ToUpper(query[i]) != prefix[j] as int {
        if s + m <= n {
          assert query[s..s + m][j] == query[i];
        }
        return false;
      }
      i := i + 1;
      j := j + 1;
    }
    return j == m;
  }

  /** Both `AnalyzeSetNamesCharset` and `AnalyzeUseDatabase`: the two source
      functions are the same loop over different prefix constants. */
  method AnalyzeKeyword(query: string, prefix: string, kind: CommandType)
    returns (cmd: SqlCommand, found: bool)
    ensures found <==> KeywordValue(query, prefix).Some?
    ensures found ==> cmd == SqlCommand(kind, KeywordValue(query, prefix).value)
    ensures !found ==> cmd == NoCommand
  {
    var s := SkipSpacesLoop(query, 0);
    var ok := MatchPrefixLoop(query, s, prefix);
    if !ok {
      return NoCommand, false;
    }
    var i := SkipSpacesLoop(query, s + |prefix|);
    if i < |query| {
      return SqlCommand(kind, query[i..]), true;
    }
    return NoCommand, false;
  }

  /** `AnalyzeSetNamesCharset`: the charset of a `SET NAMES` statement. */
  method AnalyzeSetNamesCharset(query: string) returns (cmd: SqlCommand, found: bool)
    ensures found <==> KeywordValue(query, SetNamesPrefix).Some?
    ensures found ==> cmd.kind == SetNames && cmd.value == KeywordValue(query, SetNamesPrefix).value
    ensures !found ==> cmd == NoCommand
  {
    cmd, found := AnalyzeKeyword(query, SetNamesPrefix, SetNames);
  }

  /** `AnalyzeUseDatabase`: the database name of a `USE` statement. */
  method AnalyzeUseDatabase(query: string) returns (cmd: SqlCommand, found: bool)
    ensures found <==> KeywordValue(query, UsePrefix).Some?
    ensures found ==> cmd.kind == UseDatabase && cmd.value == KeywordValue(query, UsePrefix).value
    ensures !found ==> cmd == NoCommand
  {
    cmd, found := AnalyzeKeyword(query, UsePrefix, UseDatabase);
  }

  /** `Analyze`: trim the query, then try `SET NAMES` before `USE`. */
  function Analyze(query: string): (r: SqlCommand)
    ensures |TrimSpace(query)| == 0 ==> r == NoCommand
    ensures r.kind == SetNames <==>
              |TrimSpace(query)| > 0 && KeywordValue(TrimSpace(query), SetNamesPrefix).Some?
    ensures r.kind == UseDatabase <==>
              && |TrimSpace(query)| > 0
              && KeywordValue(TrimSpace(query), SetNamesPrefix).None?
              && KeywordValue(TrimSpace(query), UsePrefix).Some?
    ensures r.kind == SetNames ==> Some(r.value) == KeywordValue(TrimSpace(query), SetNamesPrefix)
    ensures r.kind == UseDatabase ==> Some(r.value) == KeywordValue(TrimSpace(query), UsePrefix)
    ensures r.kind == Unknown ==> r.value == ""
  {
    var t := TrimSpace(query);
    if |t| == 0 then NoCommand
    else match KeywordValue(t, SetNamesPrefix)
      case Some(charset) => SqlCommand(SetNames, charset)
      case None =>
        match KeywordValue(t, UsePrefix)
        case Some(db) => SqlCommand(UseDatabase, db)
        case None => NoCommand
  }

  // ---------------------------------------------------------------------------
  // Properties

  /** A found value is the non-empty tail of the query that is left after the
      leading white space, the matched prefix and the white space after it. */
  lemma KeywordValueSound(query: string, prefix: string)
    requires KeywordValue(query, prefix).Some?
    ensures var v := KeywordValue(query, prefix).value;
            var s := SkipSpaces(query, 0);
            && 0 < |v| && !IsSpace(v[0])
            && s + |prefix| + |v| <= |query|
            && v == query[|query| - |v|..]
            && AllSpace(query[..s])
            && UpperEquals(query[s..s + |prefix|], prefix)
            && AllSpace(query[s + |prefix|..|query| - |v|])
  {
  }

  lemma SkipAllSpace(a: string, rest: string)
    requires AllSpace(a)
    requires |rest| > 0 ==> !IsSpace(rest[0])
    ensures SkipSpaces(a + rest, 0) == |a|
  {
    SkipFrom(a + rest, 0, |a|);
  }

  lemma {:induction false} SkipFrom(s: string, i: nat, j: nat)
    requires i <= j <= |s|
    requires forall m :: i <= m < j ==> IsSpace(s[m])
    requires j < |s| ==> !IsSpace(s[j])
    ensures SkipSpaces(s, i) == j
    decreases j - i
  {
    if i < j {
      SkipFrom(s, i + 1, j);
    }
  }

  /** Conversely, every query made of white space, a spelling of the prefix
      that starts with a non-space byte, more white space and a value that
      starts with a non-space byte yields exactly that value. */
  lemma KeywordValueComplete(a: string, x: string, b: string, v: string, prefix: string)
    requires AllSpace(a) && AllSpace(b)
    requires UpperEquals(x, prefix) && |x| > 0 && !IsSpace(x[0])
    requires |v| > 0 && !IsSpace(v[0])
    ensures KeywordValue(a + x + b + v, prefix) == Some(v)
  {
    var q := a + x + b + v;
    assert q == a + (x + b + v);
    SkipAllSpace(a, x + b + v);
    assert q[|a|..|a| + |prefix|] == x;
    SkipFrom(q, |a| + |x|, |a| + |x| + |b|);
    assert q[|a| + |x| + |b|..] == v;
  }

  /** A query shorter than the prefix never matches. */
  lemma ShortQueryNeverMatches(query: string, prefix: string)
    requires |query| < |prefix|
    ensures KeywordValue(query, prefix) == None
  {
  }

  /** `SET NAMES` needs exactly one literal space byte between the two words:
      only a space upper-cases to a space. */
  lemma SetNamesSingleSpace(query: string)
    requires KeywordValue(query, SetNamesPrefix).Some?
    ensures var s := SkipSpaces(query, 0);
            s + 9 <= |query| && query[s + 3] == ' ' && !IsSpace(query[s + 4])
  {
    var s := SkipSpaces(query, 0);
    var w := query[s..s + 9];
    SetNamesShape(w);
    assert w[3] == query[s + 3] && w[4] == query[s + 4];
  }

  /** Nine bytes that upper-case to `SET NAMES` hold a literal space at
      position 3 and a letter at position 4. */
  lemma SetNamesShape(w: string)
    requires UpperEquals(w, SetNamesPrefix)
    ensures w[3] == ' ' && !IsSpace(w[4])
  {
    assert SetNamesPrefix[3] == ' ' && SetNamesPrefix[4] == 'N';
    assert ToUpper(w[3]) == 32 && ToUpper(w[4]) == 'N' as int;
  }

  /** An empty or all-white-space query is `Unknown`. */
  lemma AnalyzeBlank(query: string)
    requires AllSpace(query)
    ensures Analyze(query) == NoCommand
  {
    var t := TrimSpace(query);
    if |t| > 0 {
      assert t[0] == query[TrimStart(query)];
      assert IsSpace(t[0]);
      SkipFrom(t, 0, |t|);
    }
  }

  lemma TrimSpaceKeeps(s: string)
    requires |s| > 0 && !IsAsciiSpace(s[0]) && !IsAsciiSpace(s[|s| - 1])
    ensures TrimSpace(s) == s
  {
  }

  /** Trimming a query whose tail from `n` on is white space keeps its first
      `n` bytes. */
  lemma TrimSpaceDropsTail(s: string, n: nat)
    requires 0 < n <= |s| && !IsAsciiSpace(s[0]) && !IsAsciiSpace(s[n - 1])
    requires forall k :: n <= k < |s| ==> IsAsciiSpace(s[k])
    ensures TrimSpace(s) == s[..n]
  {
    assert TrimStart(s) == 0;
    ContentEndDropsTail(s, n, |s|);
  }

  lemma {:induction false} ContentEndDropsTail(s: string, n: nat, j: nat)
    requires 0 < n <= j <= |s| && !IsAsciiSpace(s[n - 1])
    requires forall k :: n <= k < j ==> IsAsciiSpace(s[k])
    ensures ContentEnd(s, 0, j) == n
    decreases j
  {
    if j > n {
      ContentEndDropsTail(s, n, j - 1);
    }
  }

  /** No word boundary is required after the keyword. */
  lemma UseWithoutBoundary()
    ensures Analyze("USEx") == SqlCommand(UseDatabase, "x")
  {
    var q := "USEx";
    TrimSpaceKeeps(q);
    assert SkipSpaces(q, 0) == 0;
    assert KeywordValue(q, SetNamesPrefix) == None;
    assert UpperEquals(q[0..3], UsePrefix);
    assert SkipSpaces(q, 3) == 3;
    assert q[3..] == "x";
    assert KeywordValue(q, UsePrefix) == Some("x");
  }

  /** Trailing white space is trimmed from the value before matching. */
  lemma UseTrimsValue()
    ensures Analyze("use   shop  ") == SqlCommand(UseDatabase, "shop")
  {
    var q := "use   shop  ";
    var t := "use   shop";
    TrimSpaceDropsTail(q, 10);
    assert q[..10] == t;
    assert t == "" + "use" + "   " + "shop";
    assert UpperEquals("use", UsePrefix);
    KeywordValueComplete("", "use", "   ", "shop", UsePrefix);
    assert t[0..9][0] == 'u';
    assert !UpperEquals(t[0..9], SetNamesPrefix);
  }

  /** Two spaces between the words defeat the `SET NAMES` match. */
  lemma SetNamesDoubleSpace()
    ensures Analyze("SET  NAMES utf8") == NoCommand
  {
    var q := "SET  NAMES utf8";
    TrimSpaceKeeps(q);
    assert SkipSpaces(q, 0) == 0;
    assert q[0..9][4] == ' ';
    assert !UpperEquals(q[0..9], SetNamesPrefix);
    assert KeywordValue(q, SetNamesPrefix) == None;
    assert q[0..3][0] == 'S';
    assert !UpperEquals(q[0..3], UsePrefix);
    assert KeywordValue(q, UsePrefix) == None;
  }

  /** Any casing of the letters is accepted. */
  lemma SetNamesAnyCase()
    ensures Analyze("set Names utf8mb4") == SqlCommand(SetNames, "utf8mb4")
  {
    var q := "set Names utf8mb4";
    TrimSpaceKeeps(q);
    assert SkipSpaces(q, 0) == 0;
    assert UpperEquals(q[0..9], SetNamesPrefix);
    assert SkipSpaces(q, 9) == 10;
    assert q[10..] == "utf8mb4";
    assert KeywordValue(q, SetNamesPrefix) == Some("utf8mb4");
  }
}

=== FILE: redirect.dfy ===
/** Routing rules (modules/redirect): hash rules kept in an exact-key map,
    regex rules kept in a list that is tried first to last, and the server
    map a redirect looks its target up in.

    The regular-expression engine is a parameter: `compiles` says which
    patterns `regexp.Compile` accepts and `matches` answers `MatchString`. */
module Redirect {
  import opened Common
  import opened Config

  // ---------------------------------------------------------------------------
  // hash_rule.go

  datatype HashRule = HashRule(rule: Rule, targetGroup: string)

  /** The position of the last of the first `n` rules whose hash is `h`. */
  function LastHash(rules: seq<Rule>, h: string, n: nat): (r: Option<nat>)
    requires n <= |rules|
    ensures r.Some? ==> r.value < n && rules[r.value].hash == h
    ensures r.Some? ==> forall j :: r.value < j < n ==> rules[j].hash != h
    ensures r.None? ==> forall j :: 0 <= j < n ==> rules[j].hash != h
  {
    if n == 0 then None
    else if rules[n - 1].hash == h then Some(n - 1)
    else LastHash(rules, h, n - 1)
  }

  /** `BuildHashRules` over the first `n` rules, into the map `m` it was
      handed: rules with an empty hash are skipped. */
  function BuildHashRulesUpTo(m: map<string, HashRule>, rules: seq<Rule>, n: nat): map<string, HashRule>
    requires n <= |rules|
  {
    if n == 0 then m
    else
      var p := BuildHashRulesUpTo(m, rules, n - 1);
      var r := rules[n - 1];
      if r.hash != "" then p[r.hash := HashRule(r, r.target)] else p
  }

  /** `BuildHashRules`: the global map is filled, never cleared. */
  function BuildHashRules(m: map<string, HashRule>, rules: seq<Rule>): map<string, HashRule> {
    BuildHashRulesUpTo(m, rules, |rules|)
  }

  /** `FindHashRule`: a plain lookup. */
  function FindHashRule(m: map<string, HashRule>, hash: string): (r: Option<HashRule>)
    ensures r.Some? <==> hash in m
    ensures r.Some? ==> r.value == m[hash]
  {
    if hash in m then Some(m[hash]) else None
  }

  /** What a lookup of `h` finds after building from the first `n` rules: the
      last rule with that (non-empty) hash, targeting the rule's own target;
      failing that, whatever the map held before. */
  function ExpectedHashRule(m: map<string, HashRule>, rules: seq<Rule>, h: string, n: nat): Option<HashRule>
    requires n <= |rules|
  {
    var last := LastHash(rules, h, n);
    if h != "" && last.Some? then Some(HashRule(rules[last.value], rules[last.value].target))
    else FindHashRule(m, h)
  }

  lemma {:induction false} BuildThenFindUpTo(m: map<string, HashRule>, rules: seq<Rule>, h: string, n: nat)
    requires n <= |rules|
    ensures FindHashRule(BuildHashRulesUpTo(m, rules, n), h) == ExpectedHashRule(m, rules, h, n)
  {
    if n > 0 {
      BuildThenFindUpTo(m, rules, h, n - 1);
    }
  }

  /** Every hash rule is registered under its hash with its own target, a
      later rule overwriting an earlier one with the same hash; rules with an
      empty hash and entries already in the map are left as they were. */
  lemma BuildThenFind(m: map<string, HashRule>, rules: seq<Rule>, h: string)
    ensures FindHashRule(BuildHashRules(m, rules), h) == ExpectedHashRule(m, rules, h, |rules|)
  {
    BuildThenFindUpTo(m, rules, h, |rules|);
  }

  /** Two maps that answer every lookup alike are equal. */
  lemma SameLookups(a: map<string, HashRule>, b: map<string, HashRule>)
    requires forall h :: FindHashRule(a, h) == FindHashRule(b, h)
    ensures a == b
  {
    assert a.Keys == b.Keys by {
      forall h ensures h in a <==> h in b {
        assert FindHashRule(a, h) == FindHashRule(b, h);
      }
    }
    forall h | h in a ensures a[h] == b[h] {
      assert FindHashRule(a, h) == FindHashRule(b, h);
    }
  }

  /** Since the map is never cleared, building twice from the same rules
      changes nothing the first build did not; and no key is ever lost. */
  lemma BuildHashRulesTwice(m: map<string, HashRule>, rules: seq<Rule>)
    ensures BuildHashRules(BuildHashRules(m, rules), rules) == BuildHashRules(m, rules)
    ensures m.Keys <= BuildHashRules(m, rules).Keys
  {
    var once := BuildHashRules(m, rules);
    forall h ensures FindHashRule(BuildHashRules(once, rules), h) == FindHashRule(once, h) {
      BuildThenFind(once, rules, h);
      BuildThenFind(m, rules, h);
    }
    SameLookups(BuildHashRules(once, rules), once);
    forall h | h in m ensures h in once {
      BuildThenFind(m, rules, h);
    }
  }

  // ---------------------------------------------------------------------------
  // regex_rule.go

  /** A compiled pattern. */
  datatype Regexp = Regexp(expr: string)

  /** `compiled` is None where Go keeps a nil `*regexp.Regexp`. */
  datatype RegexRule = RegexRule(rule: Rule, regex: string, compiled: Option<Regexp>, targetGroup: string)

  /** `compile`: the compile error is dropped, leaving the pattern nil. */
  function NewRegexRule(r: Rule, compiles: string -> bool): (x: RegexRule)
    ensures x.rule == r && x.regex == r.regex && x.targetGroup == r.target
    ensures x.compiled.Some? <==> compiles(r.regex)
  {
    RegexRule(r, r.regex, if compiles(r.regex) then Some(Regexp(r.regex)) else None, r.target)
  }

  /** `BuildRegexRules` over the first `n` rules, appending to `list`. */
  function BuildRegexRulesUpTo(list: seq<RegexRule>, rules: seq<Rule>, compiles: string -> bool, n: nat): seq<RegexRule>
    requires n <= |rules|
  {
    if n == 0 then list
    else
      var p := BuildRegexRulesUpTo(list, rules, compiles, n - 1);
      if rules[n - 1].regex != "" then p + [NewRegexRule(rules[n - 1], compiles)] else p
  }

  /** `BuildRegexRules`: the global list grows, it is never reset. */
  function BuildRegexRules(list: seq<RegexRule>, rules: seq<Rule>, compiles: string -> bool): seq<RegexRule> {
    BuildRegexRulesUpTo(list, rules, compiles, |rules|)
  }

  /** The positions of the rules among the first `n` that carry a pattern, in
      configuration order. */
  function RegexOrigins(rules: seq<Rule>, n: nat): (o: seq<nat>)
    requires n <= |rules|
    ensures forall k :: 0 <= k < |o| ==> o[k] < n && rules[o[k]].regex != ""
    ensures forall k, l :: 0 <= k < l < |o| ==> o[k] < o[l]
    ensures forall i :: 0 <= i < n && rules[i].regex != "" ==> i in o
  {
    if n == 0 then []
    else if rules[n - 1].regex != "" then RegexOrigins(rules, n - 1) + [n - 1]
    else RegexOrigins(rules, n - 1)
  }

  lemma {:induction false} BuildRegexRulesUpToSpec(list: seq<RegexRule>, rules: seq<Rule>, compiles: string -> bool, n: nat)
    requires n <= |rules|
    ensures var b := BuildRegexRulesUpTo(list, rules, compiles, n);
            var o := RegexOrigins(rules, n);
            && |b| == |list| + |o|
            && b[..|list|] == list
            && forall k :: 0 <= k < |o| ==> b[|list| + k] == NewRegexRule(rules[o[k]], compiles)
  {
    if n > 0 {
      BuildRegexRulesUpToSpec(list, rules, compiles, n - 1);
    }
  }

  /** The list keeps what it held and gains one rule per configured rule
      with a pattern, in configuration order, each targeting the configured
      target. Nothing resets the list, so a second build appends the same
      rules again. */
  lemma BuildRegexRulesSpec(list: seq<RegexRule>, rules: seq<Rule>, compiles: string -> bool)
    ensures var b := BuildRegexRules(list, rules, compiles);
            var o := RegexOrigins(rules, |rules|);
            && |b| == |list| + |o|
            && b[..|list|] == list
            && forall k :: 0 <= k < |o| ==> b[|list| + k] == NewRegexRule(rules[o[k]], compiles)
  {
    BuildRegexRulesUpToSpec(list, rules, compiles, |rules|);
  }

  /** A rule whose pattern compiled and matches the query. */
  predicate Hits(x: RegexRule, query: string, matches: (Regexp, string) -> bool) {
    x.compiled.Some? && matches(x.compiled.value, query)
  }

  /** A rule whose pattern compiled and does not match the query. */
  predicate Misses(x: RegexRule, query: string, matches: (Regexp, string) -> bool) {
    x.compiled.Some? && !matches(x.compiled.value, query)
  }

  /** How a walk of the list from position `i` ends: at the first rule that
      matches, after the last rule, or at the first nil pattern, where Go's
      `MatchString` dereferences a nil pointer. */
  datatype Scan = Found(index: nat) | NotFound | NilPattern(index: nat)

  function ScanFrom(list: seq<RegexRule>, query: string, matches: (Regexp, string) -> bool, i: nat): (s: Scan)
    requires i <= |list|
    ensures s.Found? ==> i <= s.index < |list| && Hits(list[s.index], query, matches)
    ensures s.NilPattern? ==> i <= s.index < |list| && list[s.index].compiled.None?
    ensures (s.Found? || s.NilPattern?) ==> forall j :: i <= j < s.index ==> Misses(list[j], query, matches)
    ensures s.NotFound? <==> forall j :: i <= j < |list| ==> Misses(list[j], query, matches)
    decreases |list| - i
  {
    if i == |list| then NotFound
    else match list[i].compiled
      case None => NilPattern(i)
      case Some(re) => if matches(re, query) then Found(i) else ScanFrom(list, query, matches, i + 1)
  }

  /** `k` is the first rule of the list the walk does not step over. */
  predicate FirstStop(list: seq<RegexRule>, query: string, matches: (Regexp, string) -> bool, k: nat)
    requires k < |list|
  {
    forall j :: 0 <= j < k ==> Misses(list[j], query, matches)
  }

  const NilDereference: string := "invalid memory address or nil pointer dereference"

  /** `FindRegexRule`: the first rule whose pattern matches; a nil pattern
      reached before any match panics. */
  function FindRegexRule(list: seq<RegexRule>, query: string, matches: (Regexp, string) -> bool): (r: Call<Option<RegexRule>>)
    ensures r == Returns(None) <==> forall j :: 0 <= j < |list| ==> Misses(list[j], query, matches)
  {
    match ScanFrom(list, query, matches, 0)
    case Found(k) => Returns(Some(list[k]))
    case NotFound => Returns(None)
    case NilPattern(_) => Panics(NilDereference)
  }

  /** The walk stops at the first rule it cannot step over. */
  lemma ScanStops(list: seq<RegexRule>, query: string, matches: (Regexp, string) -> bool, k: nat)
    requires k < |list| && FirstStop(list, query, matches, k) && !Misses(list[k], query, matches)
    ensures ScanFrom(list, query, matches, 0) == if Hits(list[k], query, matches) then Found(k) else NilPattern(k)
  {
  }

  /** The first rule the walk cannot step over decides: it is returned when
      its pattern matches, and a nil pattern there panics. */
  lemma FindRegexRuleFirst(list: seq<RegexRule>, query: string, matches: (Regexp, string) -> bool, k: nat)
    requires k < |list| && FirstStop(list, query, matches, k) && !Misses(list[k], query, matches)
    ensures Hits(list[k], query, matches) ==> FindRegexRule(list, query, matches) == Returns(Some(list[k]))
    ensures list[k].compiled.None? ==> FindRegexRule(list, query, matches).Panics?
  {
    ScanStops(list, query, matches, k);
  }

  // ---------------------------------------------------------------------------
  // redirect.go

  /** The position of the last of the first `n` servers with id `id`. */
  function LastId(servers: seq<ServerConfig>, id: string, n: nat): (r: Option<nat>)
    requires n <= |servers|
    ensures r.Some? ==> r.value < n && servers[r.value].id == id
    ensures r.Some? ==> forall j :: r.value < j < n ==> servers[j].id != id
    ensures r.None? ==> forall j :: 0 <= j < n ==> servers[j].id != id
  {
    if n == 0 then None
    else if servers[n - 1].id == id then Some(n - 1)
    else LastId(servers, id, n - 1)
  }

  function BuildRedirectMapUpTo(servers: seq<ServerConfig>, n: nat): map<string, ServerConfig>
    requires n <= |servers|
  {
    if n == 0 then map[]
    else BuildRedirectMapUpTo(servers, n - 1)[servers[n - 1].id := servers[n - 1]]
  }

  /** `BuildRedirectMap`: a fresh map from server id to configuration. */
  function BuildRedirectMap(servers: seq<ServerConfig>): map<string, ServerConfig> {
    BuildRedirectMapUpTo(servers, |servers|)
  }

  /** `ServerMap[id]`: the zero server for an absent id. */
  function LookupServer(serverMap: map<string, ServerConfig>, id: string): ServerConfig {
    if id in serverMap then serverMap[id] else ZeroServer
  }

  lemma {:induction false} BuildRedirectMapUpToSpec(servers: seq<ServerConfig>, id: string, n: nat)
    requires n <= |servers|
    ensures id in BuildRedirectMapUpTo(servers, n) <==> LastId(servers, id, n).Some?
    ensures LastId(servers, id, n).Some? ==>
              BuildRedirectMapUpTo(servers, n)[id] == servers[LastId(servers, id, n).value]
  {
    if n > 0 {
      BuildRedirectMapUpToSpec(servers, id, n - 1);
    }
  }

  /** Every configured server is found under its id, a later server with the
      same id replacing an earlier one; no other id is present. */
  lemma BuildRedirectMapSpec(servers: seq<ServerConfig>, id: string)
    ensures id in BuildRedirectMap(servers) <==> id in ServerIds(servers, |servers|)
    ensures LastId(servers, id, |servers|).Some? ==>
              BuildRedirectMap(servers)[id] == servers[LastId(servers, id, |servers|).value]
  {
    BuildRedirectMapUpToSpec(servers, id, |servers|);
    if id in ServerIds(servers, |servers|) {
      var i :| 0 <= i < |servers| && servers[i].id == id;
    }
  }

  /** `FindRedirect`: the server-map entry for the target of the first
      matching regex rule, else the configured default server, dereferenced
      (a nil default panics). The hash is not consulted. */
  function FindRedirect(serverMap: map<string, ServerConfig>, list: seq<RegexRule>, query: string, hash: string,
                        defaultServer: Option<ServerConfig>, matches: (Regexp, string) -> bool): (r: Call<ServerConfig>)
    ensures (forall j :: 0 <= j < |list| ==> Misses(list[j], query, matches)) ==>
              r == if defaultServer.Some? then Returns(defaultServer.value) else Panics(NilDereference)
  {
    match ScanFrom(list, query, matches, 0)
    case Found(k) => Returns(LookupServer(serverMap, list[k].rule.target))
    case NilPattern(_) => Panics(NilDereference)
    case NotFound => if defaultServer.Some? then Returns(defaultServer.value) else Panics(NilDereference)
  }

  /** A matching rule sends the query to the server the server map holds
      under the rule's target, the zero server when there is none; a nil
      pattern reached first panics. */
  lemma FindRedirectFirst(serverMap: map<string, ServerConfig>, list: seq<RegexRule>, query: string, hash: string,
                          defaultServer: Option<ServerConfig>, matches: (Regexp, string) -> bool, k: nat)
    requires k < |list| && FirstStop(list, query, matches, k) && !Misses(list[k], query, matches)
    ensures Hits(list[k], query, matches) ==>
              FindRedirect(serverMap, list, query, hash, defaultServer, matches) == Returns(LookupServer(serverMap, list[k].rule.target))
    ensures list[k].compiled.None? ==> FindRedirect(serverMap, list, query, hash, defaultServer, matches).Panics?
  {
    ScanStops(list, query, matches, k);
  }

  /** `FindRedirect` and `FindRegexRule` walk the list alike: the redirect
      lands on the server named by the rule `FindRegexRule` picks. */
  lemma FindRedirectAgrees(serverMap: map<string, ServerConfig>, list: seq<RegexRule>, query: string, hash: string,
                           defaultServer: Option<ServerConfig>, matches: (Regexp, string) -> bool)
    ensures var x := FindRegexRule(list, query, matches);
            var r := FindRedirect(serverMap, list, query, hash, defaultServer, matches);
            && (x.Panics? ==> r.Panics?)
            && (x.Returns? && x.value.Some? ==> r == Returns(LookupServer(serverMap, x.value.value.rule.target)))
            && (x == Returns(None) ==> r == if defaultServer.Some? then Returns(defaultServer.value) else Panics(NilDereference))
  {
  }

  // ---------------------------------------------------------------------------
  // A nil pattern reaches `MatchString`

  /** One configured rule whose pattern does not compile is enough: the
      first query that reaches it panics, in `FindRegexRule` and in
      `FindRedirect` alike. */
  lemma InvalidPatternPanics(name: string, rx: string, target: string, query: string,
                             compiles: string -> bool, matches: (Regexp, string) -> bool,
                             serverMap: map<string, ServerConfig>, defaultServer: Option<ServerConfig>)
    requires rx != "" && !compiles(rx)
    ensures var list := BuildRegexRules([], [Rule(name, "", rx, target)], compiles);
            && FindRegexRule(list, query, matches).Panics?
            && FindRedirect(serverMap, list, query, "", defaultServer, matches).Panics?
  {
    var rules := [Rule(name, "", rx, target)];
    BuildRegexRulesSpec([], rules, compiles);
    var list := BuildRegexRules([], rules, compiles);
    assert 0 in RegexOrigins(rules, 1);
    assert list[0].compiled.None?;
    FindRegexRuleFirst(list, query, matches, 0);
    FindRedirectFirst(map[], list, query, "", defaultServer, matches, 0);
  }

  /** `BuildRegexRules` as intended: a rule whose pattern does not compile is
      dropped instead of kept with a nil pattern. */
  function BuildCompiledRegexRulesUpTo(list: seq<RegexRule>, rules: seq<Rule>, compiles: string -> bool, n: nat): (b: seq<RegexRule>)
    requires n <= |rules|
    requires forall k :: 0 <= k < |list| ==> list[k].compiled.Some?
    ensures forall k :: 0 <= k < |b| ==> b[k].compiled.Some?
    ensures |b| >= |list| && b[..|list|] == list
  {
    if n == 0 then list
    else
      var p := BuildCompiledRegexRulesUpTo(list, rules, compiles, n - 1);
      if rules[n - 1].regex != "" && compiles(rules[n - 1].regex) then p + [NewRegexRule(rules[n - 1], compiles)] else p
  }

  /** A list built the intended way keeps exactly the rules with a pattern
      that compiles, and no query makes a lookup in it panic; a redirect
      panics only when nothing matches and the default server is nil. */
  lemma CompiledRulesNeverPanic(rules: seq<Rule>, compiles: string -> bool, query: string, matches: (Regexp, string) -> bool,
                                serverMap: map<string, ServerConfig>, defaultServer: Option<ServerConfig>)
    ensures var list := BuildCompiledRegexRulesUpTo([], rules, compiles, |rules|);
            && FindRegexRule(list, query, matches).Returns?
            && (defaultServer.Some? ==> FindRedirect(serverMap, list, query, "", defaultServer, matches).Returns?)
  {
    var list := BuildCompiledRegexRulesUpTo([], rules, compiles, |rules|);
    NoNilPattern(list, query, matches);
  }

  lemma NoNilPattern(list: seq<RegexRule>, query: string, matches: (Regexp, string) -> bool)
    requires forall k :: 0 <= k < |list| ==> list[k].compiled.Some?
    ensures !ScanFrom(list, query, matches, 0).NilPattern?
  {
  }
}

=== FILE: redirect_cache.dfy ===
/** The memo of routing decisions (modules/cache/redirect/in_memory.go): a
    map from query hash to the server a query with that hash was sent to. */
module RedirectCache {
  import opened Common
  import opened Config

  datatype Memo = Memo(cache: map<string, ServerConfig>)

  /** `NewInMemoryCache`: nothing is remembered yet. */
  function NewMemo(): (m: Memo)
    ensures forall h :: !Find(m, h).1
  {
    Memo(map[])
  }

  /** `Find`: the server remembered for `hash`, or the zero server and
      `false` for a hash that was never added. */
  function Find(m: Memo, hash: string): (r: (ServerConfig, bool))
    ensures r.1 <==> hash in m.cache
    ensures !r.1 ==> r.0 == ZeroServer
  {
    if hash in m.cache then (m.cache[hash], true) else (ZeroServer, false)
  }

  /** `Add`: afterwards `hash` finds `server`, whatever was remembered for
      it before, and every other hash finds what it found before. */
  function Add(m: Memo, hash: string, server: ServerConfig): (r: Memo)
    ensures Find(r, hash) == (server, true)
    ensures forall h :: h != hash ==> Find(r, h) == Find(m, h)
  {
    Memo(m.cache[hash := server])
  }

  /** The decision recorded for a hash by a run of `Add` calls, the last one
      winning; `None` when the run never names the hash. */
  function LastAdded(adds: seq<(string, ServerConfig)>, hash: string): (r: Option<ServerConfig>)
    ensures r.None? <==> forall i :: 0 <= i < |adds| ==> adds[i].0 != hash
    ensures r.Some? ==> exists i :: 0 <= i < |adds| && adds[i] == (hash, r.value)
  {
    if |adds| == 0 then None
    else if adds[|adds| - 1].0 == hash then Some(adds[|adds| - 1].1)
    else
      var r := LastAdded(adds[..|adds| - 1], hash);
      assert forall i :: 0 <= i < |adds| - 1 ==> adds[..|adds| - 1][i] == adds[i];
      r
  }

  function AddAll(m: Memo, adds: seq<(string, ServerConfig)>): Memo
  {
    if |adds| == 0 then m
    else Add(AddAll(m, adds[..|adds| - 1]), adds[|adds| - 1].0, adds[|adds| - 1].1)
  }

  /** Starting from an empty memo, a run of `Add` calls leaves each hash
      finding the last server added for it, and a hash it never named finds
      the zero server and `false`. */
  lemma {:induction false} AddAllFinds(adds: seq<(string, ServerConfig)>, hash: string)
    ensures var r := Find(AddAll(NewMemo(), adds), hash);
            match LastAdded(adds, hash)
            case None => r == (ZeroServer, false)
            case Some(s) => r == (s, true)
    decreases |adds|
  {
    if |adds| > 0 {
      AddAllFinds(adds[..|adds| - 1], hash);
    }
  }
}

=== FILE: registry.dfy ===
/** The server registry (modules/db): server groups, the server pool with its
    default server, loading both from the configuration, the connectivity
    checks run at start-up and the per-tick health update.

    Go shares one `*Server` between a group and `DbPool.Servers`; here the
    servers live in `objects` and both maps hold indices into it, so a status
    change is seen through every map. */
module Registry {
  import opened Common
  import opened Config
  import opened ServerStatus
  import opened Backend

  /** A `db.Server`; its pool is the `Backend` pool named by its index. */
  datatype Server = Server(config: ServerConfig, credentials: DbUser, status: Status)

  datatype Group = Group(id: string, servers: map<string, ServerRef>, serverIds: seq<string>)

  /** `Groups` together with `DbPool`. */
  datatype Db = Db(
    groups: map<string, Group>,
    objects: seq<Server>,
    servers: map<string, ServerRef>,
    defaultServer: Option<ServerRef>)

  /** Every map entry names an existing server object whose configuration
      agrees with the key it is filed under, and the default server carries
      the `default` flag. */
  predicate Consistent(db: Db) {
    && (forall id | id in db.servers ::
          db.servers[id] < |db.objects| && db.objects[db.servers[id]].config.id == id)
    && (forall gid | gid in db.groups ::
          db.groups[gid].id == gid && GroupConsistent(db.groups[gid], db.objects))
    && (db.defaultServer.Some? ==>
          db.defaultServer.value < |db.objects| && db.objects[db.defaultServer.value].config.isDefault)
  }

  predicate GroupConsistent(g: Group, objects: seq<Server>) {
    && (forall id | id in g.servers ::
          g.servers[id] < |objects| && objects[g.servers[id]].config.id == id
          && objects[g.servers[id]].config.serverGroup == g.id)
    && (forall i :: 0 <= i < |g.serverIds| ==> g.serverIds[i] in g.servers)
  }

  /** What the proxy handlers rely on: a consistent registry with a default
      server (a nil default would be dereferenced). */
  predicate Ready(db: Db) {
    Consistent(db) && db.defaultServer.Some?
  }

  /** `setup`: `CreateGroups` and `CreatePool`. */
  const EmptyDb: Db := Db(map[], [], map[], None)

  // ---------------------------------------------------------------------------
  // group.go

  function NewGroup(id: string): Group
  {
    Group(id, map[], [])
  }

  function AddServer(g: Group, id: string, ref: ServerRef): (r: Group)
    ensures r.id == g.id && |r.serverIds| == |g.serverIds| + 1 && r.serverIds[|g.serverIds|] == id
  {
    g.(servers := g.servers[id := ref], serverIds := g.serverIds + [id])
  }

  function GetServer(g: Group, id: string): (r: Option<ServerRef>)
    ensures r.Some? <==> id in g.servers
    ensures r.Some? ==> r.value == g.servers[id]
  {
    if id in g.servers then Some(g.servers[id]) else None
  }

  /** The id just added is found, every other lookup is unchanged, and a
      re-added id appears twice in `serverIds`. */
  lemma AddServerThenGet(g: Group, id: string, ref: ServerRef, other: string)
    ensures GetServer(AddServer(g, id, ref), id) == Some(ref)
    ensures other != id ==> GetServer(AddServer(g, id, ref), other) == GetServer(g, other)
    ensures AddServer(g, id, ref).serverIds[..|g.serverIds|] == g.serverIds
  {
  }

  /** The message of a duplicate group id. */
  function GroupExists(id: string): string {
    "group " + id + " already exists"
  }

  /** The ids of the first `n` configured groups. */
  function GroupIds(cfgs: seq<ServerGroupConfig>, n: nat): set<string>
    requires n <= |cfgs|
  {
    set i | 0 <= i < n :: cfgs[i].id
  }

  /** No id among the first `n` is registered yet, and none is configured
      twice. */
  predicate FreshGroups(groups: map<string, Group>, cfgs: seq<ServerGroupConfig>, n: nat)
    requires n <= |cfgs|
  {
    && (forall i :: 0 <= i < n ==> cfgs[i].id !in groups)
    && (forall i, j :: 0 <= i < j < n ==> cfgs[i].id != cfgs[j].id)
  }

  /** `LoadGroups` after its first `n` iterations: one empty group per
      configured id, in order, failing at the first id already registered. */
  function LoadGroupsUpTo(groups: map<string, Group>, cfgs: seq<ServerGroupConfig>, n: nat): Result<map<string, Group>>
    requires n <= |cfgs|
  {
    if n == 0 then Ok(groups)
    else match LoadGroupsUpTo(groups, cfgs, n - 1)
      case Err(e) => Err(e)
      case Ok(m) =>
        var id := cfgs[n - 1].id;
        if id in m then Err(GroupExists(id)) else Ok(m[id := NewGroup(id)])
  }

  function LoadGroups(groups: map<string, Group>, cfgs: seq<ServerGroupConfig>): Result<map<string, Group>> {
    LoadGroupsUpTo(groups, cfgs, |cfgs|)
  }

  /** Loading succeeds exactly when the ids are new and pairwise distinct. */
  lemma {:induction false} LoadGroupsFresh(groups: map<string, Group>, cfgs: seq<ServerGroupConfig>, n: nat)
    requires n <= |cfgs|
    ensures LoadGroupsUpTo(groups, cfgs, n).Ok? <==> FreshGroups(groups, cfgs, n)
  {
    if n > 0 {
      LoadGroupsFresh(groups, cfgs, n - 1);
      LoadGroupsKeys(groups, cfgs, n - 1);
      FreshGroupsSnoc(groups, cfgs, n);
    }
  }

  /** A successful load registers exactly the configured ids besides the
      existing ones. */
  lemma {:induction false} LoadGroupsKeys(groups: map<string, Group>, cfgs: seq<ServerGroupConfig>, n: nat)
    requires n <= |cfgs|
    ensures var r := LoadGroupsUpTo(groups, cfgs, n);
            r.Ok? ==> r.value.Keys == groups.Keys + GroupIds(cfgs, n)
  {
    if n > 0 {
      LoadGroupsKeys(groups, cfgs, n - 1);
      GroupIdsSnoc(cfgs, n);
    }
  }

  /** A successful load leaves the existing groups alone and files an empty
      group under each new id. */
  lemma {:induction false} LoadGroupsValues(groups: map<string, Group>, cfgs: seq<ServerGroupConfig>, n: nat)
    requires n <= |cfgs|
    ensures var r := LoadGroupsUpTo(groups, cfgs, n);
            r.Ok? ==> forall gid | gid in r.value :: r.value[gid] == if gid in groups then groups[gid] else NewGroup(gid)
  {
    if n > 0 {
      LoadGroupsValues(groups, cfgs, n - 1);
      LoadGroupsKeys(groups, cfgs, n - 1);
      var p := LoadGroupsUpTo(groups, cfgs, n - 1);
      if p.Ok? && cfgs[n - 1].id !in p.value {
        assert cfgs[n - 1].id !in groups;
      }
    }
  }

  /** A failure names one of the configured ids. */
  lemma {:induction false} LoadGroupsError(groups: map<string, Group>, cfgs: seq<ServerGroupConfig>, n: nat)
    requires n <= |cfgs|
    ensures var r := LoadGroupsUpTo(groups, cfgs, n);
            r.Err? ==> exists i :: 0 <= i < n && r.msg == GroupExists(cfgs[i].id)
  {
    if n > 0 {
      LoadGroupsError(groups, cfgs, n - 1);
    }
  }

  lemma GroupIdsSnoc(cfgs: seq<ServerGroupConfig>, n: nat)
    requires 0 < n <= |cfgs|
    ensures GroupIds(cfgs, n) == GroupIds(cfgs, n - 1) + {cfgs[n - 1].id}
  {
  }

  /** How the n-th configured group extends the freshness condition. */
  lemma FreshGroupsSnoc(groups: map<string, Group>, cfgs: seq<ServerGroupConfig>, n: nat)
    requires 0 < n <= |cfgs|
    ensures FreshGroups(groups, cfgs, n) <==>
              FreshGroups(groups, cfgs, n - 1) && cfgs[n - 1].id !in groups && cfgs[n - 1].id !in GroupIds(cfgs, n - 1)
  {
    if FreshGroups(groups, cfgs, n - 1) && cfgs[n - 1].id !in groups && cfgs[n - 1].id !in GroupIds(cfgs, n - 1) {
      forall i, j | 0 <= i < j < n ensures cfgs[i].id != cfgs[j].id {
        if j == n - 1 { assert cfgs[i].id in GroupIds(cfgs, n - 1); }
      }
    }
  }

  /** The member `id` of `g` is a server whose status is OPERATIONAL. */
  predicate IsOperational(db: Db, g: Group, id: string) {
    id in g.servers && g.servers[id] < |db.objects| && db.objects[g.servers[id]].status == Operational
  }

  /** The operational members among `ids`, in list order. */
  function ActiveIds(db: Db, g: Group, ids: seq<string>): (r: seq<string>)
    ensures forall k :: 0 <= k < |r| ==> r[k] in ids && IsOperational(db, g, r[k])
    ensures forall i :: 0 <= i < |ids| && IsOperational(db, g, ids[i]) ==> ids[i] in r
  {
    if |ids| == 0 then []
    else
      var last := ids[|ids| - 1];
      var r := ActiveIds(db, g, ids[..|ids| - 1]);
      assert forall i :: 0 <= i < |ids| - 1 ==> ids[..|ids| - 1][i] == ids[i];
      if IsOperational(db, g, last) then r + [last] else r
  }

  /** `GetRandomServer`: a uniformly chosen operational member (`rand` stands
      for `rand.Intn`'s draw), falling back to the default server. It has no
      error path; `None` is a nil default server. */
  function GetRandomServer(db: Db, g: Group, rand: nat): (r: Option<ServerRef>)
    ensures |g.serverIds| == 0 ==> r == db.defaultServer
    ensures (forall i :: 0 <= i < |g.serverIds| ==> !IsOperational(db, g, g.serverIds[i])) ==> r == db.defaultServer
    ensures (exists i :: 0 <= i < |g.serverIds| && IsOperational(db, g, g.serverIds[i])) ==>
              exists k :: 0 <= k < |g.serverIds| && IsOperational(db, g, g.serverIds[k])
                          && r == Some(g.servers[g.serverIds[k]])
  {
    if |g.serverIds| == 0 then db.defaultServer
    else
      var active := ActiveIds(db, g, g.serverIds);
      if |active| == 0 then db.defaultServer
      else
        var id := active[rand % |active|];
        assert id in g.serverIds;
        Some(g.servers[id])
  }

  /** With exactly one operational member, the draw does not matter. */
  lemma SingleOperationalMember(db: Db, g: Group, id: string, rand: nat)
    requires id in g.serverIds && IsOperational(db, g, id)
    requires forall i :: 0 <= i < |g.serverIds| && IsOperational(db, g, g.serverIds[i]) ==> g.serverIds[i] == id
    ensures GetRandomServer(db, g, rand) == Some(g.servers[id])
  {
    var i :| 0 <= i < |g.serverIds| && g.serverIds[i] == id;
    assert IsOperational(db, g, g.serverIds[i]);
  }

  // ---------------------------------------------------------------------------
  // server.go

  /** `NewServer`: needs a DB user targeting the server; starts SHUNNED until a
      check proves it reachable. */
  function NewServer(cfg: ServerConfig, users: seq<DbUser>): (r: Result<Server>)
    ensures r.Ok? <==> exists k :: 0 <= k < |users| && users[k].target == cfg.id
    ensures r.Ok? ==> r.value.config == cfg && r.value.status == Shunned && r.value.credentials.target == cfg.id
    ensures r.Err? ==> r.msg == ErrNotFound
  {
    match GetUser(users, cfg.id)
    case Err(e) => Err(e)
    case Ok(u) => Ok(Server(cfg, u, Shunned))
  }

  function GroupMissing(group: string): string {
    "server group " + group + " does not exist"
  }

  /** Whether the server can be loaded into a registry with these groups. */
  predicate Loadable(groups: map<string, Group>, cfg: ServerConfig, users: seq<DbUser>) {
    cfg.serverGroup in groups && GetUser(users, cfg.id).Ok?
  }

  /** The error `LoadServers` reports for a server that is not loadable. */
  function LoadError(groups: map<string, Group>, cfg: ServerConfig): string {
    if cfg.serverGroup !in groups then GroupMissing(cfg.serverGroup) else ErrNotFound
  }

  /** The number of leading servers among the first `n` that load. */
  function FirstFailure(groups: map<string, Group>, cfgs: seq<ServerConfig>, users: seq<DbUser>, n: nat): (f: nat)
    requires n <= |cfgs|
    ensures f <= n
  {
    if n == 0 then 0
    else
      var f := FirstFailure(groups, cfgs, users, n - 1);
      if f < n - 1 then f
      else if Loadable(groups, cfgs[n - 1], users) then n
      else n - 1
  }

  /** `FirstFailure` is the length of the longest loadable prefix. */
  lemma {:induction false} FirstFailureSpec(groups: map<string, Group>, cfgs: seq<ServerConfig>, users: seq<DbUser>, n: nat)
    requires n <= |cfgs|
    ensures var f := FirstFailure(groups, cfgs, users, n);
            && (forall j :: 0 <= j < f ==> Loadable(groups, cfgs[j], users))
            && (f < n ==> !Loadable(groups, cfgs[f], users))
  {
    if n > 0 {
      FirstFailureSpec(groups, cfgs, users, n - 1);
    }
  }

  /** The position of the last server flagged `default` among the first n. */
  function LastDefault(cfgs: seq<ServerConfig>, n: nat): (r: Option<nat>)
    requires n <= |cfgs|
    ensures r.Some? ==> r.value < n
  {
    if n == 0 then None
    else if cfgs[n - 1].isDefault then Some(n - 1)
    else LastDefault(cfgs, n - 1)
  }

  /** `LastDefault` finds the last flagged position, and finds none exactly
      when no position is flagged. */
  lemma {:induction false} LastDefaultSpec(cfgs: seq<ServerConfig>, n: nat)
    requires n <= |cfgs|
    ensures var r := LastDefault(cfgs, n);
            && (r.Some? ==> cfgs[r.value].isDefault && forall j :: r.value < j < n ==> !cfgs[j].isDefault)
            && (r.None? <==> forall j :: 0 <= j < n ==> !cfgs[j].isDefault)
  {
    if n > 0 {
      LastDefaultSpec(cfgs, n - 1);
    }
  }

  /** The server object `NewServer` builds for a loadable configuration. */
  function ServerFor(cfg: ServerConfig, users: seq<DbUser>): Server {
    Server(cfg, match GetUser(users, cfg.id) case Ok(u) => u case Err(_) => ZeroUser, Shunned)
  }

  /** The server objects of the first `n` configurations. */
  function NewServers(cfgs: seq<ServerConfig>, users: seq<DbUser>, n: nat): (r: seq<Server>)
    requires n <= |cfgs|
    ensures |r| == n
    ensures forall i :: 0 <= i < n ==> r[i] == ServerFor(cfgs[i], users)
  {
    seq(n, i requires 0 <= i < n => ServerFor(cfgs[i], users))
  }

  lemma NewServersSnoc(cfgs: seq<ServerConfig>, users: seq<DbUser>, n: nat)
    requires n < |cfgs|
    ensures NewServers(cfgs, users, n + 1) == NewServers(cfgs, users, n) + [ServerFor(cfgs[n], users)]
  {
  }

  /** Loading one server: create it, add it to its group and to the pool, and
      make it the default when flagged. */
  function LoadServer(db: Db, cfg: ServerConfig, users: seq<DbUser>): (r: Result<Db>)
    ensures r.Ok? <==> Loadable(db.groups, cfg, users)
    ensures r.Err? ==> r.msg == LoadError(db.groups, cfg)
    ensures r.Ok? ==>
              && r.value.objects == db.objects + [ServerFor(cfg, users)]
              && r.value.servers == db.servers[cfg.id := |db.objects|]
              && cfg.serverGroup in db.groups
              && r.value.groups == db.groups[cfg.serverGroup := AddServer(db.groups[cfg.serverGroup], cfg.id, |db.objects|)]
              && r.value.defaultServer == (if cfg.isDefault then Some(|db.objects|) else db.defaultServer)
  {
    if cfg.serverGroup !in db.groups then Err(GroupMissing(cfg.serverGroup))
    else match NewServer(cfg, users)
      case Err(e) => Err(e)
      case Ok(s) =>
        var ref := |db.objects|;
        Ok(Db(
          db.groups[cfg.serverGroup := AddServer(db.groups[cfg.serverGroup], cfg.id, ref)],
          db.objects + [s],
          db.servers[cfg.id := ref],
          if cfg.isDefault then Some(ref) else db.defaultServer))
  }

  /** Past the first unloadable server, the count of loadable leading
      servers no longer grows. */
  lemma {:induction false} FirstFailureStays(groups: map<string, Group>, cfgs: seq<ServerConfig>, users: seq<DbUser>, i: nat, n: nat)
    requires i < n <= |cfgs|
    requires FirstFailure(groups, cfgs, users, i) == i && !Loadable(groups, cfgs[i], users)
    ensures FirstFailure(groups, cfgs, users, n) == i
  {
    if n > i + 1 {
      FirstFailureStays(groups, cfgs, users, i, n - 1);
    }
  }

  /** The registry's default after loading `f` servers: the last of them
      flagged `default`, or the one it had before when none is. */
  function DefaultAfter(db: Db, cfgs: seq<ServerConfig>, f: nat): Option<ServerRef>
    requires f <= |cfgs|
  {
    match LastDefault(cfgs, f)
    case Some(i) => Some(|db.objects| + i)
    case None => db.defaultServer
  }

  /** The ids among the first `n` configurations that name the group `gid`,
      in configuration order. */
  function IdsIn(cfgs: seq<ServerConfig>, gid: string, n: nat): seq<string>
    requires n <= |cfgs|
  {
    if n == 0 then []
    else IdsIn(cfgs, gid, n - 1) + (if cfgs[n - 1].serverGroup == gid then [cfgs[n - 1].id] else [])
  }

  /** The groups once the first `n` configurations are loaded into a pool
      that held `base` server objects: each server joins the group it names,
      filed under the index of its object. */
  function GroupsAfter(groups: map<string, Group>, base: nat, cfgs: seq<ServerConfig>, n: nat): (r: map<string, Group>)
    requires n <= |cfgs|
    ensures r.Keys == groups.Keys
  {
    if n == 0 then groups
    else
      var gs := GroupsAfter(groups, base, cfgs, n - 1);
      var c := cfgs[n - 1];
      if c.serverGroup in gs then gs[c.serverGroup := AddServer(gs[c.serverGroup], c.id, base + n - 1)] else gs
  }

  /** The pool's id map once the first `n` configurations are loaded into a
      pool that held `base` server objects: each id is filed under the index
      of its object, a later duplicate id replacing an earlier one. */
  function ServersAfter(servers: map<string, ServerRef>, base: nat, cfgs: seq<ServerConfig>, n: nat): (r: map<string, ServerRef>)
    requires n <= |cfgs|
    ensures r.Keys == servers.Keys + ServerIds(cfgs, n)
  {
    if n == 0 then servers
    else
      ServerIdsSnoc(cfgs, n - 1);
      ServersAfter(servers, base, cfgs, n - 1)[cfgs[n - 1].id := base + n - 1]
  }

  /** After loading, a group lists the members it had and then the loaded
      servers that name it, in configuration order, and can look up exactly
      those ids. */
  lemma {:induction false} GroupsAfterMembers(groups: map<string, Group>, base: nat, cfgs: seq<ServerConfig>, n: nat, gid: string)
    requires n <= |cfgs| && gid in groups
    ensures GroupsAfter(groups, base, cfgs, n)[gid].id == groups[gid].id
    ensures GroupsAfter(groups, base, cfgs, n)[gid].serverIds == groups[gid].serverIds + IdsIn(cfgs, gid, n)
    ensures forall id :: id in GroupsAfter(groups, base, cfgs, n)[gid].servers <==>
                         id in groups[gid].servers || id in IdsIn(cfgs, gid, n)
  {
    if n > 0 {
      GroupsAfterMembers(groups, base, cfgs, n - 1, gid);
      var c := cfgs[n - 1];
      if c.serverGroup == gid {
        assert IdsIn(cfgs, gid, n) == IdsIn(cfgs, gid, n - 1) + [c.id];
      } else {
        assert IdsIn(cfgs, gid, n) == IdsIn(cfgs, gid, n - 1);
      }
    }
  }

  /** What `LoadServers` has built after loading the first `i` servers. */
  predicate LoadedPrefix(db: Db, d: Db, cfgs: seq<ServerConfig>, users: seq<DbUser>, i: nat)
    requires i <= |cfgs|
  {
    && FirstFailure(db.groups, cfgs, users, i) == i
    && d.objects == db.objects + NewServers(cfgs, users, i)
    && d.servers == ServersAfter(db.servers, |db.objects|, cfgs, i)
    && d.defaultServer == DefaultAfter(db, cfgs, i)
    && d.groups == GroupsAfter(db.groups, |db.objects|, cfgs, i)
  }

  /** Loading the next server extends the loaded prefix by one. */
  lemma LoadedPrefixStep(db: Db, d: Db, cfgs: seq<ServerConfig>, users: seq<DbUser>, i: nat)
    requires i < |cfgs| && LoadedPrefix(db, d, cfgs, users, i)
    requires Loadable(db.groups, cfgs[i], users)
    ensures LoadServer(d, cfgs[i], users).Ok?
    ensures LoadedPrefix(db, LoadServer(d, cfgs[i], users).value, cfgs, users, i + 1)
  {
    var d2 := LoadServer(d, cfgs[i], users).value;
    LoadedPrefixExtend(db, d, d2, cfgs, users, i);
  }

  lemma LoadedPrefixExtend(db: Db, d: Db, d2: Db, cfgs: seq<ServerConfig>, users: seq<DbUser>, i: nat)
    requires i < |cfgs| && LoadedPrefix(db, d, cfgs, users, i)
    requires Loadable(db.groups, cfgs[i], users)
    requires d2.objects == d.objects + [ServerFor(cfgs[i], users)]
    requires d2.servers == d.servers[cfgs[i].id := |d.objects|]
    requires cfgs[i].serverGroup in d.groups
    requires d2.groups == d.groups[cfgs[i].serverGroup := AddServer(d.groups[cfgs[i].serverGroup], cfgs[i].id, |d.objects|)]
    requires d2.defaultServer == if cfgs[i].isDefault then Some(|d.objects|) else d.defaultServer
    ensures LoadedPrefix(db, d2, cfgs, users, i + 1)
  {
    assert FirstFailure(db.groups, cfgs, users, i + 1) == i + 1;
    NewServersSnoc(cfgs, users, i);
    assert d2.objects == db.objects + NewServers(cfgs, users, i + 1);
    assert |d.objects| == |db.objects| + i;
    ServersAfterStep(db.servers, |db.objects|, cfgs, i, |d.objects|, d.servers, d2.servers);
    GroupsAfterStep(db.groups, |db.objects|, cfgs, i, |d.objects|, d.groups, d2.groups);
    DefaultAfterStep(db, cfgs, i);
  }

  /** Loading one more server files its id under the next index. */
  lemma ServersAfterStep(servers: map<string, ServerRef>, base: nat, cfgs: seq<ServerConfig>, i: nat, ref: nat,
                         s: map<string, ServerRef>, s2: map<string, ServerRef>)
    requires i < |cfgs| && s == ServersAfter(servers, base, cfgs, i) && ref == base + i
    requires s2 == s[cfgs[i].id := ref]
    ensures s2 == ServersAfter(servers, base, cfgs, i + 1)
  {
  }

  /** Loading one more server adds it to the group it names. */
  lemma GroupsAfterStep(groups: map<string, Group>, base: nat, cfgs: seq<ServerConfig>, i: nat, ref: nat,
                        gs: map<string, Group>, gs2: map<string, Group>)
    requires i < |cfgs| && gs == GroupsAfter(groups, base, cfgs, i) && ref == base + i
    requires cfgs[i].serverGroup in gs
    requires gs2 == gs[cfgs[i].serverGroup := AddServer(gs[cfgs[i].serverGroup], cfgs[i].id, ref)]
    ensures gs2 == GroupsAfter(groups, base, cfgs, i + 1)
  {
  }

  /** The default after one more server: that server when it is flagged. */
  lemma DefaultAfterStep(db: Db, cfgs: seq<ServerConfig>, i: nat)
    requires i < |cfgs|
    ensures DefaultAfter(db, cfgs, i + 1) == if cfgs[i].isDefault then Some(|db.objects| + i) else DefaultAfter(db, cfgs, i)
  {
  }

  /** `LoadServers`: servers are loaded in configuration order until the
      first one that cannot be, whose error is returned; the registry keeps
      what was loaded before it. */
  method LoadServers(db: Db, cfgs: seq<ServerConfig>, users: seq<DbUser>) returns (e: Outcome, d: Db)
    ensures var f := FirstFailure(db.groups, cfgs, users, |cfgs|);
            && (e.Nil? <==> f == |cfgs|)
            && (e.Error? ==> e.msg == LoadError(db.groups, cfgs[f]))
            && d.objects == db.objects + NewServers(cfgs, users, f)
            && d.servers == ServersAfter(db.servers, |db.objects|, cfgs, f)
            && d.defaultServer == DefaultAfter(db, cfgs, f)
            && d.groups == GroupsAfter(db.groups, |db.objects|, cfgs, f)
    ensures d.groups.Keys == db.groups.Keys
    ensures Consistent(db) ==> Consistent(d)
  {
    d := db;
    var i := 0;
    assert NewServers(cfgs, users, 0) == [];
    while i < |cfgs|
      invariant i <= |cfgs|
      invariant LoadedPrefix(db, d, cfgs, users, i)
      invariant Consistent(db) ==> Consistent(d)
    {
      if !Loadable(db.groups, cfgs[i], users) {
        FirstFailureStays(db.groups, cfgs, users, i, |cfgs|);
        return Error(LoadError(db.groups, cfgs[i])), d;
      }
      LoadServersStep(db, d, cfgs, users, i);
      d := LoadServer(d, cfgs[i], users).value;
      i := i + 1;
    }
    e := Nil;
  }

  /** One turn of the `LoadServers` loop keeps its invariant. */
  lemma LoadServersStep(db: Db, d: Db, cfgs: seq<ServerConfig>, users: seq<DbUser>, i: nat)
    requires i < |cfgs| && LoadedPrefix(db, d, cfgs, users, i)
    requires Loadable(db.groups, cfgs[i], users)
    requires Consistent(db) ==> Consistent(d)
    ensures LoadServer(d, cfgs[i], users).Ok?
    ensures LoadedPrefix(db, LoadServer(d, cfgs[i], users).value, cfgs, users, i + 1)
    ensures Consistent(db) ==> Consistent(LoadServer(d, cfgs[i], users).value)
  {
    LoadedPrefixStep(db, d, cfgs, users, i);
    if Consistent(d) {
      LoadServerConsistent(d, cfgs[i], users);
    }
  }

  /** One successful `LoadServer` keeps the registry consistent. */
  lemma LoadServerConsistent(d: Db, cfg: ServerConfig, users: seq<DbUser>)
    requires Consistent(d) && LoadServer(d, cfg, users).Ok?
    ensures Consistent(LoadServer(d, cfg, users).value)
  {
    var d2 := LoadServer(d, cfg, users).value;
    var ref := |d.objects|;
    var g := d.groups[cfg.serverGroup];
    forall gid | gid in d2.groups
      ensures d2.groups[gid].id == gid && GroupConsistent(d2.groups[gid], d2.objects)
    {
      if gid == cfg.serverGroup {
        var g2 := AddServer(g, cfg.id, ref);
        assert d2.groups[gid] == g2;
        forall id | id in g2.servers
          ensures g2.servers[id] < |d2.objects| && d2.objects[g2.servers[id]].config.id == id
                  && d2.objects[g2.servers[id]].config.serverGroup == g2.id
        {
          if id != cfg.id {
            assert g2.servers[id] == g.servers[id];
            assert d2.objects[g.servers[id]] == d.objects[g.servers[id]];
          }
        }
        forall i | 0 <= i < |g2.serverIds| ensures g2.serverIds[i] in g2.servers {
          if i < |g.serverIds| { assert g2.serverIds[i] == g.serverIds[i]; }
        }
      } else {
        var h := d.groups[gid];
        assert d2.groups[gid] == h;
        forall id | id in h.servers
          ensures d2.objects[h.servers[id]] == d.objects[h.servers[id]]
        {
        }
      }
    }
    forall id | id in d2.servers
      ensures d2.servers[id] < |d2.objects| && d2.objects[d2.servers[id]].config.id == id
    {
      if id != cfg.id {
        assert d2.objects[d.servers[id]] == d.objects[d.servers[id]];
      }
    }
    if d2.defaultServer.Some? && !cfg.isDefault {
      assert d2.objects[d.defaultServer.value] == d.objects[d.defaultServer.value];
    }
  }

  /** `TestConnection`: lease a connection and ping it; a failed ping drops the
      connection, a good one is put back. The lease is returned exactly once,
      and an unleased attempt touches no pool. */
  function TestConnection(o: Oracle, log: Log, ref: ServerRef): (r: (Outcome, Log))
    ensures o.lease(ref, |log|).Some? ==> r == (Error(o.lease(ref, |log|).value), log)
    ensures o.lease(ref, |log|).None? ==>
              var c := Conn(|log|, ref);
              && |r.1| == |log| + 3 && r.1[..|log|] == log
              && r.1[|log|] == Lease(c) && r.1[|log| + 1] == Ping(c)
              && (r.0.Nil? <==> o.reply(Ping(c), |log| + 1).None?)
              && r.1[|log| + 2] == (if r.0.Nil? then Put(c) else Drop(c))
  {
    match GetConn(o, log, ref)
    case (Err(e), l) => (Error(e), l)
    case (Ok(c), l1) =>
      match Invoke(o, l1, Ping(c))
      case (Error(e), l2) => (Error(e), l2 + [Drop(c)])
      case (Nil, l2) => (Nil, l2 + [Put(c)])
  }

  /** The connection a probe leases goes back to its pool exactly once. */
  lemma TestConnectionReturnsLease(o: Oracle, log: Log, ref: ServerRef)
    requires o.lease(ref, |log|).None?
    ensures var r := TestConnection(o, log, ref);
            ReturnCount(r.1, Conn(|log|, ref)) == ReturnCount(log, Conn(|log|, ref)) + 1
  {
    var r := TestConnection(o, log, ref);
    var c := Conn(|log|, ref);
    assert r.1 == log + [Lease(c)] + [Ping(c)] + [r.1[|log| + 2]];
    ReturnCountAppend(log + [Lease(c)] + [Ping(c)], [r.1[|log| + 2]], c);
    ReturnCountAppend(log + [Lease(c)], [Ping(c)], c);
    ReturnCountAppend(log, [Lease(c)], c);
    ReturnCountOne(Lease(c), c);
    ReturnCountOne(Ping(c), c);
    ReturnCountOne(r.1[|log| + 2], c);
  }

  // ---------------------------------------------------------------------------
  // db.go

  /** `TestServerConfig`, visiting `DbPool.Servers` in the iteration order
      `order`: fails iff some registered server has no DB user. */
  function TestServerConfig(db: Db, users: seq<DbUser>, order: seq<string>): (r: Outcome)
    requires Consistent(db)
    requires forall i :: 0 <= i < |order| ==> order[i] in db.servers
    ensures r.Error? <==> exists i :: 0 <= i < |order| && GetUser(users, order[i]).Err?
    ensures r.Error? ==> r.msg == ErrNotFound
  {
    if |order| == 0 then Nil
    else
      var cfg := db.objects[db.servers[order[0]]].config;
      match GetUser(users, cfg.id)
      case Err(e) => Error(e)
      case Ok(_) =>
        var r := TestServerConfig(db, users, order[1..]);
        assert r.Error? <==> exists i :: 0 <= i < |order| && GetUser(users, order[i]).Err? by {
          if exists i :: 0 <= i < |order| && GetUser(users, order[i]).Err? {
            var i :| 0 <= i < |order| && GetUser(users, order[i]).Err?;
            assert i > 0 && order[1..][i - 1] == order[i];
          }
        }
        r
  }

  const RequiredPrefix: string := "error encountered while attempting to test connection with the required db - "

  function SetStatus(db: Db, ref: ServerRef, s: Status): (r: Db)
    requires ref < |db.objects|
    ensures SameShape(db, r)
    ensures r.objects[ref] == db.objects[ref].(status := s)
    ensures forall k :: 0 <= k < |db.objects| && k != ref ==> r.objects[k] == db.objects[k]
    ensures Consistent(db) ==> Consistent(r)
  {
    var d := db.(objects := db.objects[ref := db.objects[ref].(status := s)]);
    assert forall k :: 0 <= k < |db.objects| ==> d.objects[k].config == db.objects[k].config;
    d
  }

  /** Only statuses change: the maps, the default, and every configuration
      stay as they were. */
  predicate SameShape(a: Db, b: Db) {
    && a.groups == b.groups && a.servers == b.servers && a.defaultServer == b.defaultServer
    && |a.objects| == |b.objects|
    && forall k :: 0 <= k < |a.objects| ==> a.objects[k].config == b.objects[k].config
                                             && a.objects[k].credentials == b.objects[k].credentials
  }

  /** Whether the server behind key `id` is marked `required`. */
  predicate IsRequired(db: Db, id: string)
    requires Consistent(db) && id in db.servers
  {
    db.objects[db.servers[id]].config.required
  }

  /** The log after the walk over the first `n` keys of `order`, when none of
      the required probes among them failed: only required servers are
      probed. */
  function RequiredLog(o: Oracle, log: Log, db: Db, order: seq<string>, n: nat): (r: Log)
    requires Consistent(db)
    requires n <= |order| && forall i :: 0 <= i < |order| ==> order[i] in db.servers
    ensures |r| >= |log| && r[..|log|] == log
  {
    if n == 0 then log
    else
      var l := RequiredLog(o, log, db, order, n - 1);
      if IsRequired(db, order[n - 1]) then
        var t := TestConnection(o, l, db.servers[order[n - 1]]);
        LogGrows(log, l, t.1);
        t.1
      else l
  }

  /** The probe of `order[i]`'s server, run on the log the walk reached. */
  function RequiredProbe(o: Oracle, log: Log, db: Db, order: seq<string>, i: nat): (Outcome, Log)
    requires Consistent(db)
    requires i < |order| && forall j :: 0 <= j < |order| ==> order[j] in db.servers
  {
    TestConnection(o, RequiredLog(o, log, db, order, i), db.servers[order[i]])
  }

  /** The walk stops at `order[i]`: its server is required and its probe
      fails. */
  predicate RequiredFails(o: Oracle, log: Log, db: Db, order: seq<string>, i: nat)
    requires Consistent(db)
    requires i < |order| && forall j :: 0 <= j < |order| ==> order[j] in db.servers
  {
    IsRequired(db, order[i]) && RequiredProbe(o, log, db, order, i).0.Error?
  }

  /** The position of the first failing required probe among the first `n`
      keys, or `n` when there is none. */
  function FirstRequiredFailure(o: Oracle, log: Log, db: Db, order: seq<string>, n: nat): (f: nat)
    requires Consistent(db)
    requires n <= |order| && forall j :: 0 <= j < |order| ==> order[j] in db.servers
    ensures f <= n
  {
    if n == 0 then 0
    else
      var f := FirstRequiredFailure(o, log, db, order, n - 1);
      if f < n - 1 then f
      else if RequiredFails(o, log, db, order, n - 1) then n - 1
      else n
  }

  /** `FirstRequiredFailure` finds the first failing required probe, and no
      probe before it fails. */
  lemma {:induction false} FirstRequiredFailureSpec(o: Oracle, log: Log, db: Db, order: seq<string>, n: nat)
    requires Consistent(db)
    requires n <= |order| && forall j :: 0 <= j < |order| ==> order[j] in db.servers
    ensures FirstRequiredFailure(o, log, db, order, n) < n ==>
              RequiredFails(o, log, db, order, FirstRequiredFailure(o, log, db, order, n))
    ensures forall j :: 0 <= j < FirstRequiredFailure(o, log, db, order, n) ==> !RequiredFails(o, log, db, order, j)
  {
    if n > 0 {
      FirstRequiredFailureSpec(o, log, db, order, n - 1);
    }
  }

  /** Once a failing required probe is found, later keys do not move it. */
  lemma {:induction false} FirstRequiredFailureStays(o: Oracle, log: Log, db: Db, order: seq<string>, i: nat, n: nat)
    requires Consistent(db)
    requires i < n <= |order| && forall j :: 0 <= j < |order| ==> order[j] in db.servers
    requires FirstRequiredFailure(o, log, db, order, i) == i && RequiredFails(o, log, db, order, i)
    ensures FirstRequiredFailure(o, log, db, order, n) == i
  {
    if n > i + 1 {
      FirstRequiredFailureStays(o, log, db, order, i, n - 1);
    }
  }

  /** The error a required-server walk returns when it stops: the first
      failing required probe, its error after `RequiredPrefix`, and the log
      ending with that probe. */
  predicate RequiredError(o: Oracle, log: Log, db: Db, order: seq<string>, e: Outcome, l: Log)
    requires Consistent(db)
    requires forall j :: 0 <= j < |order| ==> order[j] in db.servers
  {
    var f := FirstRequiredFailure(o, log, db, order, |order|);
    && f < |order|
    && RequiredProbe(o, log, db, order, f).0.Error?
    && e == Error(RequiredPrefix + RequiredProbe(o, log, db, order, f).0.msg)
    && l == RequiredProbe(o, log, db, order, f).1
  }

  /** `TestRequiredServers` over the iteration order `order`: each required
      server is probed and marked OPERATIONAL when the probe passes; the
      first failing probe ends the walk with its error behind the prefix,
      keeping earlier marks and probing nothing after it. */
  method TestRequiredServers(o: Oracle, log: Log, db: Db, order: seq<string>) returns (e: Outcome, d: Db, l: Log)
    requires Consistent(db)
    requires forall i :: 0 <= i < |order| ==> order[i] in db.servers
    ensures SameShape(db, d) && Consistent(d)
    ensures forall k :: 0 <= k < |db.objects| && d.objects[k].status != db.objects[k].status ==>
              db.objects[k].config.required && d.objects[k].status == Operational
                && k in Probed(db, order, FirstRequiredFailure(o, log, db, order, |order|))
    ensures e.Error? <==> exists i :: 0 <= i < |order| && RequiredFails(o, log, db, order, i)
    ensures e.Nil? ==> l == RequiredLog(o, log, db, order, |order|)
    ensures e.Nil? ==> forall i :: 0 <= i < |order| && db.objects[db.servers[order[i]]].config.required ==>
                          d.objects[db.servers[order[i]]].status == Operational
    ensures e.Error? ==>
              && FirstRequiredFailure(o, log, db, order, |order|) < |order|
              && RequiredProbe(o, log, db, order, FirstRequiredFailure(o, log, db, order, |order|)).0.Error?
              && e.msg == RequiredPrefix + RequiredProbe(o, log, db, order, FirstRequiredFailure(o, log, db, order, |order|)).0.msg
              && l == RequiredProbe(o, log, db, order, FirstRequiredFailure(o, log, db, order, |order|)).1
    ensures e.Error? ==> |e.msg| >= |RequiredPrefix| && e.msg[..|RequiredPrefix|] == RequiredPrefix
    ensures |l| >= |log| && l[..|log|] == log
  {
    FirstRequiredFailureSpec(o, log, db, order, |order|);
    e, d, l := RequiredWalk(o, log, db, order, 0, db, log);
  }

  /** The loop of `TestRequiredServers` from the key at position `i` on,
      with `d` and `l` what the earlier keys left; its result is stated
      through the first failing probe. */
  method RequiredWalk(o: Oracle, log: Log, db: Db, order: seq<string>, i: nat, d: Db, l: Log)
    returns (e: Outcome, d': Db, l': Log)
    requires i <= |order| && forall j :: 0 <= j < |order| ==> order[j] in db.servers
    requires RequiredState(o, log, db, d, l, order, i)
    ensures WalkResult(o, log, db, order, e, d', l')
    decreases |order| - i
  {
    if i == |order| {
      RequiredDone(o, log, db, d, l, order);
      return Nil, d, l;
    }
    var ref := db.servers[order[i]];
    if db.objects[ref].config.required {
      var t := TestConnection(o, l, ref);
      if t.0.Error? {
        RequiredStop(o, log, db, d, l, order, i);
        return Error(RequiredPrefix + t.0.msg), d, t.1;
      }
      var d2 := SetStatus(d, ref, Operational);
      RequiredPass(o, log, db, d, l, d2, t.1, order, i);
      e, d', l' := RequiredWalk(o, log, db, order, i + 1, d2, t.1);
    } else {
      RequiredSkip(o, log, db, d, l, order, i);
      e, d', l' := RequiredWalk(o, log, db, order, i + 1, d, l);
    }
  }

  /** What the walk returns, stated through its first failing probe `f`:
      the marks before `f`, and either no failure with the full log, or the
      prefixed error of probe `f` with the log that probe left. */
  predicate WalkResult(o: Oracle, log: Log, db: Db, order: seq<string>, e: Outcome, d: Db, l: Log)
    requires Consistent(db)
    requires forall i :: 0 <= i < |order| ==> order[i] in db.servers
  {
    var f := FirstRequiredFailure(o, log, db, order, |order|);
    && RequiredMarked(db, d, order, f)
    && (e.Nil? <==> f == |order|)
    && (e.Nil? ==> l == RequiredLog(o, log, db, order, |order|))
    && (e.Error? ==> f < |order| && RequiredProbe(o, log, db, order, f).0.Error?
                     && e.msg == RequiredPrefix + RequiredProbe(o, log, db, order, f).0.msg
                     && l == RequiredProbe(o, log, db, order, f).1)
  }

  /** What `RequiredWalk` has done after the first `i` keys: the
      marks so far, the log the walk reached, and no failure yet. */
  predicate RequiredState(o: Oracle, log: Log, db: Db, d: Db, l: Log, order: seq<string>, i: nat)
    requires i <= |order| && forall j :: 0 <= j < |order| ==> order[j] in db.servers
  {
    && Consistent(db)
    && RequiredMarked(db, d, order, i)
    && l == RequiredLog(o, log, db, order, i)
    && FirstRequiredFailure(o, log, db, order, i) == i
  }

  /** A required server whose probe passes is marked, and the walk goes on. */
  lemma RequiredPass(o: Oracle, log: Log, db: Db, d: Db, l: Log, d2: Db, l2: Log, order: seq<string>, i: nat)
    requires i < |order| && forall j :: 0 <= j < |order| ==> order[j] in db.servers
    requires RequiredState(o, log, db, d, l, order, i)
    requires IsRequired(db, order[i])
    requires TestConnection(o, l, db.servers[order[i]]).0.Nil?
    requires l2 == TestConnection(o, l, db.servers[order[i]]).1
    requires |d.objects| == |db.objects|
    requires d2 == SetStatus(d, db.servers[order[i]], Operational)
    ensures RequiredState(o, log, db, d2, l2, order, i + 1)
  {
    RequiredMarkedMark(db, d, order, i);
  }

  /** A server that is not required is passed over without a probe. */
  lemma RequiredSkip(o: Oracle, log: Log, db: Db, d: Db, l: Log, order: seq<string>, i: nat)
    requires i < |order| && forall j :: 0 <= j < |order| ==> order[j] in db.servers
    requires RequiredState(o, log, db, d, l, order, i)
    requires !IsRequired(db, order[i])
    ensures RequiredState(o, log, db, d, l, order, i + 1)
  {
    RequiredMarkedSkip(db, d, order, i);
  }

  /** A required server whose probe fails is the first failure of the walk. */
  lemma RequiredStop(o: Oracle, log: Log, db: Db, d: Db, l: Log, order: seq<string>, i: nat)
    requires i < |order| && forall j :: 0 <= j < |order| ==> order[j] in db.servers
    requires RequiredState(o, log, db, d, l, order, i)
    requires IsRequired(db, order[i])
    requires TestConnection(o, l, db.servers[order[i]]).0.Error?
    ensures WalkResult(o, log, db, order, Error(RequiredPrefix + TestConnection(o, l, db.servers[order[i]]).0.msg),
                       d, TestConnection(o, l, db.servers[order[i]]).1)
  {
    FirstRequiredFailureStays(o, log, db, order, i, |order|);
  }

  /** A walk that reaches the end without a failure returns `nil`. */
  lemma RequiredDone(o: Oracle, log: Log, db: Db, d: Db, l: Log, order: seq<string>)
    requires forall j :: 0 <= j < |order| ==> order[j] in db.servers
    requires RequiredState(o, log, db, d, l, order, |order|)
    ensures WalkResult(o, log, db, order, Nil, d, l)
  {
  }

  /** The loop invariant of `TestRequiredServers` after the first `i`
      servers of `order`: only statuses changed, only required servers among
      the first `i` were marked, and every one of those is marked. */
  predicate RequiredMarked(db: Db, d: Db, order: seq<string>, i: nat)
    requires i <= |order| && forall j :: 0 <= j < |order| ==> order[j] in db.servers
  {
    && SameShape(db, d) && Consistent(d)
    && (forall k :: 0 <= k < |db.objects| && d.objects[k].status != db.objects[k].status ==>
          db.objects[k].config.required && d.objects[k].status == Operational && k in Probed(db, order, i))
    && (forall j :: 0 <= j < i && db.objects[db.servers[order[j]]].config.required ==>
          d.objects[db.servers[order[j]]].status == Operational)
  }

  lemma RequiredMarkedSkip(db: Db, d: Db, order: seq<string>, i: nat)
    requires i < |order| && forall j :: 0 <= j < |order| ==> order[j] in db.servers
    requires Consistent(db) && RequiredMarked(db, d, order, i)
    requires !d.objects[d.servers[order[i]]].config.required
    ensures RequiredMarked(db, d, order, i + 1)
  {
    ProbedSnoc(db, order, i);
  }

  lemma RequiredMarkedMark(db: Db, d: Db, order: seq<string>, i: nat)
    requires i < |order| && forall j :: 0 <= j < |order| ==> order[j] in db.servers
    requires Consistent(db) && RequiredMarked(db, d, order, i)
    requires d.objects[d.servers[order[i]]].config.required
    ensures RequiredMarked(db, SetStatus(d, d.servers[order[i]], Operational), order, i + 1)
  {
    var ref := d.servers[order[i]];
    var d2 := SetStatus(d, ref, Operational);
    ProbedSnoc(db, order, i);
    forall j | 0 <= j < i + 1 && db.objects[db.servers[order[j]]].config.required
      ensures d2.objects[db.servers[order[j]]].status == Operational
    {
      if db.servers[order[j]] != ref {
        assert d2.objects[db.servers[order[j]]] == d.objects[db.servers[order[j]]];
      }
    }
  }

  /** A log only grows: a prefix of a prefix is a prefix. */
  lemma LogGrows(a: Log, b: Log, c: Log)
    requires |a| <= |b| <= |c| && b[..|a|] == a && c[..|b|] == b
    ensures c[..|a|] == a
  {
    assert c[..|a|] == c[..|b|][..|a|];
  }

  // ---------------------------------------------------------------------------
  // monitor.go, the body of one tick

  /** The server objects probed by the first `n` keys of `order`. */
  function Probed(db: Db, order: seq<string>, n: nat): set<ServerRef>
    requires n <= |order|
  {
    set i | 0 <= i < n && order[i] in db.servers :: db.servers[order[i]]
  }

  /** Every lease and every ping of `ref`'s pool succeeds. */
  ghost predicate AlwaysUp(o: Oracle, ref: ServerRef) {
    forall n: nat :: o.lease(ref, n).None? && o.reply(Ping(Conn(n, ref)), n + 1).None?
  }

  /** No lease of `ref`'s pool succeeds. */
  ghost predicate AlwaysDown(o: Oracle, ref: ServerRef) {
    forall n: nat :: o.lease(ref, n).Some?
  }

  /** The log after the first `n` probes of a tick over `order`. */
  function TickLog(o: Oracle, log: Log, db: Db, order: seq<string>, n: nat): (r: Log)
    requires n <= |order| && forall i :: 0 <= i < |order| ==> order[i] in db.servers
    ensures |r| >= |log| && r[..|log|] == log
  {
    if n == 0 then log
    else
      var l := TickLog(o, log, db, order, n - 1);
      var t := TestConnection(o, l, db.servers[order[n - 1]]);
      LogGrows(log, l, t.1);
      t.1
  }

  /** The outcome of the tick's probe of `order[i]`, run on the log the
      earlier probes left. */
  function TickProbe(o: Oracle, log: Log, db: Db, order: seq<string>, i: nat): Outcome
    requires i < |order| && forall j :: 0 <= j < |order| ==> order[j] in db.servers
  {
    TestConnection(o, TickLog(o, log, db, order, i), db.servers[order[i]]).0
  }

  /** The status a probe outcome assigns. */
  function ProbeStatus(r: Outcome): Status {
    if r.Nil? then Operational else Shunned
  }

  /** `order[i]` is not visited again before position `n`. */
  predicate LastVisit(order: seq<string>, i: nat, n: nat)
    requires i < n <= |order|
  {
    forall j :: i < j < n ==> order[j] != order[i]
  }

  /** Each server visited among the first `n` keys holds the status of its
      latest probe. */
  predicate FollowsProbes(o: Oracle, log: Log, db: Db, d: Db, order: seq<string>, n: nat)
    requires n <= |order| && forall j :: 0 <= j < |order| ==> order[j] in db.servers
    requires |d.objects| == |db.objects| && Consistent(db)
  {
    forall i :: 0 <= i < n && LastVisit(order, i, n) ==>
      d.objects[db.servers[order[i]]].status == ProbeStatus(TickProbe(o, log, db, order, i))
  }

  /** Two keys of the pool name two different server objects. */
  lemma DistinctKeysDistinctServers(db: Db, a: string, b: string)
    requires Consistent(db) && a in db.servers && b in db.servers && a != b
    ensures db.servers[a] != db.servers[b]
  {
  }

  /** One monitor tick over the iteration order `order`: every probed server
      becomes OPERATIONAL when its probe passes and SHUNNED when it fails;
      servers reached through no key of the order keep their state, so the
      tick never assigns OFF. */
  method MonitorTick(o: Oracle, log: Log, db: Db, order: seq<string>) returns (d: Db, l: Log)
    requires Consistent(db)
    requires forall i :: 0 <= i < |order| ==> order[i] in db.servers
    ensures SameShape(db, d) && Consistent(d)
    ensures forall k :: 0 <= k < |db.objects| ==>
              if k in Probed(db, order, |order|) then d.objects[k].status in {Operational, Shunned}
              else d.objects[k] == db.objects[k]
    ensures forall k :: 0 <= k < |db.objects| && d.objects[k].status == Off ==> db.objects[k].status == Off
    ensures forall i :: 0 <= i < |order| && AlwaysUp(o, db.servers[order[i]]) ==>
              d.objects[db.servers[order[i]]].status == Operational
    ensures forall i :: 0 <= i < |order| && AlwaysDown(o, db.servers[order[i]]) ==>
              d.objects[db.servers[order[i]]].status == Shunned
    ensures forall i :: 0 <= i < |order| && LastVisit(order, i, |order|) ==>
              d.objects[db.servers[order[i]]].status == ProbeStatus(TickProbe(o, log, db, order, i))
    ensures l == TickLog(o, log, db, order, |order|)
  {
    d, l := ProbeAll(o, log, db, order);
  }

  /** The loop of a tick: probe the server behind each key of `order` in
      turn and record the outcome as its status. */
  method ProbeAll(o: Oracle, log: Log, db: Db, order: seq<string>) returns (d: Db, l: Log)
    requires Consistent(db)
    requires forall i :: 0 <= i < |order| ==> order[i] in db.servers
    ensures TickState(o, log, db, d, l, order, |order|)
  {
    d, l := db, log;
    for i := 0 to |order|
      invariant TickState(o, log, db, d, l, order, i)
    {
      var ref := d.servers[order[i]];
      var t := TestConnection(o, l, ref);
      var d2 := SetStatus(d, ref, if t.0.Error? then Shunned else Operational);
      TickTurn(o, log, db, d, l, d2, t.1, order, i);
      d, l := d2, t.1;
    }
  }

  /** The loop invariant of `MonitorTick` after the first `i` keys. */
  ghost predicate TickState(o: Oracle, log: Log, db: Db, d: Db, l: Log, order: seq<string>, i: nat)
    requires i <= |order| && forall j :: 0 <= j < |order| ==> order[j] in db.servers
  {
    && TickPrefix(o, log, db, d, l, order, i)
    && FollowsProbes(o, log, db, d, order, i)
    && l == TickLog(o, log, db, order, i)
  }

  /** One turn of the tick: probing the next key and recording its status
      keeps the loop invariant. */
  lemma TickTurn(o: Oracle, log: Log, db: Db, d: Db, l: Log, d2: Db, l2: Log, order: seq<string>, i: nat)
    requires i < |order| && forall j :: 0 <= j < |order| ==> order[j] in db.servers
    requires TickState(o, log, db, d, l, order, i)
    requires d.servers[order[i]] < |d.objects|
    requires l2 == TestConnection(o, l, d.servers[order[i]]).1
    requires d2 == SetStatus(d, d.servers[order[i]], if TestConnection(o, l, d.servers[order[i]]).0.Error? then Shunned else Operational)
    ensures TickState(o, log, db, d2, l2, order, i + 1)
  {
    TickStep(o, log, db, d, l, order, i);
    FollowsProbesStep(o, log, db, d, order, i);
  }

  /** Setting the next key's server to its probe's status keeps every
      earlier server's latest probe in force: distinct keys name distinct
      servers in a consistent registry. */
  lemma FollowsProbesStep(o: Oracle, log: Log, db: Db, d: Db, order: seq<string>, i: nat)
    requires i < |order| && forall j :: 0 <= j < |order| ==> order[j] in db.servers
    requires Consistent(db) && SameShape(db, d)
    requires FollowsProbes(o, log, db, d, order, i)
    ensures FollowsProbes(o, log, db, SetStatus(d, db.servers[order[i]], ProbeStatus(TickProbe(o, log, db, order, i))), order, i + 1)
  {
    var ref := db.servers[order[i]];
    var d2 := SetStatus(d, ref, ProbeStatus(TickProbe(o, log, db, order, i)));
    forall j | 0 <= j < i + 1 && LastVisit(order, j, i + 1)
      ensures d2.objects[db.servers[order[j]]].status == ProbeStatus(TickProbe(o, log, db, order, j))
    {
      var rj := db.servers[order[j]];
      if j < i {
        assert LastVisit(order, j, i) && order[j] != order[i];
        DistinctKeysDistinctServers(db, order[j], order[i]);
        assert d2.objects[rj] == d.objects[rj];
      } else {
        assert d2.objects[ref].status == ProbeStatus(TickProbe(o, log, db, order, i));
      }
    }
  }

  /** What a tick guarantees once the first `i` keys of `order` are probed. */
  ghost predicate TickPrefix(o: Oracle, log: Log, db: Db, d: Db, l: Log, order: seq<string>, i: nat)
    requires i <= |order|
    requires forall j :: 0 <= j < |order| ==> order[j] in db.servers
  {
    && SameShape(db, d) && Consistent(d)
    && (forall k :: 0 <= k < |db.objects| ==>
          if k in Probed(db, order, i) then d.objects[k].status in {Operational, Shunned}
          else d.objects[k] == db.objects[k])
    && (forall j :: 0 <= j < i && AlwaysUp(o, db.servers[order[j]]) ==>
          d.objects[db.servers[order[j]]].status == Operational)
    && (forall j :: 0 <= j < i && AlwaysDown(o, db.servers[order[j]]) ==>
          d.objects[db.servers[order[j]]].status == Shunned)
    && |l| >= |log| && l[..|log|] == log
  }

  /** Probing the next key keeps the tick's guarantees. */
  lemma TickStep(o: Oracle, log: Log, db: Db, d: Db, l: Log, order: seq<string>, i: nat)
    requires i < |order|
    requires forall j :: 0 <= j < |order| ==> order[j] in db.servers
    requires TickPrefix(o, log, db, d, l, order, i)
    ensures var ref := d.servers[order[i]];
            var t := TestConnection(o, l, ref);
            TickPrefix(o, log, db, SetStatus(d, ref, if t.0.Error? then Shunned else Operational), t.1, order, i + 1)
  {
    var ref := d.servers[order[i]];
    var t := TestConnection(o, l, ref);
    var s := if t.0.Error? then Shunned else Operational;
    if AlwaysUp(o, ref) {
      assert o.lease(ref, |l|).None? && o.reply(Ping(Conn(|l|, ref)), |l| + 1).None?;
    }
    if AlwaysDown(o, ref) {
      assert o.lease(ref, |l|).Some?;
    }
    TickExtend(o, log, db, d, l, t.1, order, i, s);
  }

  /** Marking the next key's server `s` keeps the tick's guarantees, given
      that `s` is what a probe of an always-up or always-down server yields. */
  lemma TickExtend(o: Oracle, log: Log, db: Db, d: Db, l: Log, l2: Log, order: seq<string>, i: nat, s: Status)
    requires i < |order|
    requires forall j :: 0 <= j < |order| ==> order[j] in db.servers
    requires TickPrefix(o, log, db, d, l, order, i)
    requires s == Operational || s == Shunned
    requires |l2| >= |l| && l2[..|l|] == l
    requires AlwaysUp(o, d.servers[order[i]]) ==> s == Operational
    requires AlwaysDown(o, d.servers[order[i]]) ==> s == Shunned
    ensures TickPrefix(o, log, db, SetStatus(d, d.servers[order[i]], s), l2, order, i + 1)
  {
    LogGrows(log, l, l2);
    ProbedSnoc(db, order, i);
  }

  lemma ProbedSnoc(db: Db, order: seq<string>, n: nat)
    requires n < |order| && order[n] in db.servers
    ensures Probed(db, order, n + 1) == Probed(db, order, n) + {db.servers[order[n]]}
  {
  }

  // ---------------------------------------------------------------------------
  // db.go: Init

  /** A registry whose groups are all fresh and which holds no server. */
  lemma FreshRegistry(groups: map<string, Group>)
    requires forall gid | gid in groups :: groups[gid] == NewGroup(gid)
    ensures Consistent(Db(groups, [], map[], None))
  {
  }

  /** The ids of all configured servers: the keys `Init` fills the pool with. */
  function ConfiguredIds(cfg: ProxyConfig): set<string> {
    ServerIds(cfg.servers, |cfg.servers|)
  }

  /** Start-up can rely on this: once every configured server has a DB user,
      as a clean `LoadServers` guarantees, `TestServerConfig` passes. */
  lemma LoadedServersHaveUsers(db: Db, cfgs: seq<ServerConfig>, users: seq<DbUser>, order: seq<string>)
    requires Consistent(db)
    requires forall i :: 0 <= i < |order| ==> order[i] in db.servers
    requires forall i :: 0 <= i < |order| ==> order[i] in ServerIds(cfgs, |cfgs|)
    requires forall j :: 0 <= j < |cfgs| ==> GetUser(users, cfgs[j].id).Ok?
    ensures TestServerConfig(db, users, order).Nil?
  {
    forall i | 0 <= i < |order| ensures GetUser(users, order[i]).Ok? {
      assert order[i] in ServerIds(cfgs, |cfgs|);
      var j :| 0 <= j < |cfgs| && cfgs[j].id == order[i];
    }
  }

  /** After a clean load and a clean required-server check, a server is
      OPERATIONAL exactly when it is required, and SHUNNED otherwise. */
  lemma RequiredStatuses(db2: Db, db: Db, cfgs: seq<ServerConfig>, users: seq<DbUser>, order: seq<string>)
    requires Consistent(db2)
    requires db2.objects == NewServers(cfgs, users, |cfgs|)
    requires IsKeyOrder(order, db2.servers.Keys)
    requires SameShape(db2, db)
    requires forall k :: 0 <= k < |db2.objects| && db.objects[k].status != db2.objects[k].status ==>
               db2.objects[k].config.required && db.objects[k].status == Operational
    requires forall i :: 0 <= i < |order| && db2.objects[db2.servers[order[i]]].config.required ==>
               db.objects[db2.servers[order[i]]].status == Operational
    ensures forall id | id in db.servers ::
              db.objects[db.servers[id]].status == if db.objects[db.servers[id]].config.required then Operational else Shunned
  {
    forall id | id in db.servers
      ensures db.objects[db.servers[id]].status == if db.objects[db.servers[id]].config.required then Operational else Shunned
    {
      var ref := db2.servers[id];
      assert db2.objects[ref].status == Shunned;
      var j :| 0 <= j < |order| && order[j] == id;
    }
  }

  /** Some server flagged `default` makes the loaded default non-nil. */
  lemma DefaultFound(cfgs: seq<ServerConfig>, n: nat)
    requires n <= |cfgs|
    requires exists k :: 0 <= k < n && cfgs[k].isDefault
    ensures LastDefault(cfgs, n).Some?
  {
    LastDefaultSpec(cfgs, n);
  }

  /** Loading into an empty pool: the default is the last flagged server. */
  lemma DefaultFromEmpty(db: Db, cfgs: seq<ServerConfig>, f: nat)
    requires f <= |cfgs| && db.objects == [] && db.defaultServer == None
    ensures DefaultAfter(db, cfgs, f) == LastDefault(cfgs, f)
  {
  }

  /** Each configured group ends up holding exactly the servers that name
      it, listed in configuration order. */
  lemma LoadedGroupMembers(cfg: ProxyConfig, gid: string)
    requires LoadGroups(map[], cfg.serverGroups).Ok? && gid in LoadGroups(map[], cfg.serverGroups).value
    ensures GroupsAfter(LoadGroups(map[], cfg.serverGroups).value, 0, cfg.servers, |cfg.servers|)[gid].serverIds
            == IdsIn(cfg.servers, gid, |cfg.servers|)
    ensures forall id :: id in GroupsAfter(LoadGroups(map[], cfg.serverGroups).value, 0, cfg.servers, |cfg.servers|)[gid].servers
                         <==> id in IdsIn(cfg.servers, gid, |cfg.servers|)
  {
    var groups := LoadGroups(map[], cfg.serverGroups).value;
    LoadGroupsValues(map[], cfg.serverGroups, |cfg.serverGroups|);
    assert groups[gid] == NewGroup(gid);
    GroupsAfterMembers(groups, 0, cfg.servers, |cfg.servers|, gid);
  }

  /** The configuration loads without error: its groups are new and
      distinct, and every server names an existing group and has a user. */
  predicate LoadsCleanly(cfg: ProxyConfig) {
    && LoadGroups(map[], cfg.serverGroups).Ok?
    && FirstFailure(LoadGroups(map[], cfg.serverGroups).value, cfg.servers, cfg.dbUsers, |cfg.servers|) == |cfg.servers|
  }

  /** The registry a clean load builds: the configured groups with their
      servers, one SHUNNED server object per configured server, the id map,
      and the last flagged server as the default. */
  function Loaded(cfg: ProxyConfig): Db
    requires LoadGroups(map[], cfg.serverGroups).Ok?
  {
    Db(GroupsAfter(LoadGroups(map[], cfg.serverGroups).value, 0, cfg.servers, |cfg.servers|),
       NewServers(cfg.servers, cfg.dbUsers, |cfg.servers|),
       ServersAfter(map[], 0, cfg.servers, |cfg.servers|),
       LastDefault(cfg.servers, |cfg.servers|))
  }

  /** The loading half of `Init`: `setup` (empty groups, empty pool), then
      `LoadGroups`, then `LoadServers`. */
  method Load(cfg: ProxyConfig) returns (e: Outcome, db: Db)
    ensures Consistent(db)
    ensures var g := LoadGroups(map[], cfg.serverGroups);
            && (g.Err? ==> e == Error(g.msg))
            && (g.Ok? && FirstFailure(g.value, cfg.servers, cfg.dbUsers, |cfg.servers|) < |cfg.servers| ==>
                  e == Error(LoadError(g.value, cfg.servers[FirstFailure(g.value, cfg.servers, cfg.dbUsers, |cfg.servers|)])))
            && (e.Nil? ==> g.Ok? && FirstFailure(g.value, cfg.servers, cfg.dbUsers, |cfg.servers|) == |cfg.servers|)
    ensures e.Nil? ==>
              && db.servers.Keys == ConfiguredIds(cfg)
              && db.objects == NewServers(cfg.servers, cfg.dbUsers, |cfg.servers|)
              && db.defaultServer == LastDefault(cfg.servers, |cfg.servers|)
              && db.groups == GroupsAfter(LoadGroups(map[], cfg.serverGroups).value, 0, cfg.servers, |cfg.servers|)
    ensures e.Nil? <==> LoadsCleanly(cfg)
    ensures e.Nil? ==> db == Loaded(cfg)
  {
    var groups := LoadGroups(map[], cfg.serverGroups);
    if groups.Err? {
      return Error(groups.msg), EmptyDb;
    }
    LoadGroupsValues(map[], cfg.serverGroups, |cfg.serverGroups|);
    FreshRegistry(groups.value);
    var db1 := Db(groups.value, [], map[], None);
    assert db1.servers.Keys == {} && db1.objects == [];
    DefaultFromEmpty(db1, cfg.servers, |cfg.servers|);
    e, db := LoadServers(db1, cfg.servers, cfg.dbUsers);
    if e.Nil? {
      LoadedFromEmpty(cfg, db1, db);
    }
  }

  /** Loading every configured server into the fresh registry of the
      configured groups builds `Loaded(cfg)`. */
  lemma LoadedFromEmpty(cfg: ProxyConfig, db1: Db, db: Db)
    requires LoadGroups(map[], cfg.serverGroups).Ok?
    requires db1 == Db(LoadGroups(map[], cfg.serverGroups).value, [], map[], None)
    requires db.objects == db1.objects + NewServers(cfg.servers, cfg.dbUsers, |cfg.servers|)
    requires db.servers == ServersAfter(db1.servers, |db1.objects|, cfg.servers, |cfg.servers|)
    requires db.defaultServer == DefaultAfter(db1, cfg.servers, |cfg.servers|)
    requires db.groups == GroupsAfter(db1.groups, |db1.objects|, cfg.servers, |cfg.servers|)
    ensures db == Loaded(cfg)
    ensures db.servers.Keys == ConfiguredIds(cfg)
  {
    assert [] + NewServers(cfg.servers, cfg.dbUsers, |cfg.servers|) == NewServers(cfg.servers, cfg.dbUsers, |cfg.servers|);
    DefaultFromEmpty(db1, cfg.servers, |cfg.servers|);
    LoadedKeys(cfg);
  }

  /** A clean load files exactly the configured ids in the pool. */
  lemma LoadedKeys(cfg: ProxyConfig)
    requires LoadGroups(map[], cfg.serverGroups).Ok?
    ensures Loaded(cfg).servers.Keys == ConfiguredIds(cfg)
  {
    var keys := ServersAfter(map[], 0, cfg.servers, |cfg.servers|).Keys;
    assert keys == {} + ServerIds(cfg.servers, |cfg.servers|);
  }

  /** `Init`: reset, groups, servers, user check, required-server check, in
      that order, stopping at the first error. `order` is the iteration order
      of the server pool, whose keys are the configured server ids. A
      configuration that passes validation and initialises cleanly leaves a
      ready registry with every required server OPERATIONAL and every other
      server still SHUNNED. */
  method Init(o: Oracle, log: Log, cfg: ProxyConfig, order: seq<string>) returns (e: Outcome, db: Db, l: Log)
    requires IsKeyOrder(order, ConfiguredIds(cfg))
    ensures Consistent(db)
    ensures var g := LoadGroups(map[], cfg.serverGroups);
            && (g.Err? ==> e == Error(g.msg) && l == log)
            && (g.Ok? && FirstFailure(g.value, cfg.servers, cfg.dbUsers, |cfg.servers|) < |cfg.servers| ==>
                  e == Error(LoadError(g.value, cfg.servers[FirstFailure(g.value, cfg.servers, cfg.dbUsers, |cfg.servers|)]))
                  && l == log)
    ensures e.Nil? ==>
              && db.servers.Keys == ConfiguredIds(cfg)
              && forall id | id in db.servers ::
                   db.objects[db.servers[id]].status == if db.objects[db.servers[id]].config.required then Operational else Shunned
    ensures e.Nil? ==> db.groups == GroupsAfter(LoadGroups(map[], cfg.serverGroups).value, 0, cfg.servers, |cfg.servers|)
    ensures e.Nil? && Validate(cfg) == [] ==> Ready(db)
    ensures |l| >= |log| && l[..|log|] == log
    ensures LoadsCleanly(cfg) ==>
              && Consistent(Loaded(cfg)) && Loaded(cfg).servers.Keys == ConfiguredIds(cfg)
    ensures LoadsCleanly(cfg) ==>
              && (e.Error? <==> exists i :: 0 <= i < |order| && RequiredFails(o, log, Loaded(cfg), order, i))
              && (e.Nil? ==> l == RequiredLog(o, log, Loaded(cfg), order, |order|))
              && (e.Error? ==> RequiredError(o, log, Loaded(cfg), order, e, l))
  {
    var db2;
    e, db2 := Load(cfg);
    if e.Error? {
      return e, db2, log;
    }
    e, db, l := Start(o, log, cfg, db2, order);
  }

  /** The part of `Init` after a clean load: check that every server has a
      user, then test the required servers. */
  method Start(o: Oracle, log: Log, cfg: ProxyConfig, db2: Db, order: seq<string>) returns (e: Outcome, db: Db, l: Log)
    requires IsKeyOrder(order, ConfiguredIds(cfg))
    requires Consistent(db2)
    requires LoadGroups(map[], cfg.serverGroups).Ok?
    requires FirstFailure(LoadGroups(map[], cfg.serverGroups).value, cfg.servers, cfg.dbUsers, |cfg.servers|) == |cfg.servers|
    requires db2.servers.Keys == ConfiguredIds(cfg)
    requires db2.objects == NewServers(cfg.servers, cfg.dbUsers, |cfg.servers|)
    requires db2.defaultServer == LastDefault(cfg.servers, |cfg.servers|)
    ensures Consistent(db)
    ensures db.groups == db2.groups
    ensures e.Nil? ==>
              && db.servers.Keys == ConfiguredIds(cfg)
              && forall id | id in db.servers ::
                   db.objects[db.servers[id]].status == if db.objects[db.servers[id]].config.required then Operational else Shunned
    ensures e.Nil? && Validate(cfg) == [] ==> Ready(db)
    ensures |l| >= |log| && l[..|log|] == log
    ensures e.Error? <==> exists i :: 0 <= i < |order| && RequiredFails(o, log, db2, order, i)
    ensures e.Nil? ==> l == RequiredLog(o, log, db2, order, |order|)
    ensures e.Error? ==> RequiredError(o, log, db2, order, e, l)
  {
    l := log;
    var n := |cfg.servers|;
    FirstFailureSpec(LoadGroups(map[], cfg.serverGroups).value, cfg.servers, cfg.dbUsers, n);
    assert forall j :: 0 <= j < n ==> GetUser(cfg.dbUsers, cfg.servers[j].id).Ok?;
    LoadedServersHaveUsers(db2, cfg.servers, cfg.dbUsers, order);
    var e3 := TestServerConfig(db2, cfg.dbUsers, order);
    if e3.Error? {
      // a clean load gave every server a user
      assert false;
    }
    e, db, l := TestRequiredServers(o, log, db2, order);
    if e.Nil? {
      RequiredStatuses(db2, db, cfg.servers, cfg.dbUsers, order);
      if Validate(cfg) == [] {
        ValidConfiguration(cfg);
        DefaultFound(cfg.servers, n);
      }
    }
  }
}

=== FILE: server_status.dfy ===
/** Server health status (modules/db/server_status.go). Go's `Status` is an
    `int`, so any integer is a status value; only 0, 1 and 2 are named. */
module ServerStatus {
  import opened Common

  type Status = int

  const Operational: Status := 0
  const Shunned: Status := 1
  const Off: Status := 2

  const StatusNames: seq<string> := ["OPERATIONAL", "SHUNNED", "OFF"]

  /** `Status.String`: the name of a known status, "Unknown" for any other
      integer; the bounds check keeps the array index in range. */
  function StatusString(s: Status): (r: string)
    ensures Operational <= s <= Off <==> r != "Unknown"
  {
    if s < Operational || s > Off then "Unknown" else StatusNames[s]
  }

  /** Reading a status name back. */
  function ParseStatus(name: string): (r: Option<Status>)
    ensures r.Some? ==> Operational <= r.value <= Off
  {
    if name == "OPERATIONAL" then Some(Operational)
    else if name == "SHUNNED" then Some(Shunned)
    else if name == "OFF" then Some(Off)
    else None
  }

  /** The three named statuses have distinct names, each read back as itself;
      every other integer prints as "Unknown", which names no status. */
  lemma StatusNamesRoundTrip(s: Status)
    ensures Operational <= s <= Off ==> ParseStatus(StatusString(s)) == Some(s)
    ensures !(Operational <= s <= Off) ==> ParseStatus(StatusString(s)) == None
  {
  }

  lemma KnownStatusNames()
    ensures StatusString(Operational) == "OPERATIONAL"
    ensures StatusString(Shunned) == "SHUNNED"
    ensures StatusString(Off) == "OFF"
    ensures StatusString(-1) == "Unknown" && StatusString(3) == "Unknown"
  {
  }
}

=== FILE: stats.dfy ===
/** Query statistics (modules/stats/query.go): every executed query is
    recorded, with its execution time, under the hash of its normalised
    text. Times are Go `time.Duration` values, whole nanoseconds. */
module Stats {
  datatype QueryStat = QueryStat(query: string, execTime: int)

  type StatsMap = map<string, seq<QueryStat>>

  /** The records kept for `hash`; a hash never saved has none. */
  function Records(stats: StatsMap, hash: string): seq<QueryStat> {
    if hash in stats then stats[hash] else []
  }

  /** `SaveQuery`: one record is appended to the hash's list, the records
      already there keep their order, and every other hash is untouched. */
  function SaveQuery(stats: StatsMap, query: string, hash: string, execTime: int): (r: StatsMap)
    ensures hash in r
    ensures |Records(r, hash)| == |Records(stats, hash)| + 1
    ensures Records(r, hash)[..|Records(stats, hash)|] == Records(stats, hash)
    ensures Records(r, hash)[|Records(stats, hash)|] == QueryStat(query, execTime)
    ensures forall h :: h != hash ==> (h in r <==> h in stats) && Records(r, h) == Records(stats, h)
  {
    stats[hash := Records(stats, hash) + [QueryStat(query, execTime)]]
  }

  datatype Call = Call(query: string, hash: string, execTime: int)

  /** The calls among `calls` made with `hash`, in call order, as records. */
  function CallsFor(calls: seq<Call>, hash: string): (r: seq<QueryStat>)
    ensures |r| <= |calls|
  {
    if |calls| == 0 then []
    else
      var c := calls[|calls| - 1];
      CallsFor(calls[..|calls| - 1], hash) + (if c.hash == hash then [QueryStat(c.query, c.execTime)] else [])
  }

  function SaveAll(stats: StatsMap, calls: seq<Call>): StatsMap {
    if |calls| == 0 then stats
    else
      var c := calls[|calls| - 1];
      SaveQuery(SaveAll(stats, calls[..|calls| - 1]), c.query, c.hash, c.execTime)
  }

  /** From the empty map `init` starts with, a run of `SaveQuery` calls
      leaves each hash holding exactly the calls made with that hash, in the
      order they were made. */
  lemma {:induction false} SaveAllRecordsCalls(calls: seq<Call>, hash: string)
    ensures Records(SaveAll(map[], calls), hash) == CallsFor(calls, hash)
    decreases |calls|
  {
    if |calls| > 0 {
      var c := calls[|calls| - 1];
      var before := SaveAll(map[], calls[..|calls| - 1]);
      SaveAllRecordsCalls(calls[..|calls| - 1], hash);
      if c.hash == hash {
        var after := SaveQuery(before, c.query, c.hash, c.execTime);
        assert Records(after, hash) == Records(before, hash) + [QueryStat(c.query, c.execTime)];
      }
    }
  }
}

=== FILE: transaction_analyzer.dfy ===
/** Transaction-boundary detection for the session handler: a white-space
    blind, case-insensitive prefix match against four keywords, each bound to
    a handler that sets the session's two transaction flags
    (modules/proxy/transaction_analyzer.go). */
module TransactionAnalyzer {
  import opened Common

  // ---------------------------------------------------------------------------
  // caseInsensitiveHasPrefix

  /** The bytes of `s` that are not white space, in order. */
  function Strip(s: string): (r: string)
    ensures |r| <= |s|
  {
    if |s| == 0 then ""
    else Strip(s[..|s| - 1]) + (if IsSpace(s[|s| - 1]) then "" else [s[|s| - 1]])
  }

  lemma {:induction false} StripConcat(a: string, b: string)
    ensures Strip(a + b) == Strip(a) + Strip(b)
    decreases |b|
  {
    if |b| > 0 {
      var b' := b[..|b| - 1];
      assert (a + b)[..|a + b| - 1] == a + b';
      StripConcat(a, b');
    } else {
      assert a + b == a;
    }
  }

  lemma StripSnoc(s: string, i: nat)
    requires i < |s|
    ensures Strip(s[..i + 1]) == Strip(s[..i]) + (if IsSpace(s[i]) then "" else [s[i]])
  {
    assert s[..i + 1][..i] == s[..i];
  }

  /** Splitting `s` at `i`: the stripped head is a prefix of the stripped whole,
      and a non-space byte at `i` comes right after it. */
  lemma StripSplit(s: string, i: nat)
    requires i <= |s|
    ensures Strip(s) == Strip(s[..i]) + Strip(s[i..])
    ensures i < |s| && !IsSpace(s[i]) ==> Strip(s[i..]) == [s[i]] + Strip(s[i + 1..])
  {
    assert s == s[..i] + s[i..];
    StripConcat(s[..i], s[i..]);
    if i < |s| {
      StripFirst(s[i..]);
      assert s[i..][1..] == s[i + 1..];
    }
  }

  /** The first byte of `t` survives stripping exactly when it is not white
      space. */
  lemma StripFirst(t: string)
    requires |t| > 0
    ensures Strip(t) == (if IsSpace(t[0]) then "" else [t[0]]) + Strip(t[1..])
  {
    assert t == [t[0]] + t[1..];
    StripConcat([t[0]], t[1..]);
    StripSingle(t[0]);
  }

  lemma StripSingle(c: char)
    ensures Strip([c]) == (if IsSpace(c) then "" else [c])
  {
    assert [c][..0] == "";
  }

  lemma {:induction false} StripNoSpaces(s: string)
    requires forall k :: 0 <= k < |s| ==> !IsSpace(s[k])
    ensures Strip(s) == s
  {
    if |s| > 0 {
      StripNoSpaces(s[..|s| - 1]);
    }
  }

  lemma {:induction false} StripAllSpaces(s: string)
    requires forall k :: 0 <= k < |s| ==> IsSpace(s[k])
    ensures Strip(s) == ""
  {
    if |s| > 0 {
      StripAllSpaces(s[..|s| - 1]);
    }
  }

  /** Equal length and equal byte by byte once both sides are upper-cased. */
  predicate FoldEquals(a: string, b: string) {
    |a| == |b| && forall k :: 0 <= k < |a| ==> ToUpper(a[k]) == ToUpper(b[k])
  }

  /** What `caseInsensitiveHasPrefix` decides: with white space removed from
      both strings, the query starts with the prefix up to letter case. */
  predicate HasPrefix(query: string, prefix: string) {
    var q := Strip(query);
    var p := Strip(prefix);
    |p| <= |q| && FoldEquals(q[..|p|], p)
  }

  /** `caseInsensitiveHasPrefix`, written as the source's two-index loop. */
  method CaseInsensitiveHasPrefix(query: string, prefix: string) returns (b: bool)
    ensures b <==> HasPrefix(query, prefix)
  {
    var n := |query|;
    var m := |prefix|;
    var i := 0;
    var j := 0;
    while i < n && j < m
      invariant 0 <= i <= n && 0 <= j <= m
      invariant FoldEquals(Strip(query[..i]), Strip(prefix[..j]))
      decreases n - i + m - j
    {
      i := StepOverSpaces(query, i);
      j := StepOverSpaces(prefix, j);
      if i < n && j < m {
        if ToUpper(query[i]) != ToUpper(prefix[j]) {
          MismatchRefutes(query, prefix, i, j);
          return false;
        }
        StripSnoc(query, i);
        StripSnoc(prefix, j);
        i := i + 1;
        j := j + 1;
      }
    }
    j := StepOverSpaces(prefix, j);
    ExitDecides(query, prefix, i, j);
    return j == m;
  }

  /** One of the source's inner loops: step over white space from `i`. The
      bytes stepped over add nothing to the stripped prefix. */
  method StepOverSpaces(s: string, i: nat) returns (k: nat)
    requires i <= |s|
    ensures i <= k <= |s|
    ensures k < |s| ==> !IsSpace(s[k])
    ensures Strip(s[..k]) == Strip(s[..i])
  {
    k := i;
    while k < |s| && IsSpace(s[k])
      invariant i <= k <= |s|
      invariant Strip(s[..k]) == Strip(s[..i])
    {
      StripSnoc(s, k);
      k := k + 1;
    }
  }

  /** The first differing pair of non-space bytes refutes the match. */
  lemma MismatchRefutes(query: string, prefix: string, i: nat, j: nat)
    requires i < |query| && j < |prefix|
    requires !IsSpace(query[i]) && !IsSpace(prefix[j])
    requires FoldEquals(Strip(query[..i]), Strip(prefix[..j]))
    requires ToUpper(query[i]) != ToUpper(prefix[j])
    ensures !HasPrefix(query, prefix)
  {
    StripSplit(query, i);
    StripSplit(prefix, j);
    var l := |Strip(query[..i])|;
    var q := Strip(query);
    var p := Strip(prefix);
    assert q[l] == query[i];
    assert p[l] == prefix[j];
    if |p| <= |q| {
      assert q[..|p|][l] == q[l];
    }
  }

  /** Once the loop has stopped, consuming the whole prefix decides the match. */
  lemma ExitDecides(query: string, prefix: string, i: nat, j: nat)
    requires i <= |query| && j <= |prefix|
    requires i == |query| || j == |prefix|
    requires j < |prefix| ==> !IsSpace(prefix[j])
    requires FoldEquals(Strip(query[..i]), Strip(prefix[..j]))
    ensures j == |prefix| <==> HasPrefix(query, prefix)
  {
    StripSplit(query, i);
    StripSplit(prefix, j);
    var q := Strip(query);
    var p := Strip(prefix);
    var l := |Strip(query[..i])|;
    if j == |prefix| {
      assert prefix[..j] == prefix;
      assert q[..|p|] == Strip(query[..i]);
    } else {
      assert query[..i] == query;
      assert |p| > l == |q|;
    }
  }

  // ---------------------------------------------------------------------------
  // Keywords and their handlers

  datatype Keyword = StartTransaction | Begin | Commit | Rollback

  /** The key of the keyword in the source's `transactionCommands` map. */
  function KeywordText(k: Keyword): string {
    match k
    case StartTransaction => "START TRANSACTION"
    case Begin => "BEGIN"
    case Commit => "COMMIT"
    case Rollback => "ROLLBACK"
  }

  /** The session's two flags: a transaction is open, and the statement being
      dispatched must still go to the pinned default connection. */
  datatype TxState = TxState(transaction: bool, sendInTransaction: bool)

  /** The handler bound to each keyword: `BEGIN` and `START TRANSACTION` open a
      transaction, `COMMIT` and `ROLLBACK` close it; all four mark the
      statement for the pinned connection. */
  function HandleKeyword(k: Keyword, st: TxState): (r: TxState)
    ensures r.sendInTransaction
    ensures r.transaction <==> k in {StartTransaction, Begin}
  {
    match k
    case StartTransaction => TxState(true, true)
    case Begin => TxState(true, true)
    case Commit => TxState(false, true)
    case Rollback => TxState(false, true)
  }

  /** The first letter of every keyword, upper-cased. */
  lemma KeywordLead(k: Keyword)
    ensures |Strip(KeywordText(k))| > 0
    ensures Strip(KeywordText(k))[0] == KeywordText(k)[0]
    ensures ToUpper(KeywordText(k)[0]) == KeywordText(k)[0] as int
  {
    var t := KeywordText(k);
    StripSplit(t, 0);
    assert t[0..] == t;
  }

  /** The four keywords start with four different letters, so a query matches
      at most one of them. */
  lemma AtMostOneKeyword(query: string, k1: Keyword, k2: Keyword)
    requires HasPrefix(query, KeywordText(k1)) && HasPrefix(query, KeywordText(k2))
    ensures k1 == k2
  {
    KeywordLead(k1);
    KeywordLead(k2);
    var q := Strip(query);
    assert q[..|Strip(KeywordText(k1))|][0] == q[0];
    assert q[..|Strip(KeywordText(k2))|][0] == q[0];
  }

  /** The keyword a query starts with, if any; by `AtMostOneKeyword` the
      choice does not depend on the order in which the keywords are tried. */
  function Classify(query: string): (r: Option<Keyword>)
    ensures r.Some? ==> HasPrefix(query, KeywordText(r.value))
    ensures r.None? ==> forall k: Keyword :: !HasPrefix(query, KeywordText(k))
  {
    if HasPrefix(query, KeywordText(StartTransaction)) then Some(StartTransaction)
    else if HasPrefix(query, KeywordText(Begin)) then Some(Begin)
    else if HasPrefix(query, KeywordText(Commit)) then Some(Commit)
    else if HasPrefix(query, KeywordText(Rollback)) then Some(Rollback)
    else None
  }

  /** `AnalyzeTransaction` with the map's iteration order made explicit: the
      handler of the first keyword in `order` that the trimmed query starts
      with is run, and the loop stops. */
  function AnalyzeTransactionIn(st: TxState, query: string, order: seq<Keyword>): TxState {
    if |order| == 0 then st
    else if HasPrefix(TrimSpace(query), KeywordText(order[0])) then HandleKeyword(order[0], st)
    else AnalyzeTransactionIn(st, query, order[1..])
  }

  /** Go visits the four map entries in an unspecified order. */
  predicate IsMapOrder(order: seq<Keyword>) {
    |order| == 4 && forall k: Keyword :: k in order
  }

  /** The order-free reading of `AnalyzeTransaction`. */
  function AnalyzeTransaction(st: TxState, query: string): TxState {
    match Classify(TrimSpace(query))
    case Some(k) => HandleKeyword(k, st)
    case None => st
  }

  lemma {:induction false} AnalyzeTransactionInFinds(st: TxState, query: string, order: seq<Keyword>)
    ensures Classify(TrimSpace(query)).Some? && Classify(TrimSpace(query)).value in order ==>
              AnalyzeTransactionIn(st, query, order) == AnalyzeTransaction(st, query)
    ensures Classify(TrimSpace(query)).None? ==> AnalyzeTransactionIn(st, query, order) == st
  {
    var c := Classify(TrimSpace(query));
    if |order| > 0 {
      if HasPrefix(TrimSpace(query), KeywordText(order[0])) {
        if c.Some? {
          AtMostOneKeyword(TrimSpace(query), order[0], c.value);
        }
      } else {
        AnalyzeTransactionInFinds(st, query, order[1..]);
      }
    }
  }

  /** Whatever order Go's map iteration picks, the outcome is the same. */
  lemma IterationOrderIrrelevant(st: TxState, query: string, order: seq<Keyword>)
    requires IsMapOrder(order)
    ensures AnalyzeTransactionIn(st, query, order) == AnalyzeTransaction(st, query)
  {
    AnalyzeTransactionInFinds(st, query, order);
  }

  /** The flags after analysis: set by the matching keyword, untouched when no
      keyword matches. */
  lemma AnalyzeTransactionFlags(st: TxState, query: string)
    ensures var r := AnalyzeTransaction(st, query);
            var t := TrimSpace(query);
            && (HasPrefix(t, "BEGIN") || HasPrefix(t, "START TRANSACTION") ==> r == TxState(true, true))
            && (HasPrefix(t, "COMMIT") || HasPrefix(t, "ROLLBACK") ==> r == TxState(false, true))
            && ((forall k: Keyword :: !HasPrefix(t, KeywordText(k))) ==> r == st)
  {
    var t := TrimSpace(query);
    var c := Classify(t);
    if HasPrefix(t, "BEGIN") { AtMostOneKeyword(t, Begin, c.value); }
    if HasPrefix(t, "START TRANSACTION") { AtMostOneKeyword(t, StartTransaction, c.value); }
    if HasPrefix(t, "COMMIT") { AtMostOneKeyword(t, Commit, c.value); }
    if HasPrefix(t, "ROLLBACK") { AtMostOneKeyword(t, Rollback, c.value); }
  }

  // ---------------------------------------------------------------------------
  // What the white-space-blind match accepts

  /** Trimming before the match changes nothing: trimmed bytes are spaces. */
  lemma TrimIrrelevant(query: string)
    ensures Strip(TrimSpace(query)) == Strip(query)
  {
    var t := TrimSpace(query);
    var a := TrimStart(query);
    var e := TrimEnd(query);
    assert query == query[..a] + t + query[e..];
    StripPadded(query[..a], t, query[e..]);
  }

  lemma StripPadded(a: string, t: string, b: string)
    requires forall k :: 0 <= k < |a| ==> IsSpace(a[k])
    requires forall k :: 0 <= k < |b| ==> IsSpace(b[k])
    ensures Strip(a + t + b) == Strip(t)
  {
    StripConcat(a + t, b);
    StripConcat(a, t);
    StripAllSpaces(a);
    StripAllSpaces(b);
  }

  /** An empty or all-white-space query matches no keyword. */
  lemma BlankMatchesNothing(query: string, k: Keyword)
    requires forall m :: 0 <= m < |query| ==> IsSpace(query[m])
    ensures !HasPrefix(query, KeywordText(k))
  {
    StripAllSpaces(query);
    KeywordLead(k);
  }

  lemma StripJoin(a: string, w: string, b: string)
    requires forall k :: 0 <= k < |a| ==> !IsSpace(a[k])
    requires forall k :: 0 <= k < |w| ==> IsSpace(w[k])
    requires forall k :: 0 <= k < |b| ==> !IsSpace(b[k])
    ensures Strip(a + w + b) == a + b
  {
    StripConcat(a, w);
    StripNoSpaces(a);
    StripAllSpaces(w);
    assert Strip(a + w) == a + "" == a;
    StripConcat(a + w, b);
    StripNoSpaces(b);
  }

  /** Two spellings that differ only in the white space between the same two
      words match each other. */
  lemma RespacedMatches(a: string, w1: string, w2: string, b: string)
    requires forall k :: 0 <= k < |a| ==> !IsSpace(a[k])
    requires forall k :: 0 <= k < |w1| ==> IsSpace(w1[k])
    requires forall k :: 0 <= k < |w2| ==> IsSpace(w2[k])
    requires forall k :: 0 <= k < |b| ==> !IsSpace(b[k])
    ensures HasPrefix(a + w1 + b, a + w2 + b)
  {
    StripJoin(a, w1, b);
    StripJoin(a, w2, b);
    assert (a + b)[..|a + b|] == a + b;
  }

  /** White space anywhere, in any amount, is ignored. */
  lemma StartTransactionSpacing()
    ensures HasPrefix("START   TRANSACTION", KeywordText(StartTransaction))
    ensures HasPrefix("STARTTRANSACTION", KeywordText(StartTransaction))
  {
    RespacedMatches("START", "   ", " ", "TRANSACTION");
    assert "START" + "   " + "TRANSACTION" == "START   TRANSACTION";
    assert "START" + " " + "TRANSACTION" == "START TRANSACTION";
    RespacedMatches("START", "", " ", "TRANSACTION");
    assert "START" + "" + "TRANSACTION" == "STARTTRANSACTION";
  }

  /** A space inside the keyword is ignored too. */
  lemma SplitKeywordMatches()
    ensures HasPrefix("BE GIN", KeywordText(Begin))
  {
    RespacedMatches("BE", " ", "", "GIN");
    assert "BE" + " " + "GIN" == "BE GIN";
    assert "BE" + "" + "GIN" == "BEGIN";
  }

  /** A query that opens with the keyword, in any letter case, matches it
      whatever follows. */
  lemma LeadingWordMatches(w: string, rest: string, kw: string)
    requires forall k :: 0 <= k < |w| ==> !IsSpace(w[k])
    requires forall k :: 0 <= k < |kw| ==> !IsSpace(kw[k])
    requires FoldEquals(w, kw)
    ensures HasPrefix(w + rest, kw)
  {
    StripConcat(w, rest);
    StripNoSpaces(w);
    StripNoSpaces(kw);
    var q := Strip(w + rest);
    assert q == w + Strip(rest);
    assert q[..|w|] == w;
  }

  /** Letter case is ignored, and so is everything after the keyword: a
      `ROLLBACK TO SAVEPOINT` statement counts as a `ROLLBACK`. */
  lemma RollbackToSavepointMatches()
    ensures HasPrefix("rollback to savepoint s1", KeywordText(Rollback))
  {
    var w := "rollback";
    assert FoldEquals(w, "ROLLBACK");
    LeadingWordMatches(w, " to savepoint s1", "ROLLBACK");
    assert w + " to savepoint s1" == "rollback to savepoint s1";
  }
}
